=== FILE: README.md ===
# recessive_support_aou in Dafny

A model of the data-handling scripts of `recessive_support_aou`, the support code for
recessive-association analyses on the All of Us workbench. The model covers:

- the merge of covariates with principal components, and of covariates with type-2
  diabetes status;
- the derivation of demographic covariates (age, age², age·sex, age²·sex, sex);
- the lab-measurement harmonisation of the Unifier functions: column selection, concept
  filter and merge, unit mapping, unit conversion, flagging, trimming, outlier-bound
  edits and EHR-site drops;
- the single-lab script: unit exclusion, mg/dL conversion, the ≤ 50 filter and the
  median per person;
- phecode handling: the `phe_` prefix repair, the brava-code to AoU-code mapping, the
  two-phecode pair extraction and the release step that censors allele counts and
  relabels traits;
- association-result aggregation: the result-file name parser, the `N_case` and
  allele-frequency filters, the p-value sort and the high-frequency combinations;
- the notebook naming helpers.

Everything is pure. A pandas data frame is a `Tables.Table`: a header plus positional
rows of `Cell`s (`Missing | Str | Int | Real | Bool`). A JSON entry is a
`Json.Object`, a list of key/value pairs in insertion order. Script failures are
`Wrappers.Result` errors named after the Python exception (`KeyError`, `ValueError`,
`TypeError`, `AttributeError`, `IndexError`). Reading and writing files is not
modelled: every script takes its tables and JSON entries as already-parsed values. Two
pieces of library behaviour are parameters:

- `floatText` is Python's text for a float;
- `parse` is the string parser of `pd.to_numeric`.

Modules: `Wrappers`, `Strings`, `Seqs`, `Json` and `Tables` are the shared vocabulary.
`PcMerge`, `DiabetesMerge`, `Demographics`, `Unifier`, `Flagger`, `LabEdits`,
`LabMedian`, `Notebooks`, `PhecodeFix`, `PhecodeMap`, `PhecodePairs`, `ResultNames`,
`Results` and `Censor` follow the scripts.

## Model

| member | source | states |
|---|---|---|
| PcMerge.NameKeyColumn | scripts/combine_pheno_and_covars.py:18-21 | An `IndexError` happens exactly when the PCS table has no columns. Otherwise the rows are unchanged and the first column is named `person_id`. With distinct names the other names are unchanged, and a table whose first column is already `person_id` is returned as it is. |
| PcMerge.Width | scripts/combine_pheno_and_covars.py:25-26 | The number of PC columns is the largest piece count over the `scores` cells. Some row attains it, and it is zero exactly when there are no rows. |
| PcMerge.ExpandScores | scripts/combine_pheno_and_covars.py:24-27 | The PCS table becomes `person_id` followed by `PC1..PCk`, with one row per input row. Each row keeps its key, and PC column `j` holds piece `j` of that row's `scores` cell. |
| PcMerge.ExpandCellPieces | scripts/combine_pheno_and_covars.py:25 | A string cell's PC cells are strings, and joining them with `,` gives back the cell stripped of `[` and `]`. The remaining PC cells, and every PC cell of a NaN, are missing. |
| PcMerge.CommaJoinUnwraps | scripts/combine_pheno_and_covars.py:25 | Take pieces without commas whose outer ends are not brackets. `strip("[]")` then `split(",")` of `[v1,...,vk]` returns exactly those pieces. |
| PcMerge.ScoresRoundTrip | scripts/combine_pheno_and_covars.py:25-26 | Round trip: expanding `[v1,...,vk]` puts `vi` in column `PCi` and leaves the columns after `k` missing. |
| PcMerge.FilterSex | scripts/combine_pheno_and_covars.py:40-48 | "Male" keeps exactly the rows whose `sex` is the string `0.0`, and "Female" keeps exactly the `1.0` rows. Any other or absent argument returns the covariates unchanged. A filtering run fails exactly when there is no `sex` column. |
| PcMerge.PreparePcs | scripts/combine_pheno_and_covars.py:18-38 | Preparing the PCS table fails exactly when it has no columns or the renamed header repeats a name. Otherwise the row count is kept and `person_id` comes first. |
| PcMerge.PrepareCovariates | scripts/combine_pheno_and_covars.py:32-48 | Only a sex-specific run on a table without `sex` fails, with `KeyError`. Without a sex-specific run every row is kept, in order, with `person_id` stripped. A sex-specific run keeps exactly the stripped rows whose `sex` is the run's code. The header is kept and no row is added. |
| PcMerge.PrepareCovariatesRow | scripts/combine_pheno_and_covars.py:32-46 | In a sex-specific run, covariate row `k` survives (key stripped) exactly when its own `sex` is the run's code. |
| PcMerge.FillEmpty | scripts/combine_pheno_and_covars.py:56-58 | After `fillna("")` no cell is missing. The header and the row count are unchanged. |
| PcMerge.CombineCovariatesAndPcs | scripts/combine_pheno_and_covars.py:50-58 | The script succeeds exactly when the inner merge does. Its output has the merge's columns and no missing cell. |
| PcMerge.MergeKeySet | scripts/combine_pheno_and_covars.py:51 | The merged `person_id` values are the intersection of the two prepared tables' key sets. |
| DiabetesMerge.FromRecords | combine_pheno_and_covars.py:8-9 | With `header=None` every record, the first included, becomes a row under the fixed names. Short records are padded with missing cells. |
| DiabetesMerge.MergedColumns | combine_pheno_and_covars.py:23-37 | The merge output is the covariate columns followed by `T2Diab`. Both that header and the final seven-column order have distinct names. |
| DiabetesMerge.MergeLeft | combine_pheno_and_covars.py:18-23 | The left merge of the stripped tables never has fewer rows than the covariates, and its columns are the covariates' plus `T2Diab`. |
| DiabetesMerge.MergeLeftRows | combine_pheno_and_covars.py:23 | Merged row `i` is the left-join row built from pair `i` of the left pairing. |
| DiabetesMerge.FillAndReorder | combine_pheno_and_covars.py:29-37 | The output has exactly the columns person_id, T2Diab, age, age2, age_sex, age2_sex, sex. No `T2Diab` cell is missing; it is the merged status, or `""` when that was missing. Every covariate cell is carried over unchanged. |
| DiabetesMerge.CombineDiabetesAndCovariates | combine_pheno_and_covars.py:8-37 | The script's output has the seven output columns, at least one row per covariate row, and no missing `T2Diab`. |
| DiabetesMerge.PairingAt | combine_pheno_and_covars.py:19-23 | Each pair holds a stripped covariate row and, if present, a stripped diabetes row with the same `person_id`. A pair without a partner comes from a covariate row that no diabetes row matches. |
| DiabetesMerge.LeftJoinRowValues | combine_pheno_and_covars.py:23 | A merged row reads its covariate cells from the left row. Its `T2Diab` is the partner's status, or missing without a partner. |
| DiabetesMerge.OutputRow | combine_pheno_and_covars.py:23-37 | Output row `i` carries the covariate cells of pair `i`. Its `T2Diab` is the partner's filled status, or `""` without a partner. |
| DiabetesMerge.EveryCovariateRowKept | combine_pheno_and_covars.py:23 | Every stripped covariate row appears in the output with all its covariate cells. |
| DiabetesMerge.UniquePairing | combine_pheno_and_covars.py:23 | With unique diabetes ids each covariate row has at most one partner. The pairing then has one pair per covariate row, in covariate order. |
| DiabetesMerge.UniqueIdsKeepRows | combine_pheno_and_covars.py:23 | With unique diabetes ids the output row count equals the covariate row count, and output row `k` is covariate row `k`. |
| DiabetesMerge.StatusOfPerson | combine_pheno_and_covars.py:23-30 | With unique ids, a person with a diabetes row gets that row's status, filled with `""` when missing. |
| DiabetesMerge.StatusWithoutRow | combine_pheno_and_covars.py:23-30 | With unique ids, a person without a diabetes row gets `T2Diab = ""`. |
| Demographics.Surviving | phenotypes/transform_demographics.py:7-20 | A missing `age_at_cdr` or `sex_at_birth` column is a `KeyError`. A string age in a row that has a sex is a `TypeError`. Otherwise the header is kept and rows are only removed. |
| Demographics.SurvivingRows | phenotypes/transform_demographics.py:7-20 | The surviving rows are exactly the input rows with both fields present, age ≤ 100 and sex exactly "Female" or "Male". |
| Demographics.Truncate | phenotypes/transform_demographics.py:26 | `astype(int)` truncates toward zero. The result lies within one of the input, on the zero side. |
| Demographics.TransformDemographics | phenotypes/transform_demographics.py:7-32 | The script succeeds exactly when the filters do and `person_id` exists. Its output has the six output columns and one row per surviving row, in order. Each output row is built from a row that passes the filters. |
| Demographics.CovariateRowFacts | phenotypes/transform_demographics.py:23-32 | Each output row has: the same person; an integer age ≤ 100 that is the truncated input age; age2 = age·age; sex 1 exactly for "Female" and 0 exactly for "Male". age_sex and age2_sex equal age and age2 for women and are 0 for men. |
| Demographics.OutputRowsValid | phenotypes/transform_demographics.py:7-32 | Every output row comes from an input row that passes the filters. Its age is an integer ≤ 100, its sex is 0 or 1, and its person is the source row's. |
| Unifier.Preprocess | phenotypes/unifier_functions.py:34-43 | A `ValueError` happens exactly when a requested column is absent. Otherwise the result has exactly the requested columns, in order, with the same rows. |
| Unifier.SelectOwnColumns | phenotypes/unifier_functions.py:34-43 | Selecting a table's own distinct columns returns the table unchanged. |
| Unifier.PreprocessIdempotent | phenotypes/unifier_functions.py:34-43 | Preprocessing twice with the same column list equals preprocessing once. |
| Unifier.FilterAndMerge | phenotypes/unifier_functions.py:46-54 | A side without `measurement_concept_id`, or metadata without `standard_concept_name`, is a `KeyError`. |
| Unifier.KnownConceptKeys | phenotypes/unifier_functions.py:47-48 | The concept filter keeps exactly the concept ids that also occur in the metadata. |
| Unifier.FilterAndMergeKeys | phenotypes/unifier_functions.py:46-54 | The merged concept ids are the intersection of the measurement ids and the metadata ids. |
| Unifier.UnitMapLookup | phenotypes/unifier_functions.py:60 | The unit dictionary holds a unit exactly when some unit-map row names it. Its value is the reduced unit of the last such row. |
| Unifier.UnitMapper | phenotypes/unifier_functions.py:57-67 | A missing column is a `KeyError`. Otherwise each row's `assigned_unit` is the mapped reduced unit or the original name, with missing turned into "none". Nothing else changes. |
| Unifier.AssignedUnitMeaning | phenotypes/unifier_functions.py:58-65 | The assigned unit is never missing. It is the reduced unit of the last matching map row, or the row's own unit name when no map row matches. |
| Unifier.UnitClassifier | phenotypes/unifier_functions.py:70-73 | `classified_unit` is a copy of `assigned_unit`, and nothing else changes. Without `assigned_unit` it is a `KeyError`. |
| Unifier.Mul | phenotypes/unifier_functions.py:94-98 | A missing operand gives missing, even against a string, because pandas retries the raising product on the present pairs only. A string times an integer (or bool) is the string repeated. The product raises exactly when a string meets a present operand that is not an integer. Numbers multiply. |
| Unifier.ApplyConversion | phenotypes/unifier_functions.py:85-98 | Each row keeps its original value in `unedited_value_as_number`. `final_unit` is the standard unit if the factor is not 0 and the classified unit otherwise. The value is multiplied only when the factor is not 0. Other cells are unchanged, and the error cases are stated. |
| Unifier.FactorCases | phenotypes/unifier_functions.py:87-98 | A missing factor (no conversion row matched) counts as non-zero: the unit becomes the standard unit and the value becomes missing. A zero factor keeps the classified unit and the value. |
| Unifier.UnitConverter | phenotypes/unifier_functions.py:76-100 | The left merge never loses a measurement. A table without `lab_name` is a `KeyError`. |
| Flagger.OutlierTest | phenotypes/unifier_functions.py:117-122 | The outlier test raises exactly when a comparison mixes a string with a number. Otherwise it holds iff value < minimum or value > maximum, with a missing side comparing false. |
| Flagger.MeasurementFlagger | phenotypes/unifier_functions.py:103-124 | The flagger succeeds exactly when the read columns exist and every bound comparison is defined. The errors come in the order of evaluation: with every column before `maximum_value` present, a `<` comparison that raises is a `TypeError` even when `maximum_value` is absent, and a missing `maximum_value` is a `KeyError` only once every `<` comparison is defined. Then `nan_flag` says the value is missing and `nan_equiv_flag` that it is a NaN-equivalent. `missing_value_flag` is their OR, `unit_none_flag` is unit == "none", and `unit_rename_flag` says the unit is a renamed one. `unit_discord_flag` is final ≠ standard unit, and `outlier_flag` is the outlier test. Other cells are unchanged. |
| Flagger.FlaggedConsistent | phenotypes/unifier_functions.py:103-124 | Every flagged row's flags agree with its own cells. |
| Flagger.MergeOnCommonKeeps | phenotypes/unifier_functions.py:139 | Every row of the final metadata merge carries the cells of some flagged row. |
| Flagger.CleanRows | phenotypes/unifier_functions.py:145-151 | The trimmed rows are exactly the rows whose four trim flags are all false. |
| Flagger.Trim | phenotypes/unifier_functions.py:144-165 | A missing flag or output column is a `KeyError`. Otherwise the output has the seven columns with `final_unit` renamed to `unit`, one row per clean row, read from that row. |
| Flagger.TrimmedRowsValid | phenotypes/unifier_functions.py:144-165 | Each trimmed row comes from a clean row. Given consistent flags, its value is present and not NaN-equivalent, its unit equals the standard unit, and the value is neither below its minimum nor above its maximum. |
| Flagger.HarmonizedConsistent | phenotypes/unifier_functions.py:127-141 | Every row of the harmonised table has flags that agree with its own cells. |
| Flagger.HarmonizedTrimValid | phenotypes/unifier_functions.py:127-165 | End to end: every row of `trim(harmonize(...))` has a present value that is not NaN-equivalent, is neither below its minimum nor above its maximum, and is in the standard unit. |
| LabEdits.FirstLab | phenotypes/unifier_functions.py:265 | Finds the first row whose `lab_name` equals the lab, or reports that no row does. |
| LabEdits.UpdateOutlierBounds | phenotypes/unifier_functions.py:257-275 | No bound given is a `ValueError`. An absent `lab_name` column is a `KeyError`. An absent lab is a `ValueError`. Otherwise only the supplied bound(s) of the first matching row change, and every other cell of the table stays. |
| LabEdits.UpdateOutlierBoundsIdempotent | phenotypes/unifier_functions.py:257-275 | Applying the same bound update twice equals applying it once. |
| LabEdits.SiteNames | phenotypes/unifier_functions.py:279-281 | Every rewritten site name contains "EHR site ". Names that had it are kept, the others gain it as a prefix, and nothing else appears. |
| LabEdits.SiteNamesFixed | phenotypes/unifier_functions.py:279-281 | Rewriting the site names twice equals rewriting them once. |
| LabEdits.DropEhrSite | phenotypes/unifier_functions.py:278-291 | No `src_id` column is a `KeyError`, and no `value_as_number` column is an `AttributeError`. Otherwise the result has the same header and exactly the input rows whose `src_id` is not a rewritten site name. |
| LabEdits.DropEhrSiteIdempotent | phenotypes/unifier_functions.py:278-291 | Dropping the same sites twice equals dropping them once. |
| LabMedian.DropExcludedUnits | phenotypes/measurement_3004410_median.py:7-9 | No `unit_concept_name` column is a `KeyError`. Otherwise the kept rows are exactly those whose unit is not one of the six excluded names. |
| LabMedian.ConvertMgPerDl | phenotypes/measurement_3004410_median.py:12-14 | Rows in "milligram per deciliter" get the value (v + 46.7)/28.7, and every other cell is unchanged. A string value is an error. |
| LabMedian.KeepAtMost50 | phenotypes/measurement_3004410_median.py:16-17 | The kept rows are exactly those whose value compares ≤ 50. |
| LabMedian.Ascending | phenotypes/measurement_3004410_median.py:21 | The values are sorted as a permutation of the input. |
| LabMedian.MedianHalves | phenotypes/measurement_3004410_median.py:21 | At least half of the values are ≤ the median, and at least half are ≥ it. |
| LabMedian.MedianBetween | phenotypes/measurement_3004410_median.py:21 | Some value is ≤ the median and some value is ≥ it, so the median lies between the smallest and the largest value. |
| LabMedian.GroupKeys | phenotypes/measurement_3004410_median.py:21 | The group keys are exactly the non-missing person ids, each once. Numeric ids come first in ascending value; text ids follow in code-point order of their text, as pandas sorts mixed `groupby` keys. |
| LabMedian.MedianPerPerson | phenotypes/measurement_3004410_median.py:21 | A missing `person_id` or value column is an error. Otherwise the output is `person_id` and the value column, with one row per distinct person. Each row's value is the median of that person's numeric values, or missing when the person has none. |
| LabMedian.GroupValuesFrom | phenotypes/measurement_3004410_median.py:21 | Each grouped value comes from an input row of that person. |
| LabMedian.PersonMedianAtMost50 | phenotypes/measurement_3004410_median.py:16-21 | After the ≤ 50 filter each person's median is ≤ 50. |
| LabMedian.SummaryAtMost50 | phenotypes/measurement_3004410_median.py:7-21 | End to end: every median in the script's output is a number ≤ 50. |
| Notebooks.PheDd | phenotypes/utilities.py:31-40 | The lookup is defined for exactly the six data types, and any other key is a `KeyError`. Only lab, phecode and phecodex have an index input. |
| Notebooks.IndexFilenameOfTable | phenotypes/utilities.py:394-395 | The index file name is the data file name with "table" replaced by "index". A name without "table" is unchanged. |
| Notebooks.NotebookName | phenotypes/utilities.py:346-355 | Every notebook name ends in ".ipynb". |
| Notebooks.PhysicalNotebookName | phenotypes/utilities.py:347-349 | A physical measurement's name is its id lowercased with `-` → `_`, followed by "_summary.ipynb". |
| Notebooks.LabNotebookName | phenotypes/utilities.py:350-352 | A lab notebook for ids listed as "a, b, c" is named "measurement_a_b_c.ipynb": the separators become `_`. |
| Notebooks.OtherNotebookNamesDistinct | phenotypes/utilities.py:353 | For the other data types, distinct ids give distinct notebook names. |
| Notebooks.Kernel | phenotypes/utilities.py:371-372 | The kernel is one of "ir" and "python3", and it is "ir" exactly when the language name is "r" or "R". |
| Notebooks.LowerIsR | phenotypes/utilities.py:371 | Lower-casing gives "r" exactly for the names "r" and "R", the partner that turns the lower-casing test into a statement about the input. |
| Notebooks.IntroOfIdsWith | phenotypes/utilities.py:104 | The intended introduction of a list of ids keeps every id in order and puts the conjunction before the last id only. |
| Notebooks.IntroOfIds | phenotypes/utilities.py:104 | The same with ", " and " and ": a single id is unchanged, and several become "a, b and c". |
| Notebooks.IntroAsWrittenCounterexample | phenotypes/utilities.py:104 | As written, "1, 23, 2" becomes "1 and 23 and 2". |
| Notebooks.IntroExample | phenotypes/utilities.py:104 | The corrected introduction of "1, 23, 2" is "1, 23 and 2". |
| Notebooks.LabQc | phenotypes/utilities.py:270-276 | A concept id without sites to drop gets an empty QC cell and the not-applicable note. A listed one keeps the note and the summary code. |
| Notebooks.LabQcNotApplicable | phenotypes/utilities.py:270-273 | Without sites to drop, the summary code reads `df_final` instead of `df_trimmed_dropped`. |
| Notebooks.LabQcApplicable | phenotypes/utilities.py:275-276 | With sites to drop, the "[537]" placeholder is replaced by the mapped site list. |
| Notebooks.DefaultConceptIds | phenotypes/utilities.py:402-403 | The default ids are exactly the header names other than `person_id` and `sex`. A header without `person_id` is a `KeyError`. |
| Notebooks.DefaultConceptIdsOrder | phenotypes/utilities.py:402-403 | The default ids keep header order. |
| PhecodeFix.PrefixedNotNumeric | phecode_numeric_issue_fix.py:16 | A name with the `phe_` prefix is never numeric. |
| PhecodeFix.ColumnName | phecode_numeric_issue_fix.py:16 | A wholly numeric name gets the `phe_` prefix and any other name is kept. No new name is numeric. |
| PhecodeFix.RenameColumns | phecode_numeric_issue_fix.py:16 | The cells, the column count and the order are kept. Each name is renamed by the rule, and no resulting name is numeric. |
| PhecodeFix.RenameColumnsIdempotent | phecode_numeric_issue_fix.py:16 | Renaming twice equals renaming once. |
| PhecodeFix.RenameColumnsDistinct | phecode_numeric_issue_fix.py:16 | Distinct names stay distinct unless a header holds both `c` and `phe_c`. |
| PhecodeFix.RenameColumnsCollide | phecode_numeric_issue_fix.py:16 | "250" and "phe_250" collapse onto one name. |
| PhecodeFix.PrefixItem | phecode_numeric_issue_fix.py:32 | A list item whose `str()` is numeric becomes `phe_` + that text, and any other item is kept. |
| PhecodeFix.UpdatePhecodes | phecode_numeric_issue_fix.py:29-36 | Only `phecode` may change, and the key set is kept. A list has its numeric items prefixed. A string is prefixed only when wholly numeric. Any other value, and a missing key, leave the entry as it is. |
| PhecodeFix.PrefixItemsIdempotent | phecode_numeric_issue_fix.py:32 | Repairing a list twice equals repairing it once. |
| PhecodeFix.UpdatePhecodesIdempotent | phecode_numeric_issue_fix.py:29-36 | Repairing an entry twice equals repairing it once. |
| PhecodeFix.UpdateJsonPhenotypes | phecode_numeric_issue_fix.py:39 | Every entry is repaired, and the count and order are kept. |
| PhecodeFix.UpdateJsonPhenotypesIdempotent | phecode_numeric_issue_fix.py:29-39 | Repairing the file twice equals repairing it once. |
| PhecodeFix.DecimalPhecodeKept | phecode_numeric_issue_fix.py:33-35 | A phecode string holding `.` or `,` (such as "250.2" or "250, 401") is left unchanged. |
| PhecodeMap.BravaMapping | add_phecodes_to_json.py:12 | A missing column is a `KeyError`. Otherwise the keys are exactly the brava codes of the rows. |
| PhecodeMap.BravaMappingLastWins | add_phecodes_to_json.py:12 | For a repeated brava code, the last row's AoU code wins. |
| PhecodeMap.Lookup | add_phecodes_to_json.py:17-18 | A JSON list or object id is unhashable, so `in` raises `TypeError`, and only then. Otherwise the id finds a value exactly when some key is equal to it under Python `==`, and the value is that key's. |
| PhecodeMap.CandidatesMatch | add_phecodes_to_json.py:17 | The cells the lookup tries are exactly those Python `==` makes equal to the id: the same text, or the same number for integers and booleans. |
| PhecodeMap.MappedPhecode | add_phecodes_to_json.py:16-17 | The lookup raises exactly when `phenotype_ID` is present and is a list or an object. An entry has a mapped code exactly when its `phenotype_ID` is present and equals a key of the mapping. |
| PhecodeMap.AddPhecode | add_phecodes_to_json.py:16-18 | An unhashable id raises. A mapped entry gets `phecode` set or overwritten to the mapped code, and no other field changes. A missing or unmapped `phenotype_ID` leaves the entry as it is. |
| PhecodeMap.AddPhecodeIdempotent | add_phecodes_to_json.py:15-18 | Where adding the phecode succeeds, adding it twice equals adding it once. |
| PhecodeMap.AddPhecodes | add_phecodes_to_json.py:15-22 | The script raises exactly when some entry's id is unhashable, with the first such entry's error, so nothing is written. Otherwise the count and order are kept, no field but `phecode` changes, and every mapped entry carries its mapped code. |
| PhecodeMap.AddPhecodesFromRow | add_phecodes_to_json.py:12-18 | End to end: an entry whose id equals the brava code of row `k`, of no later row and of no other brava code, gets row `k`'s AoU code. |
| PhecodePairs.ExtractPhecodes | plot_phecode_correlation.py:8-20 | The extraction yields, in input order, exactly the entries whose `phecode` is a string with exactly one comma. Each is given as (phenotype_ID, first part stripped, second part stripped). A qualifying entry without `phenotype_ID` is a `KeyError`. |
| PhecodePairs.HasTwoCodesIff | plot_phecode_correlation.py:15-17 | A phecode splits into two parts exactly when it is a string holding one comma. |
| PhecodePairs.PairOfJoined | plot_phecode_correlation.py:15-18 | "a,b" with comma-free parts yields (id, strip(a), strip(b)). |
| PhecodePairs.IsTrueCells | plot_phecode_correlation.py:39 | A cell counts as true exactly when `str(x).lower()` is "true". So do booleans that are true and strings spelling "true" in any case; missing values and integers never count. |
| PhecodePairs.CountTrue | plot_phecode_correlation.py:39-40 | The case count is at most the row count, and it is 0 when no cell is true. |
| PhecodePairs.BoolColumn | plot_phecode_correlation_separate.py:36 | Each cell becomes true exactly when its lowercased text is "true". |
| PhecodePairs.CaseCountIsSum | plot_phecode_correlation.py:39-40 | The count of true cells equals the sum of the boolean column. |
| PhecodePairs.Surviving | plot_phecode_correlation.py:33-36 | The kept pairs are exactly those whose two phecodes are CSV columns. |
| PhecodePairs.PlotData | plot_phecode_correlation.py:31-49 | There are never more points than pairs, and every case count is at most the row count. |
| PhecodePairs.PlotDataPoints | plot_phecode_correlation.py:31-49 | The points are exactly the kept pairs' points, one per kept pair and in pair order. |
| PhecodePairs.PlotCorrelation | plot_phecode_correlation.py:51-56 | The early return happens exactly when no pair is usable. Otherwise the points are non-empty and come from the plot data. |
| PhecodePairs.FileNameShape | plot_phecode_correlation_separate.py:51 | A plot file name starts with the phenotype id and `_` and ends in ".png". |
| PhecodePairs.FileNameRoundTrip | plot_phecode_correlation_separate.py:51 | The two phecodes can be read back from the file name, provided neither contains "_vs_". |
| PhecodePairs.PlotFiles | plot_phecode_correlation_separate.py:30-51 | The plot file names are one per kept pair, in pair order, each named after its pair. |
| PhecodePairs.PlotFileOfPair | plot_phecode_correlation_separate.py:30-51 | Every file written belongs to an input pair whose two phecodes are both columns. |
| ResultNames.LazyGroupsCover | spatests/combine_and_sort_results.py:15 | When the lazy groups match from a position, the groups interleaved with the literals occur there. |
| ResultNames.ParseNameCovers | spatests/combine_and_sort_results.py:15-18 | Soundness: a parsed name contains `aou_snp_A_step2_T_vars_V.txt` for its groups (A, T, V). |
| ResultNames.LazyGroupsRoundTrip | spatests/combine_and_sort_results.py:15 | Parts that do not contain their closing literal are recovered exactly by the lazy matcher. |
| ResultNames.ParseAssemble | spatests/combine_and_sort_results.py:15-18 | Round trip: for any markers, parsing the assembled name returns the groups, provided no occurrence of a group's closing marker starts inside that group. |
| ResultNames.ResultNameRoundTrip | spatests/combine_and_sort_results.py:15-18 | The round trip holds for the script's pattern. |
| Results.ToNumeric | spatests/combine_and_sort_results.py:28-35 | `to_numeric(errors="coerce")` keeps numbers and NaN. A string becomes NaN exactly when it does not parse. |
| Results.CoerceRow | spatests/combine_and_sort_results.py:28-35 | Coercion changes only the one column. |
| Results.KeepWhere | spatests/combine_and_sort_results.py:28-35 | Without the column the table is unchanged. Otherwise the kept rows are exactly the coerced input rows whose value is a number meeting the bound. |
| Results.KeepWhereOthers | spatests/combine_and_sort_results.py:28-35 | A property of another column's cells holds in every kept row. |
| Results.Annotate | spatests/combine_and_sort_results.py:23-26 | Every row gains Ancestry, Trait and VariantClass equal to the parsed triple, and nothing else changes. |
| Results.ProcessFile | spatests/combine_and_sort_results.py:7-35 | A file is used exactly when its name lacks "ADDITIVE" and parses. The output columns are the input's plus the three tags. Every output row is the output row of an input row that passes both filters, and every input row that passes has its output row in the result. An output row holds the name parts under the tags, the number read from the cell under `N_case` and `AF_Allele2`, and the input cell elsewhere. A row passes when its numeric `N_case` is ≥ 100 and its numeric AF is < 0.5, each test applied only when the file has the column. |
| Results.FileTables | spatests/combine_and_sort_results.py:7-38 | There is one collected table per used file, in increasing file position (`Results.UsedFiles`). Table `j` is the processed table of the `j`th used file. |
| Results.UsedFiles | spatests/combine_and_sort_results.py:7-17 | The positions of the used files, in strictly increasing order: exactly the files whose name lacks "ADDITIVE" and matches the pattern. |
| Results.CombineTables | spatests/combine_and_sort_results.py:41-47 | No table is a `ValueError`. No `p.value` column is a `KeyError`. Otherwise the output has the union of the columns and every row, with `p.value` coerced, sorted by p-value with NaN last. The output rows are a permutation (same multiset) of the concatenated rows with `p.value` coerced, that is, of every row of every table, realigned to the union of the columns and coerced. |
| Results.CoercedConcat | spatests/combine_and_sort_results.py:41-44 | Coercing `p.value` on the concatenated table gives each table's realigned rows coerced, table by table in order. |
| Results.CombineAndSort | spatests/combine_and_sort_results.py:7-47 | End to end: if every file is skipped the script raises `ValueError`. Otherwise every kept row of every used file is in the output, and the output rows are a permutation of the coerced concatenation of the used files' tables. |
| Results.FilesReachOutput | spatests/combine_and_sort_results.py:38-47 | Every kept row of every used file reaches the sorted output. |
| Results.FileCombos | spatests/extract_high_AF_combos.py:13-18 | A name that does not match contributes nothing. ADDITIVE files are not excluded. |
| Results.GroupCombos | spatests/extract_high_AF_combos.py:23-33 | A file without `MarkerID` or `AF_Allele2` contributes nothing. A string AF is a `TypeError`. Otherwise the triples are exactly (MarkerID, ancestry, class) of the rows with AF ≥ 0.5. |
| Results.HighAfCombos | spatests/extract_high_AF_combos.py:10-33 | The set is the union of the files' triples, so duplicates collapse. Any failing file makes the script fail. |
| Results.AfComplement | spatests/combine_and_sort_results.py:34-35 | On a numeric allele frequency a row passes the `< 0.5` filter of the combining script exactly when it fails the `>= 0.5` filter of `extract_high_AF_combos.py` (line 29). A NaN frequency passes neither. A text frequency is coerced to NaN by the combining script but makes the comparison raise in the other. |
| Json.QuoteChar | spatests/censor_process_results.py:14 | `str()` of a list or dict writes each string with `repr`, whose quote is chosen so that it occurs in the text only when both quote characters do: only then does `repr` have to escape a quote. The double quote is used exactly when the text holds a single quote and no double quote. |
| Json.EscapeRoundTrip | spatests/censor_process_results.py:14 | Reading the escaped body of a `repr` back, as a Python literal is read, gives the original text. |
| Json.EscapeQuoted | spatests/censor_process_results.py:14 | Inside a `repr` body every occurrence of the chosen quote follows a backslash, so the literal ends only at its closing quote. |
| Json.SetUniqueKeys | add_phecodes_to_json.py:18 | Item assignment on a dict with distinct keys keeps its keys distinct (`Json.SetKeys`: it adds exactly the assigned key). |
| Censor.Codes | spatests/censor_process_results.py:14-16 | An entry's phecodes are non-empty and never contain ", ". |
| Censor.JoinedCodes | spatests/censor_process_results.py:14-16 | A phecode text joined with ", " from non-empty codes lists exactly those codes. |
| Censor.SexLabel | spatests/censor_process_results.py:18-22 | A missing key is a `KeyError`, and a non-string value is an `AttributeError`. Otherwise the label is "male" or "female" when the stripped, lowercased value is one of those, and "FALSE" otherwise. |
| Censor.EntryUpdate | spatests/censor_process_results.py:13-22 | An entry without phecodes writes nothing and raises nothing. Otherwise a missing `phenotype_ID` is a `KeyError`, then the label's error applies. A successful entry writes its id and label under each of its phecodes. |
| Censor.EntryUpdates | spatests/censor_process_results.py:13 | The loop succeeds exactly when every entry does. Otherwise it reports the first failing entry's error. |
| Censor.ApplyKeys | spatests/censor_process_results.py:15-22 | Both dictionaries hold exactly the phecodes some update writes, and every stored label was written by some update. |
| Censor.ApplyLastWins | spatests/censor_process_results.py:17-22 | The last update that writes a phecode decides both its id and its label. |
| Censor.BuildLookups | spatests/censor_process_results.py:10-22 | Building the maps succeeds exactly when every entry does. An error is the first failing entry's. |
| Censor.LookupsSameKeys | spatests/censor_process_results.py:17-22 | The id map and the sex map have the same keys. |
| Censor.LookupsKnown | spatests/censor_process_results.py:14-17 | A phecode is mapped exactly when some entry lists it. |
| Censor.LookupsSexValues | spatests/censor_process_results.py:18-22 | Every stored sex label is "male", "female" or "FALSE". |
| Censor.LookupsLastWins | spatests/censor_process_results.py:13-22 | The last entry listing a phecode decides its id and its sex label. |
| Censor.CensorCount | spatests/censor_process_results.py:38 | A count below 40 becomes "<40". Counts ≥ 40 and missing values are unchanged. |
| Censor.CensorCounts | spatests/censor_process_results.py:38 | No `AC_Allele2` column is a `KeyError`, and a text count is a `TypeError`. Otherwise every count is censored and every other cell is unchanged. |
| Censor.CensorNotRerunnable | spatests/censor_process_results.py:38 | Once a count has been censored, running the censoring again raises a `TypeError`. |
| Censor.Relabel | spatests/censor_process_results.py:41-47 | The new `phecode` column equals the original `Trait`. `Trait` becomes the mapped id, keeps its value when unmapped, and becomes "UNKNOWN" when missing. `Sex_Specific` is the mapped label, or "FALSE". Every other column is unchanged. |
| Censor.StagesGiveOutputCell | spatests/censor_process_results.py:38-47 | After censoring and relabelling, every cell is the one the per-cell reference reads off the input. |
| Censor.ProcessWith | spatests/censor_process_results.py:38-50 | The pipeline with a given kept-column list succeeds exactly when the count column exists and holds no text, and `Trait` and the other kept columns exist. Then the output is the kept columns plus `Sex_Specific`, cell by cell as the reference says. |
| Censor.ProcessResults | spatests/censor_process_results.py:29-50 | The output columns are exactly the 15 listed plus `Sex_Specific`, in order. There is one row per input row, cell by cell as the reference says, and the error cases are stated. |
| Censor.SexSpecificValues | spatests/censor_process_results.py:47 | With maps built from the phenotype file, every written `Sex_Specific` is "male", "female" or "FALSE". |

## Left out

- Reading and writing CSV, TSV, JSON and gzip files, `print`, `glob`, BigQuery, notebook generation and execution, and plotting are I/O: tables, entries and file lists are parameters.
- Python's float text and `pd.to_numeric`'s string parser are the parameters `floatText` and `parse`. IEEE rounding is not modelled: numbers are exact `int`/`real`.
- `strip`, `lower` and `isnumeric` are ASCII-only.
- The regular expression's `.` does not match a newline. File names with newlines are not considered.
- pandas `sort_values` uses quicksort, which is not stable. The model sorts stably, so ties may come out in a different order than pandas'.
- LabMedian.GroupKeys: ids are grouped by structural equality of cells, so `Int(1)`, `Real(1.0)` and `Bool(true)` form three groups where pandas forms one. A CSV column read by pandas holds one numeric type, so in practice they do not meet. Text ids are ordered by code point, and the numbers-then-text order is that of pandas' mixed-key sort.
- LabMedian.GroupValues: a non-numeric value that survived the filters is skipped rather than raising.
- The single-lab script's comment says values above 100 are dropped, but the code keeps values ≤ 50. The model follows the code.
- Unifier.Mul: integer and real products are not distinguished; the product of two numbers is a `Real`.
- Unifier.UnitConverter: states only the error case and that no row is lost. The per-row facts are stated on the merged table by Unifier.ApplyConversion.
- Unifier.FilterAndMerge: pandas `isin` is modelled as structural equality of cells, so two NaN keys match.
- LabEdits.UpdateOutlierBounds: assumes a default integer row index (the first matching position is its label). A supplied bound is stored as an integer cell.
- The keys of the brava mapping and of the JSON lookups: a JSON float or boolean `phenotype_ID` never matches a CSV key. pandas treats an `int` and an equal `float` as the same key; the model does not.
- Notebooks.PheDd: the concrete file names are data; only their shape is stated.
- Notebooks.NotebookName: `str(concept_id)` is modelled for a string id only.
- Notebook cell texts, apart from the cited placeholders, are parameters.
- Json entries are objects. A non-object entry in the phenotype file is not modelled.
- PhecodePairs.PlotFiles: the Pearson correlation is not modelled, so neither is the `ValueError` scipy's `pearsonr` raises for fewer than two points. In plot_phecode_correlation_separate.py it is raised before `savefig` for every kept pair when the CSV has fewer than two rows, and no file is written. In plot_phecode_correlation.py it is raised when exactly one pair is usable, before the summary plot is saved.
- PhecodePairs.ExtractPhecodes: a pair whose two phecodes are the same column is counted once per column, as pandas does; its correlation is not modelled.
- PhecodeMap.Lookup: a JSON number with a fraction or exponent (a Python float) is taken to equal no brava code. The model keeps such numbers as text and does not compare them with the CSV's numbers.
- PhecodeMap.BravaMapping: keys are cells compared structurally, so the brava codes 1 and 1.0, which a Python dict merges into one key, stay two keys. A CSV column read by pandas holds one numeric type, so the two do not meet there.
- Json.PyStr: a JSON number with a fraction or exponent is written as its JSON text, not as Python's `str()` of the float (`1e2` prints as `100.0` in Python).
- Json.Get: objects are taken to have distinct keys, as `Json.UniqueKeys` states and item assignment keeps. For a repeated key `Get` returns the first value, where `json.load` keeps the last.
- Json.EscapeChar: characters beyond ASCII are written as they are. Python escapes the non-printable ones with `\x`, `\u` or `\U` according to their Unicode category, which is not modelled.
- Results.HighAfCombos: NaN marker ids are compared structurally, so several NaN ids collapse into one triple. Python keeps distinct NaN objects apart.
- ResultNames.ParseAssemble: the round trip needs each group to avoid its closing marker entirely. "Does not contain `_step2_`" alone is not enough: the group `_step2` also breaks it.
- Censor.JsonCell: a JSON float, list or object `phenotype_ID` is stored as the text of its Python `str()`, not as the float, list or dict that pandas would hold.
- The Hail PCA, the shell-command generators and the single-call scripts are outside this model.

## Findings

| source | as written | input that shows it | evidently intended | confidence | as-written member | corrected member |
|---|---|---|---|---|---|---|
| phenotypes/utilities.py:104 | `concept_id.replace(", " + last, " and " + last)` replaces every occurrence of ", " followed by the last id's text | "1, 23, 2" gives "1 and 23 and 2" | only the final separator becomes " and ": "1, 23 and 2" | medium, not executed | Notebooks.IntroAsWrittenCounterexample | Notebooks.IntroOfIds |

=== FILE: censor.dfy ===
/** The release step for the combined results: allele counts under 40 are censored,
    the phecode in `Trait` is kept in a new `phecode` column while `Trait` becomes the
    phenotype ID, a `Sex_Specific` column is added, and a fixed list of columns is
    written out. The phecode-to-ID and phecode-to-sex lookups come from the phenotype
    JSON.
 */
module Censor {
  import opened Wrappers
  import opened Strings
  import opened Json
  import opened Tables
  import opened Seqs

  const PhecodeKey := "phecode"
  const PhenotypeId := "phenotype_ID"
  const SexKey := "sex_specific_run"
  /** Several phecodes of one entry are separated by exactly this. */
  const CodeSep := ", "
  const Male := "male"
  const Female := "female"
  const NotSexSpecific := "FALSE"

  // ---------------------------------------------------------------------------
  // the lookups

  /** `str(entry.get("phecode", ""))`. */
  function PhecodeText(entry: Object): string {
    match Get(entry, PhecodeKey)
    case None => ""
    case Some(v) => PyStr(v)
  }

  /** The phecodes an entry lists: the non-empty pieces of its phecode text split on `", "`. */
  function Codes(entry: Object): (r: set<string>)
    ensures forall p :: p in r ==> p != "" && !Contains(p, CodeSep)
  {
    var pieces := Split(PhecodeText(entry), CodeSep);
    SplitPiecesFree(PhecodeText(entry), CodeSep);
    set p | p in pieces && p != ""
  }

  /** A phecode text joined from non-empty codes that do not hide the separator lists
      exactly those codes. */
  lemma JoinedCodes(entry: Object, parts: seq<string>)
    requires |parts| >= 1
    requires forall i :: 0 <= i < |parts| ==> parts[i] != "" && Delimited(parts[i], CodeSep)
    requires Get(entry, PhecodeKey) == Some(JStr(Join(parts, CodeSep)))
    ensures Codes(entry) == set p | p in parts
  {
    SplitJoin(parts, CodeSep);
  }

  /** An entry without a `phecode` key, or with an empty one, lists nothing. */
  lemma NoCodes(entry: Object)
    requires Get(entry, PhecodeKey).None? || Get(entry, PhecodeKey) == Some(JStr(""))
    ensures Codes(entry) == {}
  {
    assert FindFrom("", CodeSep, 0).None?;
    assert Split("", CodeSep) == [""];
  }

  /** `entry["sex_specific_run"].strip().lower()`, folded to male, female or FALSE: a
      `KeyError` when the key is absent and an `AttributeError` when it is not a string. */
  function SexLabel(entry: Object): (r: Result<string>)
    ensures r.Ok? <==> Get(entry, SexKey).Some? && Get(entry, SexKey).value.JStr?
    ensures Get(entry, SexKey).None? ==> r == Err(KeyError(SexKey))
    ensures r.Err? && Get(entry, SexKey).Some? ==> r.error.AttributeError?
    ensures r.Ok? ==> r.value == Male || r.value == Female || r.value == NotSexSpecific
    ensures r.Ok? ==> var norm := Lower(Strip(Get(entry, SexKey).value.s));
      r.value == (if norm == Male || norm == Female then norm else NotSexSpecific)
  {
    match Get(entry, SexKey)
    case None => Err(KeyError(SexKey))
    case Some(v) =>
      if !v.JStr? then Err(AttributeError("strip"))
      else
        var norm := Lower(Strip(v.s));
        Ok(if norm == Male || norm == Female then norm else NotSexSpecific)
  }

  /** What one entry writes: its ID and sex label under each of its phecodes. */
  datatype Update = Update(codes: set<string>, id: Json, sex: string)

  /** One entry of the loop: nothing when it lists no phecode (the inner loop never
      runs, so nothing else is read); otherwise a `KeyError` without `phenotype_ID`, the
      error of its sex label, or the update it writes. */
  function EntryUpdate(entry: Object): (r: Result<Option<Update>>)
    ensures Codes(entry) == {} <==> r == Ok(None)
    ensures Codes(entry) != {} && !HasKey(entry, PhenotypeId) ==> r == Err(KeyError(PhenotypeId))
    ensures Codes(entry) != {} && HasKey(entry, PhenotypeId) ==>
      (r.Ok? <==> SexLabel(entry).Ok?) && (r.Err? ==> r == Err(SexLabel(entry).error))
    ensures r.Ok? && r.value.Some? ==> HasKey(entry, PhenotypeId) && SexLabel(entry).Ok?
    ensures r.Ok? && r.value.Some? ==>
      r.value.value == Update(Codes(entry), Get(entry, PhenotypeId).value, SexLabel(entry).value)
  {
    if Codes(entry) == {} then Ok(None)
    else
      match Get(entry, PhenotypeId)
      case None => Err(KeyError(PhenotypeId))
      case Some(id) =>
        var sex :- SexLabel(entry);
        Ok(Some(Update(Codes(entry), id, sex)))
  }

  /** The per-entry updates in file order, or the error of the first entry that raises. */
  function EntryUpdates(entries: seq<Object>): (r: Result<seq<Option<Update>>>)
    ensures r.Ok? <==> forall i :: 0 <= i < |entries| ==> EntryUpdate(entries[i]).Ok?
    ensures r.Ok? ==> |r.value| == |entries|
    ensures r.Ok? ==> forall i :: 0 <= i < |entries| ==> r.value[i] == EntryUpdate(entries[i]).value
    ensures r.Err? ==> exists i :: (0 <= i < |entries| && EntryUpdate(entries[i]) == Err(r.error) &&
                                    forall j :: 0 <= j < i ==> EntryUpdate(entries[j]).Ok?)
  {
    Traverse(entries, EntryUpdate)
  }

  /** The two lookups built from the phenotype file. */
  datatype Lookups = Lookups(ids: map<string, Json>, sexes: map<string, string>)

  /** The dictionaries after writing the updates in order: a later update overwrites an
      earlier one for the same phecode. */
  function Apply(us: seq<Option<Update>>): Lookups
    decreases |us|
  {
    if |us| == 0 then Lookups(map[], map[])
    else
      var l := Apply(us[..|us| - 1]);
      match us[|us| - 1]
      case None => l
      case Some(u) => Lookups(l.ids + map c | c in u.codes :: u.id, l.sexes + map c | c in u.codes :: u.sex)
  }

  /** Both dictionaries know exactly the phecodes some update writes, and every sex
      label is one some update wrote. */
  lemma {:induction false} ApplyKeys(us: seq<Option<Update>>)
    ensures Apply(us).ids.Keys == Apply(us).sexes.Keys
    ensures forall c :: c in Apply(us).ids <==> exists i :: 0 <= i < |us| && us[i].Some? && c in us[i].value.codes
    ensures forall c :: c in Apply(us).sexes ==>
      exists i :: 0 <= i < |us| && us[i].Some? && Apply(us).sexes[c] == us[i].value.sex
    decreases |us|
  {
    if |us| > 0 {
      var init := us[..|us| - 1];
      assert forall i :: 0 <= i < |init| ==> init[i] == us[i];
      ApplyKeys(init);
    }
  }

  /** The last update writing a phecode decides both of its values. */
  lemma {:induction false} ApplyLastWins(us: seq<Option<Update>>, i: nat, c: string)
    requires i < |us| && us[i].Some? && c in us[i].value.codes
    requires forall j :: i < j < |us| && us[j].Some? ==> c !in us[j].value.codes
    ensures c in Apply(us).ids && Apply(us).ids[c] == us[i].value.id
    ensures c in Apply(us).sexes && Apply(us).sexes[c] == us[i].value.sex
    decreases |us|
  {
    var init := us[..|us| - 1];
    assert forall j :: 0 <= j < |init| ==> init[j] == us[j];
    if i < |us| - 1 {
      ApplyLastWins(init, i, c);
    }
  }

  /** Lines 10-22: the loop over the phenotype file. */
  function BuildLookups(entries: seq<Object>): (r: Result<Lookups>)
    ensures r.Ok? <==> forall i :: 0 <= i < |entries| ==> EntryUpdate(entries[i]).Ok?
    ensures r.Err? ==> exists i :: (0 <= i < |entries| && EntryUpdate(entries[i]) == Err(r.error) &&
                                    forall j :: 0 <= j < i ==> EntryUpdate(entries[j]).Ok?)
  {
    var us :- EntryUpdates(entries);
    Ok(Apply(us))
  }

  /** The two lookups know the same phecodes. */
  lemma LookupsSameKeys(entries: seq<Object>)
    requires BuildLookups(entries).Ok?
    ensures BuildLookups(entries).value.ids.Keys == BuildLookups(entries).value.sexes.Keys
  {
    ApplyKeys(EntryUpdates(entries).value);
  }

  /** A phecode is looked up exactly when some entry lists it. */
  lemma LookupsKnown(entries: seq<Object>)
    requires BuildLookups(entries).Ok?
    ensures forall c :: c in BuildLookups(entries).value.ids <==> exists i :: 0 <= i < |entries| && c in Codes(entries[i])
  {
    var us := EntryUpdates(entries).value;
    var ids := Apply(us).ids;
    assert BuildLookups(entries).value.ids == ids;
    assert forall c :: c in ids ==> exists i :: 0 <= i < |entries| && c in Codes(entries[i]) by {
      forall c | c in ids
        ensures exists i :: 0 <= i < |entries| && c in Codes(entries[i])
      {
        ApplyKeys(us);
        var i :| 0 <= i < |us| && us[i].Some? && c in us[i].value.codes;
        assert us[i] == EntryUpdate(entries[i]).value;
      }
    }
    assert forall i, c :: 0 <= i < |entries| && c in Codes(entries[i]) ==> c in ids by {
      forall i, c | 0 <= i < |entries| && c in Codes(entries[i])
        ensures c in ids
      {
        assert us[i] == EntryUpdate(entries[i]).value;
        assert us[i].Some? && c in us[i].value.codes;
        ApplyKeys(us);
      }
    }
  }

  /** Every sex label in the lookup is male, female or FALSE. */
  lemma LookupsSexValues(entries: seq<Object>)
    requires BuildLookups(entries).Ok?
    ensures var sexes := BuildLookups(entries).value.sexes;
      forall c :: c in sexes ==> sexes[c] in {Male, Female, NotSexSpecific}
  {
    var us := EntryUpdates(entries).value;
    var l := Apply(us);
    ApplyKeys(us);
    forall c | c in l.sexes
      ensures l.sexes[c] in {Male, Female, NotSexSpecific}
    {
      var i :| 0 <= i < |us| && us[i].Some? && l.sexes[c] == us[i].value.sex;
      assert us[i] == EntryUpdate(entries[i]).value;
      var sx := SexLabel(entries[i]);
      assert sx.Ok? && us[i].value.sex == sx.value;
    }
  }

  /** The last entry listing a phecode decides both its ID and its sex label. */
  lemma LookupsLastWins(entries: seq<Object>, i: nat, c: string)
    requires BuildLookups(entries).Ok?
    requires i < |entries| && c in Codes(entries[i])
    requires forall j :: i < j < |entries| ==> c !in Codes(entries[j])
    ensures HasKey(entries[i], PhenotypeId) && SexLabel(entries[i]).Ok?
    ensures c in BuildLookups(entries).value.ids && c in BuildLookups(entries).value.sexes
    ensures BuildLookups(entries).value.ids[c] == Get(entries[i], PhenotypeId).value
    ensures BuildLookups(entries).value.sexes[c] == SexLabel(entries[i]).value
  {
    var us := EntryUpdates(entries).value;
    assert us[i] == EntryUpdate(entries[i]).value;
    ApplyLastWins(us, i, c);
  }

  // ---------------------------------------------------------------------------
  // the results table

  const AcAllele2 := "AC_Allele2"
  const Trait := "Trait"
  const PhecodeColumn := "phecode"
  const SexSpecific := "Sex_Specific"
  const Unknown := "UNKNOWN"
  const CensoredCount := "<40"
  const CountFloor := 40

  /** The columns written out, before `Sex_Specific`. */
  const KeptColumns := ["MarkerID", "AC_Allele2", "p.value", "BETA", "SE", "Is.SPA", "Tstat",
                        "var", "N", "N_case", "N_ctrl", "Ancestry", "Trait", "phecode", "VariantClass"]

  /** `x < 40` on an allele count: false for NaN, a `TypeError` for text. */
  function BelowFloor(cols: seq<string>): Row -> Result<bool> {
    row => Compare(Value(cols, row, AcAllele2), Less, Int(CountFloor))
  }

  /** `"<40" if pd.notna(x) and x < 40 else x` on a count that compares. */
  function CensorCount(c: Cell): (r: Cell)
    ensures AsNumber(c).Some? ==> r == if AsNumber(c).value < CountFloor as real then Str(CensoredCount) else c
    ensures c.Missing? ==> r == c
  {
    if Compare(c, Less, Int(CountFloor)) == Ok(true) then Str(CensoredCount) else c
  }

  /** Line 38: a `KeyError` without the column, a `TypeError` when some count is text,
      otherwise every count below 40 replaced by the text `<40`. */
  function CensorCounts(t: Table): (r: Result<Table>)
    requires Rectangular(t)
    ensures AcAllele2 !in t.columns ==> r == Err(KeyError(AcAllele2))
    ensures r.Ok? <==> AcAllele2 in t.columns && forall k :: 0 <= k < |t.rows| ==> !At(t, k, AcAllele2).Str?
    ensures r.Err? && AcAllele2 in t.columns ==> r.error.TypeError?
    ensures r.Ok? ==> Rectangular(r.value) && r.value.columns == t.columns && |r.value.rows| == |t.rows|
    ensures r.Ok? ==> forall k :: 0 <= k < |t.rows| ==> At(r.value, k, AcAllele2) == CensorCount(At(t, k, AcAllele2))
    ensures r.Ok? ==> forall k, c :: 0 <= k < |t.rows| && c != AcAllele2 ==> At(r.value, k, c) == At(t, k, c)
  {
    if AcAllele2 !in t.columns then Err(KeyError(AcAllele2))
    else
      var e := FirstError(t.rows, BelowFloor(t.columns));
      forall k | 0 <= k < |t.rows|
        ensures BelowFloor(t.columns)(t.rows[k]).Ok? <==> !At(t, k, AcAllele2).Str?
      {
        assert BelowFloor(t.columns)(t.rows[k]) == Compare(At(t, k, AcAllele2), Less, Int(CountFloor));
      }
      if e.Some? then Err(e.value)
      else Ok(SetColumn(t, AcAllele2, row => CensorCount(Value(t.columns, row, AcAllele2))))
  }

  /** The censoring cannot be run again on its own output: once a count below 40 has
      become the text `<40`, the comparison on line 38 raises a `TypeError`. */
  lemma CensorNotRerunnable(t: Table, k: nat)
    requires Rectangular(t) && CensorCounts(t).Ok? && k < |t.rows|
    requires AsNumber(At(t, k, AcAllele2)).Some? && AsNumber(At(t, k, AcAllele2)).value < CountFloor as real
    ensures CensorCounts(CensorCounts(t).value).Err?
    ensures CensorCounts(CensorCounts(t).value).error.TypeError?
  {
    var out := CensorCounts(t).value;
    assert At(out, k, AcAllele2) == Str(CensoredCount);
  }

  /** The JSON `phenotype_ID` as the cell pandas stores. */
  function JsonCell(v: Json): (r: Cell)
    ensures v.JStr? ==> r == Str(v.s)
    ensures v.JInt? ==> r == Int(v.i)
  {
    match v
    case JNull => Missing
    case JBool(b) => Bool(b)
    case JInt(i) => Int(i)
    case JStr(s) => Str(s)
    case _ => Str(PyStr(v))
  }

  /** Line 44 on one phecode: "UNKNOWN" when missing, the mapped ID when its text is
      mapped, the phecode itself otherwise. */
  function NewTrait(x: Cell, ids: map<string, Json>, floatText: real -> string): (r: Cell)
    ensures x.Missing? ==> r == Str(Unknown)
    ensures !x.Missing? && Text(x, floatText) in ids ==> r == JsonCell(ids[Text(x, floatText)])
    ensures !x.Missing? && Text(x, floatText) !in ids ==> r == x
  {
    if x.Missing? then Str(Unknown)
    else if Text(x, floatText) in ids then JsonCell(ids[Text(x, floatText)])
    else x
  }

  /** Line 47 on one phecode: the mapped sex label, "FALSE" when missing or unmapped. */
  function SexOf(x: Cell, sexes: map<string, string>, floatText: real -> string): (r: string)
    ensures !x.Missing? && Text(x, floatText) in sexes ==> r == sexes[Text(x, floatText)]
    ensures x.Missing? || Text(x, floatText) !in sexes ==> r == NotSexSpecific
  {
    if !x.Missing? && Text(x, floatText) in sexes then sexes[Text(x, floatText)] else NotSexSpecific
  }

  /** The cell the script writes in row `k` under column `c`, read off the input. */
  function OutputCell(t: Table, k: nat, c: string, l: Lookups, floatText: real -> string): Cell
    requires k < |t.rows|
  {
    if c == AcAllele2 then CensorCount(At(t, k, AcAllele2))
    else if c == PhecodeColumn then At(t, k, Trait)
    else if c == Trait then NewTrait(At(t, k, Trait), l.ids, floatText)
    else if c == SexSpecific then Str(SexOf(At(t, k, Trait), l.sexes, floatText))
    else At(t, k, c)
  }

  /** Lines 41-47: `phecode` takes the original `Trait`, then `Trait` and `Sex_Specific`
      are derived from it; every other column stays. */
  function Relabel(t: Table, l: Lookups, floatText: real -> string): (r: Table)
    requires Rectangular(t) && Trait in t.columns
    ensures Rectangular(r) && |r.rows| == |t.rows|
    ensures forall c :: c in r.columns <==> c in t.columns || c == PhecodeColumn || c == SexSpecific
    ensures forall k :: 0 <= k < |t.rows| ==> At(r, k, PhecodeColumn) == At(t, k, Trait)
    ensures forall k :: 0 <= k < |t.rows| ==> At(r, k, Trait) == NewTrait(At(t, k, Trait), l.ids, floatText)
    ensures forall k :: 0 <= k < |t.rows| ==> At(r, k, SexSpecific) == Str(SexOf(At(t, k, Trait), l.sexes, floatText))
    ensures forall k, c :: 0 <= k < |t.rows| && c != PhecodeColumn && c != Trait && c != SexSpecific ==>
      At(r, k, c) == At(t, k, c)
  {
    var withCode := SetColumn(t, PhecodeColumn, row => Value(t.columns, row, Trait));
    var withId := SetColumn(withCode, Trait, row => NewTrait(Value(withCode.columns, row, PhecodeColumn), l.ids, floatText));
    SetColumn(withId, SexSpecific, row => Str(SexOf(Value(withCode.columns, row, PhecodeColumn), l.sexes, floatText)))
  }

  /** After censoring and relabelling, every cell is the one `OutputCell` reads off the input. */
  lemma StagesGiveOutputCell(t: Table, censored: Table, relabelled: Table, l: Lookups, floatText: real -> string)
    requires Rectangular(t) && Rectangular(censored) && censored.columns == t.columns && |censored.rows| == |t.rows|
    requires forall k :: 0 <= k < |t.rows| ==> At(censored, k, AcAllele2) == CensorCount(At(t, k, AcAllele2))
    requires forall k, c :: 0 <= k < |t.rows| && c != AcAllele2 ==> At(censored, k, c) == At(t, k, c)
    requires Trait in t.columns && relabelled == Relabel(censored, l, floatText)
    ensures forall k, c :: 0 <= k < |t.rows| ==> At(relabelled, k, c) == OutputCell(t, k, c, l, floatText)
  {
    forall k, c | 0 <= k < |t.rows|
      ensures At(relabelled, k, c) == OutputCell(t, k, c, l, floatText)
    {
      assert At(censored, k, Trait) == At(t, k, Trait);
    }
  }

  /** The table part of the script with a given list of kept columns: the counts are
      censored, the phecode relabelled, and the kept columns plus `Sex_Specific`
      selected in that order. */
  function ProcessWith(t: Table, l: Lookups, floatText: real -> string, keep: seq<string>): (r: Result<Table>)
    requires Rectangular(t)
    ensures AcAllele2 !in t.columns ==> r == Err(KeyError(AcAllele2))
    ensures r.Ok? <==>
      AcAllele2 in t.columns && (forall k :: 0 <= k < |t.rows| ==> !At(t, k, AcAllele2).Str?) &&
      Trait in t.columns && forall c :: c in keep && c != PhecodeColumn && c != SexSpecific ==> c in t.columns
    ensures r.Ok? ==> r.value.columns == keep + [SexSpecific] && |r.value.rows| == |t.rows| && Rectangular(r.value)
    ensures r.Ok? ==> forall k, j :: 0 <= k < |t.rows| && 0 <= j < |keep| + 1 ==>
      r.value.rows[k][j] == OutputCell(t, k, (keep + [SexSpecific])[j], l, floatText)
  {
    var censored :- CensorCounts(t);
    if Trait !in censored.columns then Err(KeyError(Trait))
    else
      var relabelled := Relabel(censored, l, floatText);
      StagesGiveOutputCell(t, censored, relabelled, l, floatText);
      assert (forall n :: n in keep + [SexSpecific] ==> n in relabelled.columns) <==>
        forall c :: c in keep && c != PhecodeColumn && c != SexSpecific ==> c in t.columns;
      Select(relabelled, keep + [SexSpecific])
  }

  /** The columns written out. */
  const OutputColumns := KeptColumns + [SexSpecific]

  /** The whole table step of the script: a `KeyError` for a missing allele-count
      column, a failure for a text count, a missing `Trait` or a missing kept column;
      otherwise one output row per input row holding the output columns in order. */
  function ProcessResults(t: Table, l: Lookups, floatText: real -> string): (r: Result<Table>)
    requires Rectangular(t)
    ensures AcAllele2 !in t.columns ==> r == Err(KeyError(AcAllele2))
    ensures r.Ok? <==>
      AcAllele2 in t.columns && (forall k :: 0 <= k < |t.rows| ==> !At(t, k, AcAllele2).Str?) &&
      forall c :: c in KeptColumns && c != PhecodeColumn ==> c in t.columns
    ensures r.Ok? ==> r.value.columns == OutputColumns && |r.value.rows| == |t.rows| && Rectangular(r.value)
    ensures r.Ok? ==> forall k, j :: 0 <= k < |t.rows| && 0 <= j < |OutputColumns| ==>
      r.value.rows[k][j] == OutputCell(t, k, OutputColumns[j], l, floatText)
  {
    assert SexSpecific !in KeptColumns && Trait in KeptColumns;
    ProcessWith(t, l, floatText, KeptColumns)
  }

  /** Every written `Sex_Specific` cell is male, female or FALSE when the lookups come
      from the phenotype file. */
  lemma SexSpecificValues(entries: seq<Object>, t: Table, k: nat, floatText: real -> string)
    requires BuildLookups(entries).Ok? && Rectangular(t) && k < |t.rows|
    requires ProcessResults(t, BuildLookups(entries).value, floatText).Ok?
    ensures var out := ProcessResults(t, BuildLookups(entries).value, floatText).value;
      out.rows[k][15] in {Str(Male), Str(Female), Str(NotSexSpecific)}
  {
    var l := BuildLookups(entries).value;
    var out := ProcessResults(t, l, floatText).value;
    assert out.rows[k][15] == Str(SexOf(At(t, k, Trait), l.sexes, floatText)) by {
      assert OutputColumns[15] == SexSpecific;
      assert out.rows[k][15] == OutputCell(t, k, OutputColumns[15], l, floatText);
    }
    assert SexOf(At(t, k, Trait), l.sexes, floatText) in {Male, Female, NotSexSpecific} by {
      LookupsSexValues(entries);
    }
  }
}

=== FILE: demographics.dfy ===
/** phenotypes/transform_demographics.py: the demographics table is reduced to the
    participants with a usable age and a binary sex at birth, and the integer
    covariates `age`, `age2`, `age_sex`, `age2_sex` and `sex` are derived from them.
 */
module Demographics {
  import opened Wrappers
  import opened Seqs
  import opened Tables

  const PersonId := "person_id"
  const AgeAtCdr := "age_at_cdr"
  const SexAtBirth := "sex_at_birth"
  const OutputNames: seq<string> := [PersonId, "age", "age2", "age_sex", "age2_sex", "sex"]

  /** The age test `age_at_cdr <= 100`, which raises on a string age. */
  function AgeTest(cols: seq<string>, row: Row): Result<bool> {
    Compare(Value(cols, row, AgeAtCdr), LessEq, Int(100))
  }

  /** `isin(["Female", "Male"])`. */
  predicate BinarySex(c: Cell) {
    c == Str("Female") || c == Str("Male")
  }

  /** A row survives: both fields present, age at most 100, sex "Female" or "Male". */
  predicate Kept(cols: seq<string>, row: Row) {
    !Value(cols, row, AgeAtCdr).Missing? && !Value(cols, row, SexAtBirth).Missing?
    && AgeTest(cols, row) == Ok(true) && BinarySex(Value(cols, row, SexAtBirth))
  }

  /** Every complete row has a non-string age, so the age test cannot raise. */
  predicate ComparableAges(t: Table) {
    forall row :: row in t.rows && !Value(t.columns, row, SexAtBirth).Missing? ==> !Value(t.columns, row, AgeAtCdr).Str?
  }

  /** Steps 1-3: drop incomplete rows, keep ages up to 100, keep binary sexes. `KeyError`
      when a field is not a column; `TypeError` when a complete row has a string age. */
  function Surviving(t: Table): (r: Result<Table>)
    requires Rectangular(t)
    ensures (AgeAtCdr !in t.columns || SexAtBirth !in t.columns) <==> r.Err? && r.error.KeyError?
    ensures r.Err? && r.error.TypeError? <==> AgeAtCdr in t.columns && SexAtBirth in t.columns && !ComparableAges(t)
    ensures r.Ok? ==> r.value.columns == t.columns && Rectangular(r.value) && |r.value.rows| <= |t.rows|
  {
    var complete :- DropMissing(t, [AgeAtCdr, SexAtBirth]);
    if !ComparableAges(t) then Err(TypeError("'<=' not supported between instances of 'str' and 'int'"))
    else
      var young := FilterRows(complete, row => AgeTest(t.columns, row) == Ok(true));
      Ok(FilterRows(young, row => BinarySex(Value(t.columns, row, SexAtBirth))))
  }

  /** The surviving rows are exactly the input rows that pass all three filters. */
  lemma SurvivingRows(t: Table)
    requires Rectangular(t) && Surviving(t).Ok?
    ensures forall row :: row in Surviving(t).value.rows <==> row in t.rows && Kept(t.columns, row)
  {
    var complete := DropMissing(t, [AgeAtCdr, SexAtBirth]).value;
    assert forall row :: row in complete.rows <==>
      row in t.rows && !Value(t.columns, row, AgeAtCdr).Missing? && !Value(t.columns, row, SexAtBirth).Missing?;
  }

  /** `astype(int)` of a real: truncation toward zero. */
  function Truncate(x: real): (i: int)
    ensures 0.0 <= x ==> i as real <= x < i as real + 1.0
    ensures x < 0.0 ==> i as real - 1.0 < x <= i as real
  {
    if x >= 0.0 then x.Floor else -((-x).Floor)
  }

  /** `astype(int)` of a numeric cell. */
  function AsInt(c: Cell): int
    requires AsNumber(c).Some?
  {
    Truncate(AsNumber(c).value)
  }

  /** `map({"Female": 1, "Male": 0})`. */
  function SexCode(c: Cell): int {
    if c == Str("Female") then 1 else 0
  }

  /** The output row of one surviving input row. */
  function CovariateRow(cols: seq<string>, row: Row): (out: Row)
    requires Kept(cols, row)
    ensures |out| == |OutputNames|
  {
    var age := AsInt(Value(cols, row, AgeAtCdr));
    var sex := SexCode(Value(cols, row, SexAtBirth));
    [Value(cols, row, PersonId), Int(age), Int(age * age), Int(age * sex), Int(age * age * sex), Int(sex)]
  }

  /** The whole script: the surviving rows, in order, as the six output columns;
      `KeyError` at the final selection when there is no `person_id`. */
  function TransformDemographics(t: Table): (r: Result<Table>)
    requires Rectangular(t)
    ensures r.Ok? <==> Surviving(t).Ok? && PersonId in t.columns
    ensures Surviving(t).Ok? && PersonId !in t.columns ==> r == Err(KeyError(PersonId))
    ensures r.Ok? ==> r.value.columns == OutputNames && Rectangular(r.value)
    ensures r.Ok? ==> |r.value.rows| == |Surviving(t).value.rows|
    ensures r.Ok? ==> forall k :: 0 <= k < |r.value.rows| ==>
      Kept(t.columns, Surviving(t).value.rows[k]) && r.value.rows[k] == CovariateRow(t.columns, Surviving(t).value.rows[k])
  {
    var s :- Surviving(t);
    if PersonId !in t.columns then Err(KeyError(PersonId))
    else
      SurvivingRows(t);
      assert forall k :: 0 <= k < |s.rows| ==> s.rows[k] in s.rows;
      Ok(Table(OutputNames, seq(|s.rows|, k requires 0 <= k < |s.rows| => CovariateRow(t.columns, s.rows[k]))))
  }

  // ---------------------------------------------------------------------------
  // properties

  /** Truncating an age of at most 100 gives at most 100. */
  lemma TruncateBounded(x: real)
    requires x <= 100.0
    ensures Truncate(x) <= 100
  {
  }

  /** A kept row has a numeric age that is at most 100. */
  lemma KeptAge(cols: seq<string>, row: Row)
    requires Kept(cols, row)
    ensures AsNumber(Value(cols, row, AgeAtCdr)).Some?
    ensures AsNumber(Value(cols, row, AgeAtCdr)).value <= 100.0
  {
  }

  /** The output row of a kept input row: the same person, an integer age of at most 100
      that is the truncated input age, its square, `sex` 1 exactly for "Female" and 0 for
      "Male", and the interaction terms equal to the age terms for women and 0 for men. */
  lemma CovariateRowFacts(cols: seq<string>, row: Row)
    requires Kept(cols, row)
    ensures var out := CovariateRow(cols, row);
            var age := out[1].i;
            out[0] == Value(cols, row, PersonId) &&
            out[1].Int? && out[2].Int? && out[3].Int? && out[4].Int? && out[5].Int? &&
            age <= 100 && age == Truncate(AsNumber(Value(cols, row, AgeAtCdr)).value) &&
            out[2].i == age * age &&
            (out[5].i == 1 <==> Value(cols, row, SexAtBirth) == Str("Female")) &&
            (out[5].i == 0 <==> Value(cols, row, SexAtBirth) == Str("Male")) &&
            (out[5].i == 1 ==> out[3].i == age && out[4].i == out[2].i) &&
            (out[5].i == 0 ==> out[3].i == 0 && out[4].i == 0)
  {
    KeptAge(cols, row);
    TruncateBounded(AsNumber(Value(cols, row, AgeAtCdr)).value);
  }

  /** The output column names are distinct, so `At` on an output row reads its position. */
  lemma OutputLookup(row: Row, i: nat)
    requires |row| == |OutputNames| && i < |OutputNames|
    ensures Value(OutputNames, row, OutputNames[i]) == row[i]
  {
    assert DistinctNames(OutputNames);
    IndexOfDistinct(OutputNames, i);
  }

  /** Every output row comes from an input row that survives the filters, and reads its
      `age` as at most 100 and its `sex` as 0 or 1. */
  lemma OutputRowsValid(t: Table, k: nat)
    requires Rectangular(t) && TransformDemographics(t).Ok? && k < |TransformDemographics(t).value.rows|
    ensures var src := Surviving(t).value.rows[k]; var r := TransformDemographics(t).value;
            src in t.rows && Kept(t.columns, src) &&
            At(r, k, "age").Int? && At(r, k, "age").i <= 100 &&
            (At(r, k, "sex") == Int(1) || At(r, k, "sex") == Int(0)) &&
            At(r, k, PersonId) == Value(t.columns, src, PersonId)
  {
    var src := Surviving(t).value.rows[k];
    var r := TransformDemographics(t).value;
    assert src in Surviving(t).value.rows;
    SurvivingRows(t);
    CovariateRowFacts(t.columns, src);
    OutputLookup(r.rows[k], 0);
    OutputLookup(r.rows[k], 1);
    OutputLookup(r.rows[k], 5);
  }
}

=== FILE: diabetes_merge.dfy ===
/** combine_pheno_and_covars.py: the header-less covariate and diabetes files are
    loaded under fixed column names, their `person_id` keys are whitespace-stripped,
    the diabetes status is left-joined onto the covariates, a missing status becomes
    the empty string, and the columns are put in output order.
 */
module DiabetesMerge {
  import opened Wrappers
  import opened Seqs
  import opened Tables

  const PersonId := "person_id"
  const T2Diab := "T2Diab"
  const CovariateNames: seq<string> := [PersonId, "age", "age2", "age_sex", "age2_sex", "sex"]
  const DiabetesNames: seq<string> := [PersonId, T2Diab]
  const OutputNames: seq<string> := [PersonId, T2Diab, "age", "age2", "age_sex", "age2_sex", "sex"]

  /** `read_csv(header=None, names=names)`: record `k` fills row `k` from the left and a
      short record is padded with missing cells. */
  function FromRecords(names: seq<string>, records: seq<seq<Cell>>): (t: Table)
    requires forall k :: 0 <= k < |records| ==> |records[k]| <= |names|
    ensures t.columns == names && Rectangular(t) && |t.rows| == |records|
    ensures forall k, j :: 0 <= k < |records| && 0 <= j < |records[k]| ==> t.rows[k][j] == records[k][j]
    ensures forall k, j :: 0 <= k < |records| && |records[k]| <= j < |names| ==> t.rows[k][j] == Missing
  {
    Table(names, seq(|records|, k requires 0 <= k < |records| =>
                       records[k] + seq(|names| - |records[k]|, _ => Missing)))
  }

  /** Both input tables as loaded. */
  predicate Loaded(cov: Table, diab: Table) {
    cov.columns == CovariateNames && Rectangular(cov) && diab.columns == DiabetesNames && Rectangular(diab)
  }

  /** The key match of the merge: equal stripped `person_id` cells (two NaN keys match). */
  function SameId(): (m: (Row, Row) -> bool)
    ensures forall a, b :: m(a, b) == (Value(CovariateNames, a, PersonId) == Value(DiabetesNames, b, PersonId))
  {
    (a, b) => KeysMatch(CovariateNames, a, DiabetesNames, b, [PersonId])
  }

  /** The left pairing of stripped covariate rows with stripped diabetes rows. */
  function Pairing(cov: Table, diab: Table): seq<(Row, Option<Row>)>
    requires Loaded(cov, diab)
  {
    LeftPairs(StripColumn(cov, PersonId).rows, StripColumn(diab, PersonId).rows, SameId())
  }

  /** The merge output's columns: the covariates, then `T2Diab`. */
  lemma MergedColumns()
    ensures JoinColumns(CovariateNames, DiabetesNames, [PersonId]) == CovariateNames + [T2Diab]
    ensures DistinctNames(CovariateNames + [T2Diab])
    ensures DistinctNames(OutputNames)
    ensures forall c :: c in CovariateNames ==> c in OutputNames && c != T2Diab
    ensures T2Diab in OutputNames && T2Diab !in CovariateNames
  {
    var keys := [PersonId];
    assert DiabetesNames[1..] == [T2Diab];
    assert RightColumns(DiabetesNames[1..][1..], keys) == [];
    assert RightColumns(DiabetesNames[1..], keys) == [T2Diab];
    assert RightColumns(DiabetesNames, keys) == [T2Diab];
    assert Suffixed(CovariateNames, DiabetesNames, keys, "_x") == CovariateNames;
    assert Suffixed([T2Diab], CovariateNames, keys, "_y") == [T2Diab];
  }

  /** Steps 2 and 3: strip both keys and left-join. Never fails on the loaded tables. */
  function MergeLeft(cov: Table, diab: Table): (r: Table)
    requires Loaded(cov, diab)
    ensures r.columns == CovariateNames + [T2Diab] && Rectangular(r)
    ensures |r.rows| >= |cov.rows|
  {
    MergedColumns();
    LeftJoin(StripColumn(cov, PersonId), StripColumn(diab, PersonId), [PersonId]).value
  }

  /** The merged rows are the pairing's, one for one. */
  lemma MergeLeftRows(cov: Table, diab: Table)
    requires Loaded(cov, diab)
    ensures |MergeLeft(cov, diab).rows| == |Pairing(cov, diab)|
    ensures forall i :: 0 <= i < |Pairing(cov, diab)| && Pairing(cov, diab)[i].1.Some? ==>
      |Pairing(cov, diab)[i].1.value| == |DiabetesNames|
    ensures forall i :: 0 <= i < |Pairing(cov, diab)| ==>
      MergeLeft(cov, diab).rows[i] == LeftJoinRow(DiabetesNames, Pairing(cov, diab)[i].0, Pairing(cov, diab)[i].1, [PersonId])
  {
    MergedColumns();
    LeftJoinRows(StripColumn(cov, PersonId), StripColumn(diab, PersonId), [PersonId]);
  }

  /** Steps 4 and 5 on the merged table: a missing `T2Diab` becomes "", then the columns
      are put in output order. */
  function FillAndReorder(merged: Table): (r: Table)
    requires merged.columns == CovariateNames + [T2Diab] && Rectangular(merged)
    ensures r.columns == OutputNames && Rectangular(r) && |r.rows| == |merged.rows|
    ensures forall k :: 0 <= k < |r.rows| ==> !At(r, k, T2Diab).Missing?
    ensures forall k :: 0 <= k < |r.rows| ==> At(r, k, T2Diab) == FillCell(At(merged, k, T2Diab), Str(""))
    ensures forall k, c :: 0 <= k < |r.rows| && c in CovariateNames ==> At(r, k, c) == At(merged, k, c)
  {
    var filled := FillColumn(merged, T2Diab, Str(""));
    MergedColumns();
    var r := Select(filled, OutputNames).value;
    forall k | 0 <= k < |r.rows|
      ensures At(r, k, T2Diab) == FillCell(At(merged, k, T2Diab), Str(""))
      ensures forall c :: c in CovariateNames ==> At(r, k, c) == At(merged, k, c)
    {
      assert At(r, k, T2Diab) == At(filled, k, T2Diab);
      forall c | c in CovariateNames
        ensures At(r, k, c) == At(merged, k, c)
      {
        assert At(r, k, c) == At(filled, k, c);
      }
    }
    r
  }

  /** The whole script. */
  function CombineDiabetesAndCovariates(cov: Table, diab: Table): (r: Table)
    requires Loaded(cov, diab)
    ensures r.columns == OutputNames && Rectangular(r) && |r.rows| >= |cov.rows|
    ensures forall k :: 0 <= k < |r.rows| ==> !At(r, k, T2Diab).Missing?
  {
    FillAndReorder(MergeLeft(cov, diab))
  }

  /** What the pairing holds at position `i`: a stripped covariate row and, if any, a
      stripped diabetes row with the same key. */
  lemma PairingAt(cov: Table, diab: Table, i: nat)
    requires Loaded(cov, diab) && i < |Pairing(cov, diab)|
    ensures var p := Pairing(cov, diab)[i];
            var sc := StripColumn(cov, PersonId); var sd := StripColumn(diab, PersonId);
            p.0 in sc.rows && |p.0| == |CovariateNames| &&
            (p.1.Some? ==> p.1.value in sd.rows && |p.1.value| == |DiabetesNames| && SameId()(p.0, p.1.value)) &&
            (p.1.None? ==> |MatchesOf(p.0, sd.rows, SameId())| == 0)
  {
    var ps := Pairing(cov, diab);
    LeftPairsFacts(StripColumn(cov, PersonId).rows, StripColumn(diab, PersonId).rows, SameId());
    assert ps[i] in ps;
  }

  /** A merged row reads the covariate cells of its left part and the status of its
      right part, or a missing status when it has none. */
  lemma LeftJoinRowValues(a: Row, b: Option<Row>)
    requires |a| == |CovariateNames| && (b.Some? ==> |b.value| == |DiabetesNames|)
    ensures var row := LeftJoinRow(DiabetesNames, a, b, [PersonId]);
            (forall c :: c in CovariateNames ==> Value(CovariateNames + [T2Diab], row, c) == Value(CovariateNames, a, c)) &&
            Value(CovariateNames + [T2Diab], row, T2Diab) == (if b.Some? then Value(DiabetesNames, b.value, T2Diab) else Missing)
  {
    MergedColumns();
    var row := LeftJoinRow(DiabetesNames, a, b, [PersonId]);
    var rest := row[|a|..];
    assert row == a + rest;
    forall c | c in CovariateNames
      ensures Value(CovariateNames + [T2Diab], row, c) == Value(CovariateNames, a, c)
    {
      ValueAppend(CovariateNames, [T2Diab], a, rest, c);
    }
    IndexOfAfter(CovariateNames, [T2Diab], T2Diab);
    if b.Some? {
      assert RightPart(DiabetesNames, b.value, [PersonId]) == [b.value[1]] by {
        assert DiabetesNames[1..] == [T2Diab];
        assert RightPart(DiabetesNames[1..][1..], b.value[1..][1..], [PersonId]) == [];
      }
    }
  }

  /** Output row `i` is pair `i` of the pairing: the covariate row's cells and the matched
      status, or "" when the person has no diabetes row or a missing status. */
  lemma OutputRow(cov: Table, diab: Table, i: nat)
    requires Loaded(cov, diab) && i < |Pairing(cov, diab)|
    ensures var p := Pairing(cov, diab)[i]; var r := CombineDiabetesAndCovariates(cov, diab);
            i < |r.rows| &&
            (forall c :: c in CovariateNames ==> At(r, i, c) == Value(CovariateNames, p.0, c)) &&
            At(r, i, T2Diab) == (if p.1.Some? then FillCell(Value(DiabetesNames, p.1.value, T2Diab), Str("")) else Str(""))
  {
    var p := Pairing(cov, diab)[i];
    MergeLeftRows(cov, diab);
    PairingAt(cov, diab, i);
    LeftJoinRowValues(p.0, p.1);
  }

  /** Output row `i` carries the covariate cells of stripped covariate row `k`. */
  predicate SameCovariates(r: Table, i: nat, sc: Table, k: nat)
    requires i < |r.rows| && k < |sc.rows|
  {
    forall c :: c in CovariateNames ==> At(r, i, c) == At(sc, k, c)
  }

  /** Every covariate row appears in the output, stripped, with its cells unchanged. */
  lemma EveryCovariateRowKept(cov: Table, diab: Table, k: nat)
    requires Loaded(cov, diab) && k < |cov.rows|
    ensures var r := CombineDiabetesAndCovariates(cov, diab); var sc := StripColumn(cov, PersonId);
            exists i :: 0 <= i < |r.rows| && SameCovariates(r, i, sc, k)
  {
    var sc := StripColumn(cov, PersonId);
    var sd := StripColumn(diab, PersonId);
    LeftPairsCover(sc.rows, sd.rows, SameId(), k);
    var i :| 0 <= i < |Pairing(cov, diab)| && Pairing(cov, diab)[i].0 == sc.rows[k];
    KeptAt(cov, diab, k, i);
  }

  /** The output row made from a pairing of covariate row `k` holds that row's cells. */
  lemma KeptAt(cov: Table, diab: Table, k: nat, i: nat)
    requires Loaded(cov, diab) && k < |cov.rows| && i < |Pairing(cov, diab)|
    requires Pairing(cov, diab)[i].0 == StripColumn(cov, PersonId).rows[k]
    ensures var r := CombineDiabetesAndCovariates(cov, diab);
            i < |r.rows| && SameCovariates(r, i, StripColumn(cov, PersonId), k)
  {
    OutputRow(cov, diab, i);
  }

  /** No two diabetes rows share a stripped `person_id`. */
  predicate UniqueIds(diab: Table)
    requires Rectangular(diab)
  {
    var sd := StripColumn(diab, PersonId);
    forall a, b :: 0 <= a < b < |sd.rows| ==> At(sd, a, PersonId) != At(sd, b, PersonId)
  }

  /** With unique diabetes ids every covariate row has at most one match, so the pairing
      keeps the covariate rows one for one and in order. */
  lemma UniquePairing(cov: Table, diab: Table)
    requires Loaded(cov, diab) && UniqueIds(diab)
    ensures forall x :: x in StripColumn(cov, PersonId).rows ==>
      |MatchesOf(x, StripColumn(diab, PersonId).rows, SameId())| <= 1
    ensures |Pairing(cov, diab)| == |cov.rows|
    ensures forall k :: 0 <= k < |cov.rows| ==> Pairing(cov, diab)[k].0 == StripColumn(cov, PersonId).rows[k]
  {
    var sc := StripColumn(cov, PersonId);
    var sd := StripColumn(diab, PersonId);
    var key := (row: Row) => Value(DiabetesNames, row, PersonId);
    forall x | x in sc.rows
      ensures |MatchesOf(x, sd.rows, SameId())| <= 1
    {
      MatchesAtMostOne(x, sd.rows, SameId(), key);
    }
    LeftPairsUnique(sc.rows, sd.rows, SameId());
  }

  /** With unique diabetes ids the output has exactly the covariate rows, in their order. */
  lemma UniqueIdsKeepRows(cov: Table, diab: Table)
    requires Loaded(cov, diab) && UniqueIds(diab)
    ensures var r := CombineDiabetesAndCovariates(cov, diab); var sc := StripColumn(cov, PersonId);
            |r.rows| == |cov.rows| && forall k :: 0 <= k < |cov.rows| ==> SameCovariates(r, k, sc, k)
  {
    var sc := StripColumn(cov, PersonId);
    var r := CombineDiabetesAndCovariates(cov, diab);
    var ps := Pairing(cov, diab);
    UniquePairing(cov, diab);
    MergeLeftRows(cov, diab);
    forall k | 0 <= k < |cov.rows|
      ensures SameCovariates(r, k, sc, k)
    {
      OutputRow(cov, diab, k);
      assert ps[k].0 == sc.rows[k];
    }
  }

  /** With unique diabetes ids, a person with a diabetes row gets its status (or "" when
      that status is missing). */
  lemma StatusOfPerson(cov: Table, diab: Table, k: nat, j: nat)
    requires Loaded(cov, diab) && UniqueIds(diab) && k < |cov.rows| && j < |diab.rows|
    requires At(StripColumn(cov, PersonId), k, PersonId) == At(StripColumn(diab, PersonId), j, PersonId)
    ensures var r := CombineDiabetesAndCovariates(cov, diab);
            k < |r.rows| && At(r, k, T2Diab) == FillCell(At(diab, j, T2Diab), Str(""))
  {
    var sc := StripColumn(cov, PersonId);
    var sd := StripColumn(diab, PersonId);
    UniquePairing(cov, diab);
    assert SameId()(sc.rows[k], sd.rows[j]);
    LeftPairsMatched(sc.rows, sd.rows, SameId(), k, sd.rows[j]);
    OutputRow(cov, diab, k);
    assert At(sd, j, T2Diab) == At(diab, j, T2Diab);
  }

  /** A covariate row whose key no diabetes row holds matches no diabetes row. */
  lemma NoMatchingRow(sc: Table, sd: Table, k: nat)
    requires sc.columns == CovariateNames && sd.columns == DiabetesNames && k < |sc.rows|
    requires forall j :: 0 <= j < |sd.rows| ==> At(sc, k, PersonId) != At(sd, j, PersonId)
    ensures forall y :: y in sd.rows ==> !SameId()(sc.rows[k], y)
  {
    forall y | y in sd.rows
      ensures !SameId()(sc.rows[k], y)
    {
      var j :| 0 <= j < |sd.rows| && sd.rows[j] == y;
      assert Value(DiabetesNames, y, PersonId) == At(sd, j, PersonId);
    }
  }

  /** A person whose stripped id no diabetes row holds gets the status "". */
  lemma StatusWithoutRow(cov: Table, diab: Table, k: nat)
    requires Loaded(cov, diab) && UniqueIds(diab) && k < |cov.rows|
    requires forall j :: 0 <= j < |diab.rows| ==>
      At(StripColumn(cov, PersonId), k, PersonId) != At(StripColumn(diab, PersonId), j, PersonId)
    ensures var r := CombineDiabetesAndCovariates(cov, diab); k < |r.rows| && At(r, k, T2Diab) == Str("")
  {
    var sc := StripColumn(cov, PersonId);
    var sd := StripColumn(diab, PersonId);
    UniquePairing(cov, diab);
    NoMatchingRow(sc, sd, k);
    LeftPairsUnmatched(sc.rows, sd.rows, SameId(), k);
    OutputRow(cov, diab, k);
  }
}

=== FILE: flagger.dfy ===
/** phenotypes/unifier_functions.py, second half: every converted measurement is flagged
    (missing value, placeholder value, unit trouble, outlier), the harmonised table is
    assembled, and `trim` keeps the clean measurements in seven columns.
 */
module Flagger {
  import opened Wrappers
  import opened Seqs
  import opened Tables
  import opened Unifier

  const NanFlag := "nan_flag"
  const NanEquivFlag := "nan_equiv_flag"
  const MissingFlag := "missing_value_flag"
  const UnitNoneFlag := "unit_none_flag"
  const UnitRenameFlag := "unit_rename_flag"
  const DiscordFlag := "unit_discord_flag"
  const OutlierFlag := "outlier_flag"
  const MinValue := "minimum_value"
  const MaxValue := "maximum_value"

  /** The default placeholder values that stand for a missing measurement. */
  const DefaultNanEquivalents: seq<int> := [10000000, 100000000]

  /** The columns `trim` keeps, before `final_unit` is renamed `unit`. */
  const TrimColumns: seq<string> :=
    ["src_id", "person_id", ConceptName, "measurement_datetime", LabName, ValueCol, FinalUnit]

  /** The columns of a trimmed table. */
  const TrimmedNames: seq<string> :=
    ["src_id", "person_id", ConceptName, "measurement_datetime", LabName, ValueCol, "unit"]

  // ---------------------------------------------------------------------------
  // the flags of one measurement

  /** `isin(nan_equivalents)` on a numeric column: equal in value to a placeholder. */
  predicate IsNanEquivalent(v: Cell, nanEquivalents: seq<int>) {
    exists i :: 0 <= i < |nanEquivalents| && AsNumber(v) == Some(nanEquivalents[i] as real)
  }

  /** `(value < minimum) | (value > maximum)`; a missing side makes a comparison false, and
      comparing a string with a number raises. */
  function OutlierTest(v: Cell, lo: Cell, hi: Cell): (r: Result<bool>)
    ensures r.Err? <==> Compare(v, Less, lo).Err? || Compare(v, Greater, hi).Err?
    ensures r.Ok? ==> (r.value <==> Compare(v, Less, lo) == Ok(true) || Compare(v, Greater, hi) == Ok(true))
  {
    var below :- Compare(v, Less, lo);
    var above :- Compare(v, Greater, hi);
    Ok(below || above)
  }

  /** The test outcome as a cell (`True` when the test raises is never used). */
  function OutlierCell(v: Cell, lo: Cell, hi: Cell): Cell {
    Bool(OutlierTest(v, lo, hi) == Ok(true))
  }

  /** The columns `measurement_flagger` reads from the measurements, in the order it reads them. */
  const FlaggerReads: seq<string> := [ValueCol, AssignedUnit, UnitName, FinalUnit, StandardUnit, MinValue, MaxValue]

  /** `value_as_number < minimum_value` does not raise on any row. */
  predicate BelowComparable(t: Table) {
    forall k :: 0 <= k < |t.rows| ==> Compare(At(t, k, ValueCol), Less, At(t, k, MinValue)).Ok?
  }

  /** `value_as_number > maximum_value` does not raise on any row. */
  predicate AboveComparable(t: Table) {
    forall k :: 0 <= k < |t.rows| ==> Compare(At(t, k, ValueCol), Greater, At(t, k, MaxValue)).Ok?
  }

  /** Every column read before `maximum_value` is present, the unit map's included. */
  predicate ReadsBeforeMax(t: Table, unitMap: Table) {
    ValueCol in t.columns && AssignedUnit in t.columns && AssignedUnit in unitMap.columns &&
    UnitName in t.columns && FinalUnit in t.columns && StandardUnit in t.columns && MinValue in t.columns
  }

  /** Every measurement can be compared with its bounds. */
  predicate Comparable(t: Table) {
    BelowComparable(t) && AboveComparable(t)
  }

  /** The names of the seven flags, in the order they are added. */
  const FlagNames: seq<string> :=
    [NanFlag, NanEquivFlag, MissingFlag, UnitNoneFlag, UnitRenameFlag, DiscordFlag, OutlierFlag]

  /** The seven flags of row `k`, in the order of `FlagNames`. */
  function RowFlags(t: Table, k: nat, renamed: seq<Cell>, nanEquivalents: seq<int>): (fs: seq<Cell>)
    requires k < |t.rows|
    ensures |fs| == |FlagNames|
  {
    var v := At(t, k, ValueCol);
    [ Bool(v.Missing?),
      Bool(IsNanEquivalent(v, nanEquivalents)),
      Bool(v.Missing? || IsNanEquivalent(v, nanEquivalents)),
      Bool(Eq(At(t, k, AssignedUnit), Str("none"))),
      Bool(At(t, k, UnitName) in renamed),
      Bool(!Eq(At(t, k, FinalUnit), At(t, k, StandardUnit))),
      OutlierCell(v, At(t, k, MinValue), At(t, k, MaxValue)) ]
  }

  /** The flag columns, one sequence of cells per flag. */
  function FlagColumns(t: Table, renamed: seq<Cell>, nanEquivalents: seq<int>): (vals: seq<seq<Cell>>)
    ensures |vals| == |FlagNames|
    ensures forall i :: 0 <= i < |vals| ==> |vals[i]| == |t.rows|
    ensures forall i, k :: 0 <= i < |vals| && 0 <= k < |t.rows| ==> vals[i][k] == RowFlags(t, k, renamed, nanEquivalents)[i]
  {
    seq(|FlagNames|, i requires 0 <= i < |FlagNames| =>
      seq(|t.rows|, k requires 0 <= k < |t.rows| => RowFlags(t, k, renamed, nanEquivalents)[i]))
  }

  /** `measurement_flagger`: the seven flag columns. `KeyError` for a column it reads that
      is absent (the unit map's `assigned_unit` is read after the measurements' first two
      columns); a `TypeError` when a measurement cannot be compared with its bounds. The
      whole `<` comparison is evaluated before `maximum_value` is read, so a value that
      cannot be compared with its minimum raises `TypeError` even without that column. */
  function MeasurementFlagger(t: Table, unitMap: Table, nanEquivalents: seq<int>): (r: Result<Table>)
    requires Rectangular(t)
    ensures r.Ok? <==> (forall c :: c in FlaggerReads ==> c in t.columns) && AssignedUnit in unitMap.columns && Comparable(t)
    ensures r.Err? && ValueCol !in t.columns ==> r.error == KeyError(ValueCol)
    ensures ReadsBeforeMax(t, unitMap) ==>
      (r.Err? && r.error.TypeError? <==> !Comparable(t) && (MaxValue in t.columns || !BelowComparable(t)))
    ensures ReadsBeforeMax(t, unitMap) ==>
      (r == Err(KeyError(MaxValue)) <==> MaxValue !in t.columns && BelowComparable(t))
    ensures r.Ok? ==> Rectangular(r.value) && |r.value.rows| == |t.rows|
    ensures r.Ok? ==> forall c :: c in t.columns || c in FlagNames ==> c in r.value.columns
    ensures r.Ok? ==> forall k :: 0 <= k < |t.rows| ==>
      var v := At(t, k, ValueCol);
      At(r.value, k, NanFlag) == Bool(v.Missing?) &&
      At(r.value, k, NanEquivFlag) == Bool(IsNanEquivalent(v, nanEquivalents)) &&
      At(r.value, k, MissingFlag) == Bool(v.Missing? || IsNanEquivalent(v, nanEquivalents)) &&
      At(r.value, k, UnitNoneFlag) == Bool(At(t, k, AssignedUnit) == Str("none")) &&
      At(r.value, k, UnitRenameFlag) == Bool(At(t, k, UnitName) in MappedUnits(unitMap)) &&
      At(r.value, k, DiscordFlag) == Bool(!Eq(At(t, k, FinalUnit), At(t, k, StandardUnit))) &&
      At(r.value, k, OutlierFlag) ==
        Bool(Compare(v, Less, At(t, k, MinValue)) == Ok(true) || Compare(v, Greater, At(t, k, MaxValue)) == Ok(true))
    ensures r.Ok? ==> forall k, c :: 0 <= k < |t.rows| && c !in FlagNames ==> At(r.value, k, c) == At(t, k, c)
  {
    if ValueCol !in t.columns then Err(KeyError(ValueCol))
    else if AssignedUnit !in t.columns then Err(KeyError(AssignedUnit))
    else if AssignedUnit !in unitMap.columns then Err(KeyError(AssignedUnit))
    else
      var absent := FirstAbsent([UnitName, FinalUnit, StandardUnit, MinValue], t.columns);
      if absent.Some? then Err(KeyError(absent.value))
      else if !BelowComparable(t) then Err(TypeError("'<' not supported between instances of 'str' and 'float'"))
      else if MaxValue !in t.columns then Err(KeyError(MaxValue))
      else if !AboveComparable(t) then Err(TypeError("'>' not supported between instances of 'str' and 'float'"))
      else
        var r := AddFlags(t, MappedUnits(unitMap), nanEquivalents);
        FlagsOfRows(t, r, MappedUnits(unitMap), nanEquivalents);
        Ok(r)
  }

  /** The table with its seven flag columns. */
  function AddFlags(t: Table, renamed: seq<Cell>, nanEquivalents: seq<int>): (r: Table)
    requires Rectangular(t)
    ensures Rectangular(r) && |r.rows| == |t.rows|
    ensures forall c :: c in t.columns || c in FlagNames ==> c in r.columns
    ensures forall k, i :: 0 <= k < |t.rows| && 0 <= i < |FlagNames| ==>
      At(r, k, FlagNames[i]) == RowFlags(t, k, renamed, nanEquivalents)[i]
    ensures forall k, c :: 0 <= k < |t.rows| && c !in FlagNames ==> At(r, k, c) == At(t, k, c)
  {
    var vals := FlagColumns(t, renamed, nanEquivalents);
    SetColumns(t, FlagNames, vals)
  }

  /** The flag columns hold the flags of the original measurements. */
  lemma FlagsOfRows(t: Table, r: Table, renamed: seq<Cell>, nanEquivalents: seq<int>)
    requires forall k, i :: 0 <= k < |t.rows| && 0 <= i < |FlagNames| && k < |r.rows| ==>
      At(r, k, FlagNames[i]) == RowFlags(t, k, renamed, nanEquivalents)[i]
    requires |r.rows| == |t.rows| && Comparable(t)
    ensures forall k :: 0 <= k < |t.rows| ==>
      var v := At(t, k, ValueCol);
      At(r, k, NanFlag) == Bool(v.Missing?) &&
      At(r, k, NanEquivFlag) == Bool(IsNanEquivalent(v, nanEquivalents)) &&
      At(r, k, MissingFlag) == Bool(v.Missing? || IsNanEquivalent(v, nanEquivalents)) &&
      At(r, k, UnitNoneFlag) == Bool(At(t, k, AssignedUnit) == Str("none")) &&
      At(r, k, UnitRenameFlag) == Bool(At(t, k, UnitName) in renamed) &&
      At(r, k, DiscordFlag) == Bool(!Eq(At(t, k, FinalUnit), At(t, k, StandardUnit))) &&
      At(r, k, OutlierFlag) ==
        Bool(Compare(v, Less, At(t, k, MinValue)) == Ok(true) || Compare(v, Greater, At(t, k, MaxValue)) == Ok(true))
  {
    forall k | 0 <= k < |t.rows|
      ensures var v := At(t, k, ValueCol);
      At(r, k, NanFlag) == Bool(v.Missing?) &&
      At(r, k, NanEquivFlag) == Bool(IsNanEquivalent(v, nanEquivalents)) &&
      At(r, k, MissingFlag) == Bool(v.Missing? || IsNanEquivalent(v, nanEquivalents)) &&
      At(r, k, UnitNoneFlag) == Bool(At(t, k, AssignedUnit) == Str("none")) &&
      At(r, k, UnitRenameFlag) == Bool(At(t, k, UnitName) in renamed) &&
      At(r, k, DiscordFlag) == Bool(!Eq(At(t, k, FinalUnit), At(t, k, StandardUnit))) &&
      At(r, k, OutlierFlag) ==
        Bool(Compare(v, Less, At(t, k, MinValue)) == Ok(true) || Compare(v, Greater, At(t, k, MaxValue)) == Ok(true))
    {
      var fs := RowFlags(t, k, renamed, nanEquivalents);
      assert At(r, k, FlagNames[0]) == fs[0] && At(r, k, FlagNames[1]) == fs[1] && At(r, k, FlagNames[2]) == fs[2];
      assert At(r, k, FlagNames[3]) == fs[3] && At(r, k, FlagNames[4]) == fs[4];
      assert At(r, k, FlagNames[5]) == fs[5] && At(r, k, FlagNames[6]) == fs[6];
      EqStr(At(t, k, AssignedUnit), "none");
    }
  }


  // ---------------------------------------------------------------------------
  // harmonize

  /** The column names two tables share, in the order of the first. */
  function Common(a: seq<string>, b: seq<string>): (r: seq<string>)
    ensures forall c :: c in r <==> c in a && c in b
  {
    Filter(a, c => c in b)
  }

  /** `left.merge(right)` without `on`: an inner merge on every shared column name;
      `MergeError` (a `ValueError`) when there is none. */
  function MergeOnCommon(l: Table, r: Table): (res: Result<Table>)
    requires Rectangular(l) && Rectangular(r)
    ensures |Common(l.columns, r.columns)| == 0 ==> res.Err? && res.error.ValueError?
    ensures res.Ok? ==> Rectangular(res.value)
  {
    var keys := Common(l.columns, r.columns);
    if |keys| == 0 then Err(ValueError("No common columns to perform merge on"))
    else InnerJoin(l, r, keys)
  }

  /** Every row of a merge on the shared columns extends a left row and reads that row's
      value under every left column. */
  lemma MergeOnCommonKeeps(l: Table, r: Table, o: Row)
    requires Rectangular(l) && Rectangular(r) && MergeOnCommon(l, r).Ok?
    requires o in MergeOnCommon(l, r).value.rows
    ensures exists a :: a in l.rows && forall c :: c in l.columns ==> Value(MergeOnCommon(l, r).value.columns, o, c) == Value(l.columns, a, c)
  {
    var keys := Common(l.columns, r.columns);
    var out := MergeOnCommon(l, r).value;
    var p :| p in Pairs(l.rows, r.rows, (a, b) => KeysMatch(l.columns, a, r.columns, b, keys))
             && o == p.0 + RightPart(r.columns, p.1, keys);
    forall c | c in l.columns
      ensures Value(out.columns, o, c) == Value(l.columns, p.0, c)
    {
      JoinLeftValue(l.columns, r.columns, keys, p.0, RightPart(r.columns, p.1, keys), c);
    }
  }

  /** `unit_mapper` followed by `unit_classifier`. */
  function MapAndClassify(t: Table, unitMap: Table): (r: Result<Table>)
    requires Rectangular(t)
    ensures r.Ok? <==> UnitName in t.columns && AssignedUnit in unitMap.columns && ReducedUnit in unitMap.columns
    ensures r.Ok? ==> Rectangular(r.value) && |r.value.rows| == |t.rows|
  {
    var mapped :- UnitMapper(t, unitMap);
    UnitClassifier(mapped)
  }

  /** The unifier chain: filter and merge, map and classify the units, convert. */
  function Unify(df: Table, meta: Table, unitMap: Table, convert: Table): (r: Result<Table>)
    requires Rectangular(df) && Rectangular(meta) && Rectangular(convert)
    ensures r.Ok? ==> Rectangular(r.value)
    ensures ConceptId !in meta.columns ==> r == Err(KeyError(ConceptId))
  {
    var filtered :- FilterAndMerge(df, meta);
    var classified :- MapAndClassify(filtered, unitMap);
    UnitConverter(classified, convert)
  }

  /** `harmonize`: the whole chain, then the lab names merged back in from the metadata. */
  function Harmonize(df: Table, meta: Table, unitMap: Table, convert: Table, nanEquivalents: seq<int>): (r: Result<Table>)
    requires Rectangular(df) && Rectangular(meta) && Rectangular(convert)
    ensures r.Ok? ==> Rectangular(r.value)
  {
    var converted :- Unify(df, meta, unitMap, convert);
    var flagged :- MeasurementFlagger(converted, unitMap, nanEquivalents);
    var labs :- Select(meta, [LabName, ConceptId]);
    MergeOnCommon(flagged, labs)
  }

  // ---------------------------------------------------------------------------
  // trim

  /** The columns the flags are computed from. */
  const FlagSources: seq<string> := [ValueCol, FinalUnit, StandardUnit, MinValue, MaxValue]

  /** The four flags `trim` tests agree with the value, units and bounds they are
      computed from. */
  predicate FlagCells(v: Cell, final: Cell, standard: Cell, lo: Cell, hi: Cell,
                      nanFlag: Cell, equivFlag: Cell, discordFlag: Cell, outlierFlag: Cell, nanEquivalents: seq<int>) {
    nanFlag == Bool(v.Missing?) &&
    equivFlag == Bool(IsNanEquivalent(v, nanEquivalents)) &&
    discordFlag == Bool(!Eq(final, standard)) &&
    outlierFlag == Bool(Compare(v, Less, lo) == Ok(true) || Compare(v, Greater, hi) == Ok(true))
  }

  /** A row's flags agree with its own value, units and bounds. */
  predicate FlagsConsistent(cols: seq<string>, row: Row, nanEquivalents: seq<int>) {
    FlagCells(Value(cols, row, ValueCol), Value(cols, row, FinalUnit), Value(cols, row, StandardUnit),
              Value(cols, row, MinValue), Value(cols, row, MaxValue),
              Value(cols, row, NanFlag), Value(cols, row, NanEquivFlag), Value(cols, row, DiscordFlag),
              Value(cols, row, OutlierFlag), nanEquivalents)
  }

  /** Every flagged measurement's flags agree with its own cells. */
  lemma FlaggedConsistent(t: Table, unitMap: Table, nanEquivalents: seq<int>)
    requires Rectangular(t) && MeasurementFlagger(t, unitMap, nanEquivalents).Ok?
    ensures var f := MeasurementFlagger(t, unitMap, nanEquivalents).value;
            forall row :: row in f.rows ==> FlagsConsistent(f.columns, row, nanEquivalents)
  {
    var f := MeasurementFlagger(t, unitMap, nanEquivalents).value;
    forall row | row in f.rows
      ensures FlagsConsistent(f.columns, row, nanEquivalents)
    {
      var k :| 0 <= k < |f.rows| && f.rows[k] == row;
      SourcesAreNotFlags();
      FlaggedRowConsistent(t, f, k, nanEquivalents);
    }
  }

  /** The flagger never overwrites a column its flags are computed from. */
  lemma SourcesAreNotFlags()
    ensures ValueCol !in FlagNames && FinalUnit !in FlagNames && StandardUnit !in FlagNames
    ensures MinValue !in FlagNames && MaxValue !in FlagNames
  {
  }

  lemma FlaggedRowConsistent(t: Table, f: Table, k: nat, nanEquivalents: seq<int>)
    requires k < |t.rows| && k < |f.rows|
    requires FlagCells(At(t, k, ValueCol), At(t, k, FinalUnit), At(t, k, StandardUnit), At(t, k, MinValue), At(t, k, MaxValue),
                       At(f, k, NanFlag), At(f, k, NanEquivFlag), At(f, k, DiscordFlag), At(f, k, OutlierFlag), nanEquivalents)
    requires At(f, k, ValueCol) == At(t, k, ValueCol) && At(f, k, FinalUnit) == At(t, k, FinalUnit)
    requires At(f, k, StandardUnit) == At(t, k, StandardUnit)
    requires At(f, k, MinValue) == At(t, k, MinValue) && At(f, k, MaxValue) == At(t, k, MaxValue)
    ensures FlagsConsistent(f.columns, f.rows[k], nanEquivalents)
  {
  }

  /** A flag reads `False`: pandas `flag == False`. */
  predicate FlagFalse(cols: seq<string>, row: Row, name: string) {
    Eq(Value(cols, row, name), Bool(false))
  }

  /** The four flags `trim` tests. */
  const TrimFlags: seq<string> := [NanFlag, NanEquivFlag, DiscordFlag, OutlierFlag]

  /** A clean measurement: none of the four flags is set. */
  predicate Clean(cols: seq<string>, row: Row) {
    FlagFalse(cols, row, NanFlag) && FlagFalse(cols, row, NanEquivFlag) &&
    FlagFalse(cols, row, DiscordFlag) && FlagFalse(cols, row, OutlierFlag)
  }

  /** The clean rows, in order. */
  function CleanRows(t: Table): (rows: seq<Row>)
    ensures forall row :: row in rows <==> row in t.rows && Clean(t.columns, row)
  {
    Filter(t.rows, row => Clean(t.columns, row))
  }

  /** The table restricted to its clean rows. */
  function Masked(t: Table): (r: Table)
    requires Rectangular(t)
    ensures Rectangular(r) && r.columns == t.columns && r.rows == CleanRows(t)
  {
    var rows := CleanRows(t);
    assert forall k :: 0 <= k < |rows| ==> rows[k] in t.rows;
    Table(t.columns, rows)
  }

  /** Renaming `final_unit` to `unit` in the seven kept columns gives the output names. */
  lemma TrimmedRenamed(t: Table)
    requires t.columns == TrimColumns
    ensures RenameColumn(t, FinalUnit, "unit").columns == TrimmedNames
  {
  }

  /** `trim`: the clean rows, in order, reduced to seven columns with `final_unit` renamed
      `unit`; `KeyError` when a flag or a kept column is absent. */
  function Trim(t: Table): (r: Result<Table>)
    requires Rectangular(t)
    ensures r.Ok? <==> (forall c :: c in TrimFlags ==> c in t.columns) && (forall c :: c in TrimColumns ==> c in t.columns)
    ensures r.Err? ==> r.error.KeyError?
    ensures r.Ok? ==> r.value.columns == TrimmedNames && Rectangular(r.value) && |r.value.rows| == |CleanRows(t)|
    ensures r.Ok? ==> forall k, i :: 0 <= k < |r.value.rows| && 0 <= i < |TrimColumns| ==>
      r.value.rows[k][i] == Value(t.columns, CleanRows(t)[k], TrimColumns[i])
  {
    var absent := FirstAbsent(TrimFlags, t.columns);
    if absent.Some? then Err(KeyError(absent.value))
    else
      var selected :- Select(Masked(t), TrimColumns);
      TrimmedRenamed(selected);
      Ok(RenameColumn(selected, FinalUnit, "unit"))
  }

  /** A clean row whose flags agree with its cells has a present value that is not a
      placeholder, a final unit equal to the standard unit, and a value not below its
      minimum and not above its maximum. */
  lemma CleanRowValid(cols: seq<string>, row: Row, nanEquivalents: seq<int>)
    requires FlagsConsistent(cols, row, nanEquivalents) && Clean(cols, row)
    ensures var v := Value(cols, row, ValueCol);
            !v.Missing? && !IsNanEquivalent(v, nanEquivalents) &&
            Eq(Value(cols, row, FinalUnit), Value(cols, row, StandardUnit)) &&
            Compare(v, Less, Value(cols, row, MinValue)) != Ok(true) &&
            Compare(v, Greater, Value(cols, row, MaxValue)) != Ok(true)
  {
  }

  /** Every trimmed row comes from a clean row of the input; when the input's flags agree
      with its cells, the row's value is present, not a placeholder and within its bounds,
      and its unit is the standard unit. */
  lemma TrimmedRowsValid(t: Table, nanEquivalents: seq<int>, k: nat)
    requires Rectangular(t) && Trim(t).Ok? && k < |Trim(t).value.rows|
    requires forall row :: row in t.rows ==> FlagsConsistent(t.columns, row, nanEquivalents)
    ensures var src := CleanRows(t)[k];
            var out := Trim(t).value.rows[k];
            var v := out[5];
            src in t.rows && Clean(t.columns, src) &&
            v == Value(t.columns, src, ValueCol) && !v.Missing? && !IsNanEquivalent(v, nanEquivalents) &&
            Eq(out[6], Value(t.columns, src, StandardUnit)) &&
            Compare(v, Less, Value(t.columns, src, MinValue)) != Ok(true) &&
            Compare(v, Greater, Value(t.columns, src, MaxValue)) != Ok(true)
  {
    var src := CleanRows(t)[k];
    assert src in CleanRows(t);
    CleanRowValid(t.columns, src, nanEquivalents);
    assert TrimColumns[5] == ValueCol && TrimColumns[6] == FinalUnit;
  }

  // ---------------------------------------------------------------------------
  // the pipeline end to end

  /** Two rows that agree on the flags and on the columns the flags are computed from are
      consistent together. */
  lemma ConsistentTransfers(cols: seq<string>, row: Row, cols': seq<string>, row': Row, nanEquivalents: seq<int>)
    requires FlagsConsistent(cols, row, nanEquivalents)
    requires forall c :: c in FlagSources || c in FlagNames ==> Value(cols', row', c) == Value(cols, row, c)
    ensures FlagsConsistent(cols', row', nanEquivalents)
  {
    assert NanFlag in FlagNames && NanEquivFlag in FlagNames && DiscordFlag in FlagNames && OutlierFlag in FlagNames;
    assert ValueCol in FlagSources && FinalUnit in FlagSources && StandardUnit in FlagSources;
    assert MinValue in FlagSources && MaxValue in FlagSources;
  }

  /** Merging the lab names back in keeps every harmonised row's flags consistent with its
      own cells. */
  lemma HarmonizedConsistent(df: Table, meta: Table, unitMap: Table, convert: Table, nanEquivalents: seq<int>)
    requires Rectangular(df) && Rectangular(meta) && Rectangular(convert)
    requires Harmonize(df, meta, unitMap, convert, nanEquivalents).Ok?
    ensures var h := Harmonize(df, meta, unitMap, convert, nanEquivalents).value;
            forall row :: row in h.rows ==> FlagsConsistent(h.columns, row, nanEquivalents)
  {
    var h := Harmonize(df, meta, unitMap, convert, nanEquivalents).value;
    var converted := Unify(df, meta, unitMap, convert).value;
    var flagged := MeasurementFlagger(converted, unitMap, nanEquivalents).value;
    var labs := Select(meta, [LabName, ConceptId]).value;
    assert h == MergeOnCommon(flagged, labs).value;
    FlaggedConsistent(converted, unitMap, nanEquivalents);
    assert forall c :: c in FlagSources ==> c in FlaggerReads;
    assert forall c :: c in FlagSources || c in FlagNames ==> c in flagged.columns;
    forall o | o in h.rows
      ensures FlagsConsistent(h.columns, o, nanEquivalents)
    {
      MergeOnCommonKeeps(flagged, labs, o);
      var a :| a in flagged.rows && forall c :: c in flagged.columns ==> Value(h.columns, o, c) == Value(flagged.columns, a, c);
      ConsistentTransfers(flagged.columns, a, h.columns, o, nanEquivalents);
    }
  }

  /** The end of the pipeline: every row of `trim(harmonize(...))` comes from a harmonised
      row whose four flags are all false, and so has a present value that is not a
      placeholder, lies within that row's bounds, and is in the standard unit. */
  lemma HarmonizedTrimValid(df: Table, meta: Table, unitMap: Table, convert: Table, nanEquivalents: seq<int>, k: nat)
    requires Rectangular(df) && Rectangular(meta) && Rectangular(convert)
    requires Harmonize(df, meta, unitMap, convert, nanEquivalents).Ok?
    requires Trim(Harmonize(df, meta, unitMap, convert, nanEquivalents).value).Ok?
    requires k < |Trim(Harmonize(df, meta, unitMap, convert, nanEquivalents).value).value.rows|
    ensures var h := Harmonize(df, meta, unitMap, convert, nanEquivalents).value;
            var src := CleanRows(h)[k];
            var v := Trim(h).value.rows[k][5];
            src in h.rows && v == Value(h.columns, src, ValueCol) &&
            !v.Missing? && !IsNanEquivalent(v, nanEquivalents) &&
            Eq(Trim(h).value.rows[k][6], Value(h.columns, src, StandardUnit)) &&
            Compare(v, Less, Value(h.columns, src, MinValue)) != Ok(true) &&
            Compare(v, Greater, Value(h.columns, src, MaxValue)) != Ok(true)
  {
    var h := Harmonize(df, meta, unitMap, convert, nanEquivalents).value;
    HarmonizedConsistent(df, meta, unitMap, convert, nanEquivalents);
    TrimmedRowsValid(h, nanEquivalents, k);
  }
}

=== FILE: json.dfy ===
/** Parsed JSON values as the phenotype scripts see them after `json.load`,
    with Python's `dict.get`, item assignment and `str()`.
 */
module Json {
  import opened Wrappers
  import opened Strings

  /** A JSON value. A number with a fraction or exponent is kept as its JSON text, which
      for a plain decimal such as `250.2` is also what Python prints; an object keeps its
      keys in insertion order. */
  datatype Json =
    | JNull
    | JBool(b: bool)
    | JInt(i: int)
    | JFloat(text: string)
    | JStr(s: string)
    | JList(items: seq<Json>)
    | JObject(fields: seq<(string, Json)>)

  /** A JSON object (a Python dict) as its key/value pairs in insertion order. */
  type Object = seq<(string, Json)>

  predicate HasKey(o: Object, k: string) {
    exists i :: 0 <= i < |o| && o[i].0 == k
  }

  /** No key occurs twice, as in every dict `json.load` builds. */
  predicate UniqueKeys(o: Object) {
    forall i, j :: 0 <= i < j < |o| ==> o[i].0 != o[j].0
  }

  /** Python `o.get(k)`: the value stored under the first (only) occurrence of `k`. */
  function Get(o: Object, k: string): (r: Option<Json>)
    ensures r.Some? <==> HasKey(o, k)
    decreases |o|
  {
    if |o| == 0 then None
    else if o[0].0 == k then Some(o[0].1)
    else
      var r := Get(o[1..], k);
      assert HasKey(o[1..], k) ==> HasKey(o, k) by {
        if HasKey(o[1..], k) {
          var i :| 0 <= i < |o[1..]| && o[1..][i].0 == k;
          assert o[i + 1].0 == k;
        }
      }
      assert HasKey(o, k) ==> HasKey(o[1..], k) by {
        if HasKey(o, k) {
          var i :| 0 <= i < |o| && o[i].0 == k;
          assert i > 0 && o[1..][i - 1].0 == k;
        }
      }
      r
  }

  /** Python `o[k] = v`: overwrite in place when the key exists, append otherwise. */
  function Set(o: Object, k: string, v: Json): (r: Object)
    ensures Get(r, k) == Some(v)
    ensures forall k' :: k' != k ==> Get(r, k') == Get(o, k')
    ensures |r| == if HasKey(o, k) then |o| else |o| + 1
    decreases |o|
  {
    if |o| == 0 then [(k, v)]
    else if o[0].0 == k then [(k, v)] + o[1..]
    else
      var rest := Set(o[1..], k, v);
      assert ([o[0]] + rest)[1..] == rest;
      assert ([(k, v)] + o[1..])[1..] == o[1..];
      assert HasKey(o, k) <==> HasKey(o[1..], k) by {
        if HasKey(o, k) {
          var i :| 0 <= i < |o| && o[i].0 == k;
          assert i > 0 && o[1..][i - 1].0 == k;
        }
        if HasKey(o[1..], k) {
          var i :| 0 <= i < |o[1..]| && o[1..][i].0 == k;
          assert o[i + 1].0 == k;
        }
      }
      [o[0]] + rest
  }

  /** Item assignment adds exactly its key. */
  lemma SetKeys(o: Object, k: string, v: Json)
    ensures forall k' :: HasKey(Set(o, k, v), k') <==> HasKey(o, k') || k' == k
  {
    forall k'
      ensures HasKey(Set(o, k, v), k') <==> HasKey(o, k') || k' == k
    {
      assert Get(Set(o, k, v), k').Some? <==> Get(o, k').Some? || k' == k;
    }
  }

  /** Item assignment keeps the keys of a dict distinct. */
  lemma {:induction false} SetUniqueKeys(o: Object, k: string, v: Json)
    requires UniqueKeys(o)
    ensures UniqueKeys(Set(o, k, v))
    decreases |o|
  {
    if |o| > 0 && o[0].0 != k {
      var rest := Set(o[1..], k, v);
      SetUniqueKeys(o[1..], k, v);
      SetKeys(o[1..], k, v);
      assert forall i :: 0 <= i < |o[1..]| ==> o[1..][i] == o[i + 1];
      assert !HasKey(o[1..], o[0].0);
      var r := [o[0]] + rest;
      assert Set(o, k, v) == r;
      forall i, j | 0 <= i < j < |r|
        ensures r[i].0 != r[j].0
      {
        if i == 0 {
          assert r[j] == rest[j - 1];
        } else {
          assert r[i] == rest[i - 1] && r[j] == rest[j - 1];
        }
      }
    } else if |o| > 0 {
      var r := Set(o, k, v);
      assert forall i :: 1 <= i < |r| ==> r[i] == o[i];
    }
  }

  /** Assigning a key keeps the position and the value of every other key. */
  lemma {:induction false} SetKeepsOthers(o: Object, k: string, v: Json, i: nat)
    requires i < |o| && o[i].0 != k
    ensures i < |Set(o, k, v)| && Set(o, k, v)[i] == o[i]
    decreases |o|
  {
    if o[0].0 != k && i > 0 {
      SetKeepsOthers(o[1..], k, v, i - 1);
      assert Set(o, k, v) == [o[0]] + Set(o[1..], k, v);
    }
  }

  /** Assigning a key the value it already holds changes nothing. */
  lemma {:induction false} SetExisting(o: Object, k: string, v: Json)
    requires Get(o, k) == Some(v)
    ensures Set(o, k, v) == o
    decreases |o|
  {
    if o[0].0 == k {
      assert o == [o[0]] + o[1..];
    } else {
      SetExisting(o[1..], k, v);
      assert o == [o[0]] + o[1..];
    }
  }

  // ---------------------------------------------------------------------------
  // str() and repr()

  /** The lower-case hexadecimal digit of `d`. */
  function HexDigit(d: nat): (c: char)
    requires d < 16
    ensures HexValue(c) == Some(d)
  {
    if d < 10 then ('0' as int + d) as char else ('a' as int + d - 10) as char
  }

  /** The value of a lower-case hexadecimal digit. */
  function HexValue(c: char): Option<nat> {
    if '0' <= c <= '9' then Some(c as int - '0' as int)
    else if 'a' <= c <= 'f' then Some(c as int - 'a' as int + 10)
    else None
  }

  /** How `repr` writes one character inside quotes `quote`: the quote and the backslash
      behind a backslash, tab, newline and carriage return by their letters, every other
      control character (and DEL) as `\xhh`, anything else as it is. */
  function EscapeChar(c: char, quote: char): (r: string)
    ensures 1 <= |r| <= 4
    ensures r[0] == c || r[0] == '\\'
  {
    if c == quote || c == '\\' then ['\\', c]
    else if c == '\t' then "\\t"
    else if c == '\n' then "\\n"
    else if c == '\r' then "\\r"
    else if c as int < 0x20 || c as int == 0x7f then ['\\', 'x', HexDigit(c as int / 16), HexDigit(c as int % 16)]
    else [c]
  }

  /** The characters of `s`, each escaped for quotes `quote`. */
  function Escape(s: string, quote: char): (r: string)
    ensures |r| >= |s|
    decreases |s|
  {
    if |s| == 0 then [] else EscapeChar(s[0], quote) + Escape(s[1..], quote)
  }

  /** The quote `repr` chooses: single unless the text holds a single quote and no double
      quote. The chosen quote occurs in the text only when both quotes do, so a quote
      needs escaping only then. */
  function QuoteChar(s: string): (q: char)
    ensures q == '"' <==> '\'' in s && '"' !in s
    ensures q == '\'' || q == '"'
    ensures q in s ==> '\'' in s && '"' in s
  {
    if '\'' in s && '"' !in s then '"' else '\''
  }

  /** Python `repr` of a string. */
  function QuoteString(s: string): (r: string)
    ensures |r| >= |s| + 2 && r[0] == QuoteChar(s) == r[|r| - 1]
  {
    var q := QuoteChar(s);
    [q] + Escape(s, q) + [q]
  }

  /** `c` in front of a decoded text; nothing when the decoding failed. */
  function Prepend(c: char, r: Option<string>): Option<string> {
    if r.Some? then Some([c] + r.value) else None
  }

  /** Reads the body of a Python string literal back: the inverse of `Escape`. `None` for
      a dangling backslash or an escape `Escape` never writes. */
  function Unescape(t: string): (r: Option<string>)
    decreases |t|
  {
    if |t| == 0 then Some([])
    else if t[0] != '\\' then Prepend(t[0], Unescape(t[1..]))
    else if |t| < 2 then None
    else if t[1] in "\\'\"" then Prepend(t[1], Unescape(t[2..]))
    else if t[1] in "tnr" then
      Prepend(if t[1] == 't' then '\t' else if t[1] == 'n' then '\n' else '\r', Unescape(t[2..]))
    else if t[1] == 'x' && |t| >= 4 && HexValue(t[2]).Some? && HexValue(t[3]).Some? then
      Prepend((16 * HexValue(t[2]).value + HexValue(t[3]).value) as char, Unescape(t[4..]))
    else None
  }

  /** One escaped character reads back as itself, whatever follows it. */
  lemma UnescapeChar(c: char, quote: char, rest: string)
    requires quote == '\'' || quote == '"'
    ensures Unescape(EscapeChar(c, quote) + rest) == Prepend(c, Unescape(rest))
  {
    var e := EscapeChar(c, quote);
    var t := e + rest;
    if |e| == 1 {
      assert t[1..] == rest;
    } else if |e| == 2 {
      assert t[2..] == rest;
    } else {
      assert t[4..] == rest;
      var n := c as int;
      assert HexValue(t[2]) == Some(n / 16) && HexValue(t[3]) == Some(n % 16);
      assert (16 * (n / 16) + n % 16) as char == c;
    }
  }

  /** Round trip: reading the escaped body back gives the text. */
  lemma {:induction false} EscapeRoundTrip(s: string, quote: char)
    requires quote == '\'' || quote == '"'
    ensures Unescape(Escape(s, quote)) == Some(s)
    decreases |s|
  {
    if |s| > 0 {
      EscapeRoundTrip(s[1..], quote);
      UnescapeChar(s[0], quote, Escape(s[1..], quote));
      assert [s[0]] + s[1..] == s;
    }
  }

  /** The body of a `repr` never holds its own quote unescaped: each quote character is
      the second of an escape pair, so the literal ends only at the closing quote. */
  lemma {:induction false} EscapeQuoted(s: string, quote: char, i: nat)
    requires quote == '\'' || quote == '"'
    requires i < |Escape(s, quote)| && Escape(s, quote)[i] == quote
    ensures i > 0 && Escape(s, quote)[i - 1] == '\\'
    decreases |s|
  {
    var e := EscapeChar(s[0], quote);
    var rest := Escape(s[1..], quote);
    assert Escape(s, quote) == e + rest;
    if i >= |e| {
      EscapeQuoted(s[1..], quote, i - |e|);
    }
  }

  /** Python `str(v)`. */
  function PyStr(v: Json): string
    decreases v, 1
  {
    match v
    case JNull => "None"
    case JBool(b) => if b then "True" else "False"
    case JInt(i) => IntToString(i)
    case JFloat(text) => text
    case JStr(s) => s
    case JList(items) =>
      "[" + Join(seq(|items|, i requires 0 <= i < |items| => Repr(items[i])), ", ") + "]"
    case JObject(fields) =>
      "{" + Join(seq(|fields|, i requires 0 <= i < |fields| =>
                     QuoteString(fields[i].0) + ": " + Repr(fields[i].1)), ", ") + "}"
  }

  /** Python `repr(v)`, as used for the elements of a container. */
  function Repr(v: Json): string
    decreases v, 2
  {
    if v.JStr? then QuoteString(v.s) else PyStr(v)
  }

  /** `str()` of a container, of `None` or of a boolean is never a run of digits; only a
      string, an integer or a float's text can be. */
  lemma NonTextNotNumeric(v: Json)
    requires !(v.JStr? || v.JInt? || v.JFloat?)
    ensures !IsNumeric(PyStr(v))
  {
    assert |PyStr(v)| > 0 && !IsDigit(PyStr(v)[0]);
  }
}

=== FILE: lab_edits.dfy ===
/** phenotypes/unifier_functions.py, the editing helpers: `update_outlier_bounds` rewrites
    the bounds of one lab in the metadata table, and `drop_ehr_site` removes the
    measurements that came from a list of EHR sites.
 */
module LabEdits {
  import opened Wrappers
  import opened Strings
  import opened Seqs
  import opened Tables
  import opened Unifier
  import opened Flagger

  // ---------------------------------------------------------------------------
  // update_outlier_bounds

  /** The position of the first row whose `lab_name` equals `lab`. */
  function FirstLab(t: Table, lab: string, from: nat): (r: Option<nat>)
    ensures r.Some? ==> from <= r.value < |t.rows| && Eq(At(t, r.value, LabName), Str(lab))
    ensures r.Some? ==> forall j :: from <= j < r.value ==> !Eq(At(t, j, LabName), Str(lab))
    ensures r.None? ==> forall j :: from <= j < |t.rows| ==> !Eq(At(t, j, LabName), Str(lab))
    decreases |t.rows| - from
  {
    if from >= |t.rows| then None
    else if Eq(At(t, from, LabName), Str(lab)) then Some(from)
    else FirstLab(t, lab, from + 1)
  }

  /** `df.at[k, c] = v` on a table whose index is its row positions: the cell is overwritten
      in place, or a new column is appended that is missing everywhere except row `k`. */
  function SetCell(t: Table, k: nat, c: string, v: Cell): (r: Table)
    requires Rectangular(t) && k < |t.rows|
    ensures Rectangular(r) && |r.rows| == |t.rows|
    ensures r.columns == if c in t.columns then t.columns else t.columns + [c]
    ensures At(r, k, c) == v
    ensures forall j, d :: 0 <= j < |t.rows| && (j != k || d != c) ==> At(r, j, d) == At(t, j, d)
  {
    if c in t.columns then
      var i := IndexOf(t.columns, c);
      var r := Table(t.columns, t.rows[k := t.rows[k][i := v]]);
      assert forall j :: 0 <= j < |r.rows| ==> |r.rows[j]| == |t.columns|;
      r
    else
      var cols := t.columns + [c];
      var rows := seq(|t.rows|, j requires 0 <= j < |t.rows| => t.rows[j] + [if j == k then v else Missing]);
      forall j, d | 0 <= j < |t.rows| && d in t.columns
        ensures Value(cols, rows[j], d) == Value(t.columns, t.rows[j], d)
      {
        ValueAppend(t.columns, [c], t.rows[j], [if j == k then v else Missing], d);
      }
      IndexOfAfter(t.columns, [c], c);
      Table(cols, rows)
  }

  /** Writing the value a cell already holds changes nothing. */
  lemma SetCellSame(t: Table, k: nat, c: string, v: Cell)
    requires Rectangular(t) && k < |t.rows| && c in t.columns && At(t, k, c) == v
    ensures SetCell(t, k, c, v) == t
  {
    var i := IndexOf(t.columns, c);
    assert t.rows[k][i := v] == t.rows[k];
    assert t.rows[k := t.rows[k]] == t.rows;
  }

  /** `update_outlier_bounds`: the supplied bounds are written into the first row of the lab;
      `ValueError` when neither bound is given or the lab is not listed, and `KeyError` when
      there is no `lab_name` column. */
  function UpdateOutlierBounds(t: Table, lab: string, minimum: Option<int>, maximum: Option<int>): (r: Result<Table>)
    requires Rectangular(t)
    ensures minimum.None? && maximum.None? ==> r.Err? && r.error.ValueError?
    ensures (minimum.Some? || maximum.Some?) && LabName !in t.columns ==> r == Err(KeyError(LabName))
    ensures r.Ok? <==> (minimum.Some? || maximum.Some?) && LabName in t.columns &&
                       exists j :: 0 <= j < |t.rows| && Eq(At(t, j, LabName), Str(lab))
    ensures r.Ok? ==> Rectangular(r.value) && |r.value.rows| == |t.rows| && |t.columns| <= |r.value.columns| && r.value.columns[..|t.columns|] == t.columns
    ensures r.Ok? ==> var k := FirstLab(t, lab, 0).value;
      (minimum.Some? ==> At(r.value, k, MinValue) == Int(minimum.value)) &&
      (maximum.Some? ==> At(r.value, k, MaxValue) == Int(maximum.value)) &&
      forall j, c :: 0 <= j < |t.rows| && !(j == k && ((c == MinValue && minimum.Some?) || (c == MaxValue && maximum.Some?))) ==>
        At(r.value, j, c) == At(t, j, c)
  {
    if minimum.None? && maximum.None? then
      Err(ValueError("At least one of minimum_value or maximum_value must be provided."))
    else if LabName !in t.columns then Err(KeyError(LabName))
    else
      match FirstLab(t, lab, 0)
      case None => Err(ValueError("lab_name '" + lab + "' not found in the DataFrame."))
      case Some(k) =>
        Ok(WriteBounds(t, k, minimum, maximum))
  }

  /** The supplied bounds written into row `k`; every other cell keeps its value. */
  function WriteBounds(t: Table, k: nat, minimum: Option<int>, maximum: Option<int>): (r: Table)
    requires Rectangular(t) && k < |t.rows|
    ensures Rectangular(r) && |r.rows| == |t.rows| && |t.columns| <= |r.columns| && r.columns[..|t.columns|] == t.columns
    ensures minimum.Some? ==> At(r, k, MinValue) == Int(minimum.value)
    ensures maximum.Some? ==> At(r, k, MaxValue) == Int(maximum.value)
    ensures forall j, c :: 0 <= j < |t.rows| && !(j == k && ((c == MinValue && minimum.Some?) || (c == MaxValue && maximum.Some?))) ==>
      At(r, j, c) == At(t, j, c)
  {
    var lower := if minimum.Some? then SetCell(t, k, MinValue, Int(minimum.value)) else t;
    var upper := if maximum.Some? then SetCell(lower, k, MaxValue, Int(maximum.value)) else lower;
    upper
  }

  /** Setting the same bounds a second time changes nothing. */
  lemma UpdateOutlierBoundsIdempotent(t: Table, lab: string, minimum: Option<int>, maximum: Option<int>)
    requires Rectangular(t) && UpdateOutlierBounds(t, lab, minimum, maximum).Ok?
    ensures var u := UpdateOutlierBounds(t, lab, minimum, maximum).value;
            UpdateOutlierBounds(u, lab, minimum, maximum) == Ok(u)
  {
    var u := UpdateOutlierBounds(t, lab, minimum, maximum).value;
    var k := FirstLab(t, lab, 0).value;
    assert forall j :: 0 <= j < |t.rows| ==> At(u, j, LabName) == At(t, j, LabName);
    assert FirstLab(u, lab, 0) == Some(k) by {
      FirstLabIs(u, lab, k);
    }
    assert LabName in u.columns;
    if minimum.Some? {
      assert MinValue in u.columns by {
        assert At(u, k, MinValue) != Missing;
      }
      SetCellSame(u, k, MinValue, Int(minimum.value));
    }
    if maximum.Some? {
      assert MaxValue in u.columns by {
        assert At(u, k, MaxValue) != Missing;
      }
      SetCellSame(u, k, MaxValue, Int(maximum.value));
    }
  }

  /** The first match is determined by its defining property. */
  lemma FirstLabIs(t: Table, lab: string, k: nat)
    requires k < |t.rows| && Eq(At(t, k, LabName), Str(lab))
    requires forall j :: 0 <= j < k ==> !Eq(At(t, j, LabName), Str(lab))
    ensures FirstLab(t, lab, 0) == Some(k)
  {
  }

  // ---------------------------------------------------------------------------
  // drop_ehr_site

  const SrcId := "src_id"
  const SitePrefix := "EHR site "

  /** The site names as `drop_ehr_site` rewrites them, for the marker `mark` (which is
      `SitePrefix`): the names lacking the marker get it in front, and come first; the names
      that already contain it follow unchanged. */
  function SiteNames(names: seq<string>, mark: string): (r: seq<string>)
    ensures |r| == |names|
    ensures forall s :: s in r ==> Contains(s, mark)
    ensures forall s :: s in names && Contains(s, mark) ==> s in r
    ensures forall s :: s in names && !Contains(s, mark) ==> mark + s in r
    ensures forall s :: s in r ==> s in names || exists n :: n in names && s == mark + n
  {
    var bare := Filter(names, n => !Contains(n, mark));
    var marked := Filter(names, n => Contains(n, mark));
    FilterSplit(names, n => Contains(n, mark), n => !Contains(n, mark));
    var front := Prefix(bare, mark);
    SiteNamesMembers(names, mark, bare, marked, front);
    front + marked
  }

  /** Membership in the rewritten list, from membership in its two parts. */
  lemma SiteNamesMembers(names: seq<string>, mark: string, bare: seq<string>, marked: seq<string>, front: seq<string>)
    requires forall x :: x in bare <==> x in names && !Contains(x, mark)
    requires forall x :: x in marked <==> x in names && Contains(x, mark)
    requires forall s :: s in front ==> Contains(s, mark)
    requires forall s :: s in front <==> exists n :: n in bare && s == mark + n
    ensures forall s :: s in front + marked ==> Contains(s, mark)
    ensures forall s :: s in names && Contains(s, mark) ==> s in front + marked
    ensures forall s :: s in names && !Contains(s, mark) ==> mark + s in front + marked
    ensures forall s :: s in front + marked ==> s in names || exists n :: n in names && s == mark + n
  {
    forall s | s in front + marked
      ensures Contains(s, mark) && (s in names || exists n :: n in names && s == mark + n)
    {
      if s in front {
        var n :| n in bare && s == mark + n;
      }
    }
    forall s | s in names && !Contains(s, mark)
      ensures mark + s in front + marked
    {
      assert s in bare;
    }
  }

  /** Every name with the marker put in front. */
  function Prefix(names: seq<string>, mark: string): (r: seq<string>)
    ensures |r| == |names|
    ensures forall s :: s in r ==> Contains(s, mark)
    ensures forall s :: s in r <==> exists n :: n in names && s == mark + n
  {
    var r := seq(|names|, i requires 0 <= i < |names| => mark + names[i]);
    forall i | 0 <= i < |names|
      ensures Contains(r[i], mark)
    {
      PrefixContains(names[i], mark);
    }
    forall n | n in names
      ensures mark + n in r
    {
      var i :| 0 <= i < |names| && names[i] == n;
      assert r[i] == mark + n;
    }
    r
  }

  /** Every element of a sequence either passes a test or fails it. */
  lemma {:induction false} FilterSplit<T(!new)>(s: seq<T>, p: T -> bool, q: T -> bool)
    requires forall x :: q(x) <==> !p(x)
    ensures |Filter(s, q)| + |Filter(s, p)| == |s|
    decreases |s|
  {
    if |s| > 0 {
      FilterSplit(s[1..], p, q);
    }
  }

  /** A prefixed name contains the prefix. */
  lemma PrefixContains(s: string, mark: string)
    ensures Contains(mark + s, mark)
  {
    assert IsAt(mark + s, mark, 0);
    ContainsIff(mark + s, mark);
  }

  /** A list of rewritten names is its own rewriting. */
  lemma SiteNamesFixed(names: seq<string>, mark: string)
    ensures SiteNames(SiteNames(names, mark), mark) == SiteNames(names, mark)
  {
    var r := SiteNames(names, mark);
    assert forall i :: 0 <= i < |r| ==> Contains(r[i], mark) by {
      assert forall i :: 0 <= i < |r| ==> r[i] in r;
    }
    FilterAll(r, n => Contains(n, mark));
    FilterNone(r, n => !Contains(n, mark));
    assert Prefix([], mark) == [];
  }

  /** `src_id.isin(sites)`: the cell is one of the listed strings. */
  predicate FromSite(c: Cell, sites: seq<string>) {
    c.Str? && c.s in sites
  }

  /** `drop_ehr_site`: the measurements whose `src_id` is not one of the rewritten site
      names, in their order; `KeyError` without a `src_id` column and `AttributeError`
      without a `value_as_number` column (the dropped values are counted for a message).
      `str(i)` of each listed site is its text under `floatText`. */
  function DropEhrSite(t: Table, sites: seq<Cell>, floatText: real -> string): (r: Result<Table>)
    requires Rectangular(t)
    ensures r.Ok? <==> SrcId in t.columns && ValueCol in t.columns
    ensures SrcId !in t.columns ==> r == Err(KeyError(SrcId))
    ensures SrcId in t.columns && ValueCol !in t.columns ==> r.Err? && r.error.AttributeError?
    ensures r.Ok? ==> r.value.columns == t.columns && Rectangular(r.value) && |r.value.rows| <= |t.rows|
    ensures r.Ok? ==> forall row :: row in r.value.rows <==>
      row in t.rows && !FromSite(Value(t.columns, row, SrcId), SiteNames(SiteTexts(sites, floatText), SitePrefix))
  {
    if SrcId !in t.columns then Err(KeyError(SrcId))
    else if ValueCol !in t.columns then Err(AttributeError("'DataFrame' object has no attribute 'value_as_number'"))
    else
      var names := SiteNames(SiteTexts(sites, floatText), SitePrefix);
      Ok(FilterRows(t, row => !FromSite(Value(t.columns, row, SrcId), names)))
  }

  /** `str(i)` of every listed site. */
  function SiteTexts(sites: seq<Cell>, floatText: real -> string): (r: seq<string>)
    ensures |r| == |sites| && forall i :: 0 <= i < |sites| ==> r[i] == Text(sites[i], floatText)
  {
    seq(|sites|, i requires 0 <= i < |sites| => Text(sites[i], floatText))
  }

  /** Dropping the same sites twice is dropping them once. */
  lemma DropEhrSiteIdempotent(t: Table, sites: seq<Cell>, floatText: real -> string)
    requires Rectangular(t) && DropEhrSite(t, sites, floatText).Ok?
    ensures var d := DropEhrSite(t, sites, floatText).value;
            DropEhrSite(d, sites, floatText) == Ok(d)
  {
    var names := SiteNames(SiteTexts(sites, floatText), SitePrefix);
    FilterIdempotent(t.rows, row => !FromSite(Value(t.columns, row, SrcId), names));
  }
}

=== FILE: lab_median.dfy ===
/** phenotypes/measurement_3004410_median.py: the measurements of one lab lose the rows
    in six unusable units, milligram-per-deciliter values are converted to percent,
    values above 50 are dropped, and each person's remaining values are reduced to
    their median.
 */
module LabMedian {
  import opened Wrappers
  import opened Seqs
  import opened Tables

  const PersonId := "person_id"
  const UnitName := "unit_concept_name"
  const ValueCol := "value_as_number"
  const MgPerDl := "milligram per deciliter"
  const ExcludedUnits: seq<string> :=
    ["No matching concept", "no value", "Percentage of total", "unit", "Seconds per CO", "gram per deciliter"]

  /** `isin(ExcludedUnits)`: exact string membership; a missing unit is not excluded. */
  predicate Excluded(c: Cell) {
    c.Str? && c.s in ExcludedUnits
  }

  /** Step 1: drop the rows whose unit is one of the six excluded names. */
  function DropExcludedUnits(t: Table): (r: Result<Table>)
    requires Rectangular(t)
    ensures r.Err? <==> UnitName !in t.columns
    ensures r.Err? ==> r.error == KeyError(UnitName)
    ensures r.Ok? ==> r.value.columns == t.columns && Rectangular(r.value) && |r.value.rows| <= |t.rows|
    ensures r.Ok? ==> forall row :: row in r.value.rows <==> row in t.rows && !Excluded(Value(t.columns, row, UnitName))
  {
    if UnitName !in t.columns then Err(KeyError(UnitName))
    else Ok(FilterRows(t, row => !Excluded(Value(t.columns, row, UnitName))))
  }

  /** `(v + 46.7) / 28.7` of one cell: missing stays missing. */
  function ToPercent(c: Cell): Cell
    requires !c.Str?
  {
    match AsNumber(c)
    case Some(x) => Real((x + 46.7) / 28.7)
    case None => Missing
  }

  /** Step 2: the conversion of milligram-per-deciliter rows. The right-hand side is
      computed for the whole column first, so a missing value column raises `KeyError`
      and a string value anywhere raises `TypeError`, whatever its unit. */
  function ConvertMgPerDl(t: Table): (r: Result<Table>)
    requires Rectangular(t)
    ensures r.Ok? <==> ValueCol in t.columns && forall k :: 0 <= k < |t.rows| ==> !At(t, k, ValueCol).Str?
    ensures ValueCol !in t.columns ==> r == Err(KeyError(ValueCol))
    ensures r.Ok? ==> r.value.columns == t.columns && Rectangular(r.value) && |r.value.rows| == |t.rows|
    ensures r.Ok? ==> forall k :: 0 <= k < |t.rows| ==>
      At(r.value, k, ValueCol) == if Eq(At(t, k, UnitName), Str(MgPerDl)) then ToPercent(At(t, k, ValueCol)) else At(t, k, ValueCol)
    ensures r.Ok? ==> forall k, c :: 0 <= k < |t.rows| && c != ValueCol ==> At(r.value, k, c) == At(t, k, c)
  {
    if ValueCol !in t.columns then Err(KeyError(ValueCol))
    else if exists k :: 0 <= k < |t.rows| && At(t, k, ValueCol).Str? then
      Err(TypeError("can only concatenate str (not \"float\") to str"))
    else
      Ok(SetColumn(t, ValueCol, row =>
        var v := Value(t.columns, row, ValueCol);
        if Eq(Value(t.columns, row, UnitName), Str(MgPerDl)) && !v.Str? then ToPercent(v) else v))
  }

  /** The value test `value_as_number <= 50`. */
  predicate AtMost50(cols: seq<string>, row: Row) {
    Compare(Value(cols, row, ValueCol), LessEq, Real(50.0)) == Ok(true)
  }

  /** Step 3: keep the rows whose value is at most 50 (a missing value is dropped). No
      string value is left after step 2, so the comparison cannot raise here. */
  function KeepAtMost50(t: Table): (r: Table)
    requires Rectangular(t)
    ensures r.columns == t.columns && Rectangular(r) && |r.rows| <= |t.rows|
    ensures forall row :: row in r.rows <==> row in t.rows && AtMost50(t.columns, row)
  {
    FilterRows(t, row => AtMost50(t.columns, row))
  }

  /** A value that passed the test is a number of at most 50. */
  lemma AtMost50Number(cols: seq<string>, row: Row)
    requires AtMost50(cols, row)
    ensures AsNumber(Value(cols, row, ValueCol)).Some? && AsNumber(Value(cols, row, ValueCol)).value <= 50.0
  {
  }

  // ---------------------------------------------------------------------------
  // median

  /** Ascending order of reals. */
  function Ascending(s: seq<real>): (r: seq<real>)
    ensures |r| == |s| && multiset(r) == multiset(s)
    ensures forall i, j :: 0 <= i < j < |r| ==> r[i] <= r[j]
  {
    var r := SortBy(s, x => Some(x));
    assert |r| == |multiset(r)| == |multiset(s)| == |s|;
    assert forall i, j :: 0 <= i < j < |r| ==> r[i] <= r[j] by {
      forall i, j | 0 <= i < j < |r|
        ensures r[i] <= r[j]
      {
        assert KeyLe(Some(r[i]), Some(r[j]));
      }
    }
    r
  }

  /** The middle of an ascending sequence: the middle element, or the mean of the two
      middle elements. */
  function Middle(r: seq<real>): real
    requires |r| > 0
  {
    var n := |r|;
    if n % 2 == 1 then r[n / 2] else (r[n / 2 - 1] + r[n / 2]) / 2.0
  }

  /** pandas `median`: the middle of the values in ascending order. */
  function Median(s: seq<real>): real
    requires |s| > 0
  {
    Middle(Ascending(s))
  }

  /** The test "at most `m`". */
  function Below(m: real): real -> bool {
    x => x <= m
  }

  /** The test "at least `m`". */
  function Above(m: real): real -> bool {
    x => x >= m
  }

  /** In ascending order, the first half reaches at most the middle and the second half
      at least the middle. */
  lemma MiddleSplits(r: seq<real>)
    requires |r| > 0 && forall i, j :: 0 <= i < j < |r| ==> r[i] <= r[j]
    ensures forall i :: 0 <= i < (|r| + 1) / 2 ==> Below(Middle(r))(r[i])
    ensures forall i :: |r| / 2 <= i < |r| ==> Above(Middle(r))(r[i])
  {
  }

  /** Elements satisfying `p` on a whole prefix are counted by the filter. */
  lemma {:induction false} PrefixCounted(s: seq<real>, p: real -> bool, k: nat)
    requires k <= |s| && forall i :: 0 <= i < k ==> p(s[i])
    ensures |Filter(s, p)| >= k
  {
    assert s == s[..k] + s[k..];
    FilterConcat(s[..k], s[k..], p);
    FilterAll(s[..k], p);
  }

  /** Elements satisfying `p` on a whole suffix are counted by the filter. */
  lemma {:induction false} SuffixCounted(s: seq<real>, p: real -> bool, k: nat)
    requires k <= |s| && forall i :: k <= i < |s| ==> p(s[i])
    ensures |Filter(s, p)| >= |s| - k
  {
    assert s == s[..k] + s[k..];
    FilterConcat(s[..k], s[k..], p);
    FilterAll(s[k..], p);
  }

  /** The median splits the values in halves: at least half are at most the median and
      at least half are at least the median. */
  lemma MedianHalves(s: seq<real>)
    requires |s| > 0
    ensures 2 * |Filter(s, Below(Median(s)))| >= |s|
    ensures 2 * |Filter(s, Above(Median(s)))| >= |s|
  {
    var r := Ascending(s);
    var m := Median(s);
    MiddleSplits(r);
    PrefixCounted(r, Below(m), (|r| + 1) / 2);
    FilterPermutation(r, s, Below(m));
    SuffixCounted(r, Above(m), |r| / 2);
    FilterPermutation(r, s, Above(m));
  }

  /** The median lies between the smallest and the largest value. */
  lemma MedianBetween(s: seq<real>)
    requires |s| > 0
    ensures exists i :: 0 <= i < |s| && s[i] <= Median(s)
    ensures exists j :: 0 <= j < |s| && Median(s) <= s[j]
  {
    var r := Ascending(s);
    MiddleBetween(r);
    assert r[0] in multiset(s) && r[|r| - 1] in multiset(s);
    var i :| 0 <= i < |s| && s[i] == r[0];
    var j :| 0 <= j < |s| && s[j] == r[|r| - 1];
  }

  /** The middle of an ascending sequence lies between its ends. */
  lemma MiddleBetween(r: seq<real>)
    requires |r| > 0 && forall i, j :: 0 <= i < j < |r| ==> r[i] <= r[j]
    ensures r[0] <= Middle(r) <= r[|r| - 1]
  {
  }

  // ---------------------------------------------------------------------------
  // groupby

  /** The numeric values of the rows of one person, in row order. */
  function GroupValues(t: Table, id: Cell): (vs: seq<real>)
    ensures |vs| <= |t.rows|
  {
    var rs := GroupRows(t, id);
    seq(|rs|, i requires 0 <= i < |rs| => AsNumber(Value(t.columns, rs[i], ValueCol)).GetOr(0.0))
  }

  /** The `person_id` column, row by row. */
  function PersonIds(t: Table): (ids: seq<Cell>)
    ensures |ids| == |t.rows| && forall k :: 0 <= k < |t.rows| ==> ids[k] == At(t, k, PersonId)
  {
    seq(|t.rows|, k requires 0 <= k < |t.rows| => At(t, k, PersonId))
  }

  /** The text of a string cell; the empty text for any other cell. */
  function CellText(c: Cell): string {
    if c.Str? then c.s else ""
  }

  /** The person ids of the table as `groupby` orders its keys: present ones only
      (missing keys are dropped), each once, the numeric ids ascending, then the string
      ids sorted by their text (pandas' order for a column that mixes the two). */
  function GroupKeys(t: Table): (ids: seq<Cell>)
    ensures forall id :: id in ids <==> !id.Missing? && id in PersonIds(t)
    ensures forall i, j :: 0 <= i < j < |ids| ==> ids[i] != ids[j]
    ensures SortedBy(ids, AsNumber)
    ensures forall i, j :: 0 <= i < j < |ids| && ids[i].Str? && ids[j].Str? ==> StrLess(ids[i].s, ids[j].s)
  {
    var ps := PersonIds(t);
    var numeric := Distinct(Filter(ps, (c: Cell) => AsNumber(c).Some?));
    var text := Distinct(Filter(ps, (c: Cell) => c.Str?));
    var nums := SortBy(numeric, AsNumber);
    var texts := SortByText(text, CellText);
    PermutationKeepsDistinct(numeric, nums);
    PermutationKeepsDistinct(text, texts);
    PartsCover(ps, nums, texts);
    NumbersThenTexts(nums, texts);
    nums + texts
  }

  /** The numeric ids and the string ids together are all the present ids. */
  lemma PartsCover(ps: seq<Cell>, nums: seq<Cell>, texts: seq<Cell>)
    requires forall c :: c in nums <==> c in ps && AsNumber(c).Some?
    requires forall c :: c in texts <==> c in ps && c.Str?
    ensures forall id :: id in nums + texts <==> !id.Missing? && id in ps
  {
  }

  /** Sorted numbers followed by distinct strings sorted by text: no repeats, sorted by
      numeric key, and the strings strictly ascending. */
  lemma NumbersThenTexts(nums: seq<Cell>, texts: seq<Cell>)
    requires forall c :: c in nums ==> AsNumber(c).Some?
    requires forall c :: c in texts ==> c.Str?
    requires forall i, j :: 0 <= i < j < |nums| ==> nums[i] != nums[j]
    requires forall i, j :: 0 <= i < j < |texts| ==> texts[i] != texts[j]
    requires SortedBy(nums, AsNumber) && SortedByText(texts, CellText)
    ensures var ids := nums + texts;
      (forall i, j :: 0 <= i < j < |ids| ==> ids[i] != ids[j]) &&
      SortedBy(ids, AsNumber) &&
      (forall i, j :: 0 <= i < j < |ids| && ids[i].Str? && ids[j].Str? ==> StrLess(ids[i].s, ids[j].s))
  {
    var ids := nums + texts;
    var n := |nums|;
    forall i, j | 0 <= i < j < |ids|
      ensures ids[i] != ids[j] && KeyLe(AsNumber(ids[i]), AsNumber(ids[j]))
      ensures ids[i].Str? && ids[j].Str? ==> StrLess(ids[i].s, ids[j].s)
    {
      if j < n {
        assert ids[i] == nums[i] && ids[j] == nums[j];
        assert nums[i] in nums;
      } else if i < n {
        assert ids[i] == nums[i] && nums[i] in nums;
        assert ids[j] == texts[j - n] && texts[j - n] in texts;
      } else {
        assert ids[i] == texts[i - n] && ids[j] == texts[j - n];
        assert texts[i - n] in texts && texts[j - n] in texts;
        assert StrLe(CellText(texts[i - n]), CellText(texts[j - n]));
      }
    }
  }

  /** A permutation has the same members, and no repeats when the original has none. */
  lemma PermutationKeepsDistinct<T>(a: seq<T>, b: seq<T>)
    requires forall x, y :: 0 <= x < y < |a| ==> a[x] != a[y]
    requires multiset(a) == multiset(b)
    ensures forall v :: v in b <==> v in a
    ensures forall i, j :: 0 <= i < j < |b| ==> b[i] != b[j]
  {
    forall v
      ensures v in b <==> v in a
    {
      assert v in b <==> v in multiset(b);
      assert v in a <==> v in multiset(a);
    }
    forall i, j | 0 <= i < j < |b|
      ensures b[i] != b[j]
    {
      DistinctMultiset(a, b, i, j);
    }
  }

  /** A sequence without repeats holds each value at most once. */
  lemma {:induction false} DistinctCount<T>(a: seq<T>, v: T)
    requires forall x, y :: 0 <= x < y < |a| ==> a[x] != a[y]
    ensures multiset(a)[v] <= 1
  {
    if |a| > 0 {
      assert a == [a[0]] + a[1..];
      DistinctCount(a[1..], v);
      assert a[0] == v ==> v !in a[1..];
    }
  }

  /** A permutation of a sequence without repeats has no repeats. */
  lemma DistinctMultiset<T>(a: seq<T>, b: seq<T>, i: nat, j: nat)
    requires forall x, y :: 0 <= x < y < |a| ==> a[x] != a[y]
    requires multiset(a) == multiset(b) && i < j < |b|
    ensures b[i] != b[j]
  {
    DistinctCount(a, b[i]);
    assert b == b[..j] + [b[j]] + b[j + 1..];
    assert b[i] in b[..j];
    assert multiset(b)[b[i]] >= multiset(b[..j])[b[i]] + multiset([b[j]])[b[i]];
  }

  /** Step 4: `groupby(person_id)[value].median()`: one row per person, holding the median
      of the person's values (missing when the person has no numeric value). */
  function MedianPerPerson(t: Table): (r: Result<Table>)
    requires Rectangular(t)
    ensures r.Err? <==> PersonId !in t.columns || ValueCol !in t.columns
    ensures r.Ok? ==> r.value.columns == [PersonId, ValueCol] && Rectangular(r.value)
    ensures r.Ok? ==> |r.value.rows| == |GroupKeys(t)|
    ensures r.Ok? ==> forall i :: 0 <= i < |r.value.rows| ==> r.value.rows[i][0] == GroupKeys(t)[i]
    ensures r.Ok? ==> forall i :: 0 <= i < |r.value.rows| ==>
      var vs := GroupValues(t, GroupKeys(t)[i]);
      r.value.rows[i][1] == if |vs| > 0 then Real(Median(vs)) else Missing
  {
    if PersonId !in t.columns then Err(KeyError(PersonId))
    else if ValueCol !in t.columns then Err(KeyError(ValueCol))
    else
      var ids := GroupKeys(t);
      Ok(Table([PersonId, ValueCol], seq(|ids|, i requires 0 <= i < |ids| =>
        var vs := GroupValues(t, ids[i]);
        [ids[i], if |vs| > 0 then Real(Median(vs)) else Missing])))
  }

  /** The whole script. */
  function LabMedianSummary(t: Table): (r: Result<Table>)
    requires Rectangular(t)
  {
    var kept :- DropExcludedUnits(t);
    var converted :- ConvertMgPerDl(kept);
    MedianPerPerson(KeepAtMost50(converted))
  }

  // ---------------------------------------------------------------------------
  // properties of the summary

  /** The rows behind the values of one person. */
  function GroupRows(t: Table, id: Cell): (rs: seq<Row>)
    ensures forall row :: row in rs <==>
      row in t.rows && Value(t.columns, row, PersonId) == id && AsNumber(Value(t.columns, row, ValueCol)).Some?
  {
    Filter(t.rows, row => Value(t.columns, row, PersonId) == id && AsNumber(Value(t.columns, row, ValueCol)).Some?)
  }

  /** Every value of a person is the number in one of the person's rows. */
  lemma GroupValuesFrom(t: Table, id: Cell, j: nat)
    requires j < |GroupValues(t, id)|
    ensures var rs := GroupRows(t, id);
            j < |rs| && rs[j] in t.rows && Value(t.columns, rs[j], PersonId) == id &&
            Some(GroupValues(t, id)[j]) == AsNumber(Value(t.columns, rs[j], ValueCol))
  {
    var rs := GroupRows(t, id);
    assert rs[j] in rs;
  }

  /** A person with a row holding a number has at least one value. */
  lemma GroupValuesNonEmpty(t: Table, k: nat)
    requires k < |t.rows| && AsNumber(At(t, k, ValueCol)).Some?
    ensures |GroupValues(t, At(t, k, PersonId))| > 0
  {
    assert t.rows[k] in GroupRows(t, At(t, k, PersonId));
  }

  /** A person of a table whose rows all passed the `<= 50` test has a median of at
      most 50. */
  lemma PersonMedianAtMost50(t: Table, id: Cell)
    requires id in PersonIds(t)
    requires forall row :: row in t.rows ==> AtMost50(t.columns, row)
    ensures |GroupValues(t, id)| > 0 && Median(GroupValues(t, id)) <= 50.0
  {
    var k :| 0 <= k < |t.rows| && PersonIds(t)[k] == id;
    assert t.rows[k] in t.rows;
    GroupValuesNonEmpty(t, k);
    var vs := GroupValues(t, id);
    MedianBetween(vs);
    var j :| 0 <= j < |vs| && Median(vs) <= vs[j];
    GroupValuesFrom(t, id, j);
    var row := GroupRows(t, id)[j];
    AtMost50Number(t.columns, row);
  }

  /** When every row passed the `<= 50` test, every person has a value and every median
      is a number of at most 50. */
  lemma MediansAtMost50(t: Table)
    requires Rectangular(t) && MedianPerPerson(t).Ok?
    requires forall row :: row in t.rows ==> AtMost50(t.columns, row)
    ensures forall i :: 0 <= i < |MedianPerPerson(t).value.rows| ==>
      MedianPerPerson(t).value.rows[i][1].Real? && MedianPerPerson(t).value.rows[i][1].r <= 50.0
  {
    var r := MedianPerPerson(t).value;
    var ids := GroupKeys(t);
    forall i | 0 <= i < |r.rows|
      ensures r.rows[i][1].Real? && r.rows[i][1].r <= 50.0
    {
      assert ids[i] in ids;
      PersonMedianAtMost50(t, ids[i]);
    }
  }

  /** The summary holds, for every person, a median that is a number of at most 50. */
  lemma SummaryAtMost50(t: Table)
    requires Rectangular(t) && LabMedianSummary(t).Ok?
    ensures var r := LabMedianSummary(t).value;
            r.columns == [PersonId, ValueCol] &&
            forall i :: 0 <= i < |r.rows| ==> r.rows[i][1].Real? && r.rows[i][1].r <= 50.0
  {
    var kept := DropExcludedUnits(t).value;
    var converted := ConvertMgPerDl(kept).value;
    MediansAtMost50(KeepAtMost50(converted));
  }
}

=== FILE: notebooks.dfy ===
/** phenotypes/utilities.py, the naming helpers behind the per-phenotype summary notebooks:
    the data dictionary of each datatype, notebook and index file names, the kernel
    choice, the introduction line and EHR-site cells of a lab notebook, and the default
    list of phenotypes to run.
 */
module Notebooks {
  import opened Wrappers
  import opened Strings
  import opened Seqs

  // ---------------------------------------------------------------------------
  // get_phe_dd

  /** One datatype's entry: the raw index file (empty when the index is built by a query),
      the data table file, and the column holding the phenotype ids. */
  datatype PheEntry = PheEntry(indexInput: string, dataFile: string, idColumn: string)

  const DataTypes: seq<string> := ["lab", "phecode", "phecodex", "physical_measurement", "drug", "pfhh"]

  /** The datatypes whose index is read from a file rather than built by a query. */
  const IndexedTypes: seq<string> := ["lab", "phecode", "phecodex"]

  /** `get_phe_dd`: the entry of one of the six datatypes; any other key raises `KeyError`. */
  function PheDd(dtype: string): (r: Result<PheEntry>)
    ensures r.Ok? <==> dtype in DataTypes
    ensures r.Err? ==> r.error == KeyError(dtype)
    ensures r.Ok? ==> (r.value.indexInput != "" <==> dtype in IndexedTypes)
    ensures r.Ok? ==> r.value.dataFile != "" && r.value.idColumn != ""
  {
    if dtype == "lab" then Ok(PheEntry("lab_measurements_index_raw.csv", "lab_measurements_index.csv", "measurement_concept_id"))
    else if dtype == "phecode" then Ok(PheEntry("phecode_info.csv", "mcc2_phecode_table.csv", "phecode"))
    else if dtype == "phecodex" then Ok(PheEntry("phecodex_info.csv", "mcc2_phecodex_table.csv", "phecodex"))
    else if dtype == "physical_measurement" then Ok(PheEntry("", "physical_measurement_table.csv", "measurement_source_value"))
    else if dtype == "drug" then Ok(PheEntry("", "r_drug_table.csv", "concept_code"))
    else if dtype == "pfhh" then Ok(PheEntry("", "pfhh_survey_table.csv", "concept_id"))
    else Err(KeyError(dtype))
  }

  /** The index file written next to a data table: "table" replaced by "index". */
  function IndexFilename(dataFile: string): (r: string)
  {
    ReplaceAll(dataFile, "table", "index")
  }

  /** A data file naming one table gets the index file of the same stem and extension, and
      a name without "table" is its own index file name. */
  lemma IndexFilenameOfTable(stem: string, rest: string)
    requires Delimited(stem, "table") && Delimited(rest, "table")
    ensures IndexFilename(stem + "table" + rest) == stem + "index" + rest
    ensures !Contains(stem, "table") && IndexFilename(stem) == stem
  {
    ReplaceJoin([stem, rest], "table", "index");
    assert Join([stem, rest], "table") == stem + "table" + rest;
    assert Join([stem, rest], "index") == stem + "index" + rest;
    DelimitedNotContains(stem, "table");
  }

  // ---------------------------------------------------------------------------
  // get_notebook_name, get_kernel

  const PhysicalMeasurement := "physical_measurement"

  /** `get_notebook_name` for a phenotype id (already a string). */
  function NotebookName(dtype: string, id: string): (r: string)
    ensures EndsWith(r, ".ipynb")
  {
    if dtype == PhysicalMeasurement then ReplaceAll(Lower(id), "-", "_") + "_summary.ipynb"
    else if dtype == "lab" then "measurement_" + ReplaceAll(id, ", ", "_") + ".ipynb"
    else dtype + "_" + id + "_summary.ipynb"
  }

  /** A physical-measurement notebook is named after the lowercased id with every '-'
      turned into '_', so its stem has no '-'; an id that is already lowercase and has no
      '-' names the notebook unchanged. */
  lemma PhysicalNotebookName(id: string)
    ensures var stem := ReplaceAll(Lower(id), "-", "_");
            NotebookName(PhysicalMeasurement, id) == stem + "_summary.ipynb" && '-' !in stem
    ensures '-' !in id && Lower(id) == id ==> NotebookName(PhysicalMeasurement, id) == id + "_summary.ipynb"
  {
    var parts := Split(Lower(id), "-");
    SplitPiecesFree(Lower(id), "-");
    forall i | 0 <= i < |parts|
      ensures '-' !in parts[i]
    {
      ContainsChar(parts[i], '-');
    }
    JoinAvoids(parts, "_", '-');
    if '-' !in id && Lower(id) == id {
      ContainsChar(id, '-');
      ReplaceAbsent(id, "-", "_");
    }
  }

  /** A lab notebook for several concept ids, listed with ", ", is named after the ids
      joined with "_". */
  lemma LabNotebookName(ids: seq<string>)
    requires |ids| >= 1 && forall i :: 0 <= i < |ids| ==> Delimited(ids[i], ", ")
    ensures NotebookName("lab", Join(ids, ", ")) == "measurement_" + Join(ids, "_") + ".ipynb"
  {
    ReplaceJoin(ids, ", ", "_");
  }

  /** For any other datatype the name is "<datatype>_<id>_summary.ipynb", so different ids
      never share a notebook. */
  lemma OtherNotebookNamesDistinct(dtype: string, a: string, b: string)
    requires dtype != PhysicalMeasurement && dtype != "lab"
    requires NotebookName(dtype, a) == NotebookName(dtype, b)
    ensures a == b
  {
    var p := dtype + "_";
    var x := NotebookName(dtype, a);
    assert x == p + a + "_summary.ipynb";
    assert x[|p|..|x| - |"_summary.ipynb"|] == a;
    assert NotebookName(dtype, b)[|p|..|x| - |"_summary.ipynb"|] == b;
  }

  /** `get_kernel`: the R kernel "ir" for "r" in any case, "python3" for anything else. */
  function Kernel(kernel: string): (r: string)
    ensures r == "ir" || r == "python3"
    ensures r == "ir" <==> kernel == "r" || kernel == "R"
  {
    LowerIsR(kernel);
    if Lower(kernel) == "r" then "ir" else "python3"
  }

  /** Exactly "r" and "R" lower-case to "r". */
  lemma LowerIsR(s: string)
    ensures Lower(s) == "r" <==> s == "r" || s == "R"
  {
    if Lower(s) == "r" {
      assert |s| == 1;
      assert Lower(s)[0] == LowerChar(s[0]) == 'r';
      assert s == [s[0]];
    }
  }

  // ---------------------------------------------------------------------------
  // the introduction line of a lab notebook

  const IdSeparator := ", "

  /** `concept_str_intro` as written, for the separator `sep` and the conjunction `conj`:
      every occurrence of `sep` followed by the last id becomes `conj` followed by it,
      including one at the start of an earlier id that begins with the last one. */
  function IntroAsWrittenWith(id: string, sep: string, conj: string): (r: string)
    requires |sep| > 0
  {
    var parts := Split(id, sep);
    var last := parts[|parts| - 1];
    ReplaceAll(id, sep + last, conj + last)
  }

  /** The evidently intended introduction: the ids listed with `sep`, except that the last
      one follows `conj`; a single id is left alone. */
  function IntroWith(id: string, sep: string, conj: string): (r: string)
    requires |sep| > 0
    ensures |Split(id, sep)| == 1 ==> r == id
  {
    var parts := Split(id, sep);
    if |parts| == 1 then id
    else Join(parts[..|parts| - 1], sep) + conj + parts[|parts| - 1]
  }

  function IntroAsWritten(id: string): string {
    IntroAsWrittenWith(id, IdSeparator, " and ")
  }

  function Intro(id: string): string {
    IntroWith(id, IdSeparator, " and ")
  }

  /** For a list of ids, the intended introduction keeps every id in order and puts the
      conjunction before the last one only. */
  lemma IntroOfIdsWith(ids: seq<string>, sep: string, conj: string)
    requires |sep| > 0 && |ids| >= 1 && forall i :: 0 <= i < |ids| ==> Delimited(ids[i], sep)
    ensures |ids| == 1 ==> IntroWith(Join(ids, sep), sep, conj) == ids[0]
    ensures |ids| >= 2 ==> IntroWith(Join(ids, sep), sep, conj) == Join(ids[..|ids| - 1], sep) + conj + ids[|ids| - 1]
  {
    var s := Join(ids, sep);
    SplitJoin(ids, sep);
    IntroWithParts(s, sep, conj, ids);
    if |ids| == 1 {
      assert s == ids[0];
    }
  }

  /** The introduction of a string is determined by its pieces. */
  lemma IntroWithParts(id: string, sep: string, conj: string, parts: seq<string>)
    requires |sep| > 0 && Split(id, sep) == parts
    ensures IntroWith(id, sep, conj) == if |parts| == 1 then id else Join(parts[..|parts| - 1], sep) + conj + parts[|parts| - 1]
  {
  }

  /** The lab introduction: ids listed with ", " and " and " before the last one. */
  lemma IntroOfIds(ids: seq<string>)
    requires |ids| >= 1 && forall i :: 0 <= i < |ids| ==> Delimited(ids[i], IdSeparator)
    ensures |ids| == 1 ==> Intro(Join(ids, IdSeparator)) == ids[0]
    ensures |ids| >= 2 ==> Intro(Join(ids, IdSeparator)) == Join(ids[..|ids| - 1], IdSeparator) + " and " + ids[|ids| - 1]
  {
    IntroOfIdsWith(ids, IdSeparator, " and ");
  }

  /** The ids "1", "23" and "2": the code as written also rewrites the ", 2" that starts
      ", 23", so the first comma is lost. */
  lemma IntroAsWrittenCounterexample()
    ensures IntroAsWritten("1, 23, 2") == "1 and 23 and 2"
  {
    ExampleSplit();
    IntroAsWrittenParts("1, 23, 2", IdSeparator, " and ", ["1", "23", "2"]);
    assert IdSeparator + "2" == ", 2";
    assert " and " + "2" == " and 2";
    ExampleReplace();
  }

  /** The as-written introduction of a string is determined by its pieces. */
  lemma IntroAsWrittenParts(id: string, sep: string, conj: string, parts: seq<string>)
    requires |sep| > 0 && Split(id, sep) == parts
    ensures IntroAsWrittenWith(id, sep, conj) == ReplaceAll(id, sep + parts[|parts| - 1], conj + parts[|parts| - 1])
  {
  }

  /** The intended introduction of the same ids keeps the first comma. */
  lemma IntroExample()
    ensures Intro("1, 23, 2") == "1, 23 and 2"
  {
    ExampleSplit();
    IntroWithParts("1, 23, 2", IdSeparator, " and ", ["1", "23", "2"]);
    assert ["1", "23", "2"][..2] == ["1", "23"];
    assert Join(["1", "23"], IdSeparator) == "1, 23";
  }

  lemma ExampleSplit()
    ensures Split("1, 23, 2", IdSeparator) == ["1", "23", "2"]
  {
    var ids := ["1", "23", "2"];
    IdsDelimited(ids, IdSeparator);
    Join3("1", "23", "2", IdSeparator);
    assert Join(ids, IdSeparator) == "1, 23, 2";
    SplitJoin(ids, IdSeparator);
  }

  lemma ExampleReplace()
    ensures ReplaceAll("1, 23, 2", ", 2", " and 2") == "1 and 23 and 2"
  {
    var pieces := ["1", "3", ""];
    IdsDelimited(pieces, ", 2");
    Join3("1", "3", "", ", 2");
    assert Join(pieces, ", 2") == "1, 23, 2";
    ReplaceJoin(pieces, ", 2", " and 2");
    Join3("1", "3", "", " and 2");
    assert Join(pieces, " and 2") == "1 and 23 and 2";
  }

  lemma Join3(a: string, b: string, c: string, sep: string)
    ensures Join([a, b, c], sep) == a + sep + b + sep + c
  {
    assert [a, b, c][1..] == [b, c];
    assert [b, c][1..] == [c];
    assert Join([b, c], sep) == b + sep + c;
  }

  /** Pieces without the separator's first character are delimited by it. */
  lemma IdsDelimited(ids: seq<string>, sep: string)
    requires |sep| > 0 && forall i :: 0 <= i < |ids| ==> sep[0] !in ids[i]
    ensures forall i :: 0 <= i < |ids| ==> Delimited(ids[i], sep)
  {
    forall i | 0 <= i < |ids|
      ensures Delimited(ids[i], sep)
    {
      DelimitedWithoutFirst(ids[i], sep);
    }
  }

  // ---------------------------------------------------------------------------
  // EHR sites dropped per lab

  /** The labs whose data from some EHR sites is dropped, with the sites as the list text
      that goes into the generated code. */
  const SitesDrop: seq<(string, string)> := [
    ("3019897", "[537]"), ("3024929", "[310, 537, 609]"), ("3008342", "[537]"),
    ("3013869", "[250, 537]"), ("3014576", "[537]"), ("3013682", "[243, 250, 609]"),
    ("3045716", "[609]"), ("3013721", "[250]"), ("3006923", "[250]"),
    ("3035995", "[278, 609]"), ("3007359", "[321]"), ("3027114", "[243]"),
    ("3009201", "[144]"), ("3015632", "[250, 537, 609]"), ("3018311", "[250, 433, 537, 734]"),
    ("3026910", "[250, 930]"), ("3016436", "[412, 962]"), ("3001420", "[148, 250, 679]"),
    ("3045440, 3023939", "[734, 925]"), ("3043359, 3027450", "[433, 734, 925, 962]"),
    ("3045792, 3016921", "[734, 925]"), ("3001008", "[321, 497]"),
    ("3035124", "[194, 195, 321, 433, 497]"), ("3035583", "[194, 195, 250, 433, 397]"),
    ("3022621", "[250, 537]")
  ]

  const SitesPlaceholder := "[537]"
  const DroppedFrame := "df_trimmed_dropped"
  const FinalFrame := "df_final"
  const NotApplicable := "\n\n**Not applicable for this lab**. No EHR sites have been dropped."

  /** The three quality-control texts of a lab notebook: the markdown note, the code that
      drops sites and the code that summarises per participant. */
  datatype QcCells = QcCells(note: string, dropCode: string, summaryCode: string)

  /** The site-drop selection of `get_labs_notebook_code` applied to the template texts. */
  function LabQc(conceptId: string, note: string, dropCode: string, summaryCode: string): (r: QcCells)
    ensures conceptId !in ToMap(SitesDrop) ==> r.dropCode == "" && r.note == note + NotApplicable
    ensures conceptId in ToMap(SitesDrop) ==> r.note == note && r.summaryCode == summaryCode
  {
    var sites := ToMap(SitesDrop);
    if conceptId !in sites then QcCells(note + NotApplicable, "", ReplaceAll(summaryCode, DroppedFrame, FinalFrame))
    else QcCells(note, ReplaceAll(dropCode, SitesPlaceholder, sites[conceptId]), summaryCode)
  }

  /** A lab without dropped sites gets no drop code, and its summary reads the final frame
      where the template read the dropped one. */
  lemma LabQcNotApplicable(conceptId: string, note: string, dropCode: string, before: string, after: string)
    requires conceptId !in ToMap(SitesDrop)
    requires Delimited(before, DroppedFrame) && Delimited(after, DroppedFrame)
    ensures LabQc(conceptId, note, dropCode, before + DroppedFrame + after).summaryCode == before + FinalFrame + after
  {
    ReplaceJoin([before, after], DroppedFrame, FinalFrame);
    assert Join([before, after], DroppedFrame) == before + DroppedFrame + after;
    assert Join([before, after], FinalFrame) == before + FinalFrame + after;
  }

  /** A lab with dropped sites gets the drop code with its own site list in place of the
      placeholder. */
  lemma LabQcApplicable(conceptId: string, note: string, before: string, after: string, summaryCode: string)
    requires conceptId in ToMap(SitesDrop)
    requires Delimited(before, SitesPlaceholder) && Delimited(after, SitesPlaceholder)
    ensures LabQc(conceptId, note, before + SitesPlaceholder + after, summaryCode).dropCode ==
            before + ToMap(SitesDrop)[conceptId] + after
  {
    var sites := ToMap(SitesDrop)[conceptId];
    ReplaceJoin([before, after], SitesPlaceholder, sites);
    assert Join([before, after], SitesPlaceholder) == before + SitesPlaceholder + after;
    assert Join([before, after], sites) == before + sites + after;
  }

  // ---------------------------------------------------------------------------
  // the default phenotypes of a run

  /** The default concept ids of `generate_and_run_all_nb`: the data table's header without
      `person_id` (a `KeyError` when it has none) and without `sex`, in header order. */
  function DefaultConceptIds(header: seq<string>): (r: Result<seq<string>>)
    ensures r.Ok? <==> "person_id" in header
    ensures r.Err? ==> r.error == KeyError("person_id")
    ensures r.Ok? ==> forall c :: c in r.value <==> c in header && c != "person_id" && c != "sex"
    ensures r.Ok? ==> |r.value| <= |header|
  {
    if "person_id" !in header then Err(KeyError("person_id"))
    else Ok(Filter(header, c => c != "person_id" && c != "sex"))
  }

  /** The default ids keep the header's order: the ids of a header split in two are the
      ids of the first part followed by those of the second. */
  lemma DefaultConceptIdsOrder(front: seq<string>, back: seq<string>)
    requires "person_id" in front + back
    ensures DefaultConceptIds(front + back).value ==
            Filter(front, c => c != "person_id" && c != "sex") + Filter(back, c => c != "person_id" && c != "sex")
  {
    FilterConcat(front, back, c => c != "person_id" && c != "sex");
  }
}

=== FILE: pc_merge.dfy ===
/** The covariate/principal-component merge of scripts/combine_pheno_and_covars.py:
    the PCS table's key column is named `person_id`, its bracketed `scores` vector is
    expanded into `PC1..PCk`, both keys are whitespace-stripped, the covariates are
    optionally restricted to one sex, and the two tables are inner-joined with every
    missing cell filled with the empty string.
 */
module PcMerge {
  import opened Wrappers
  import opened Strings
  import opened Seqs
  import opened Tables

  const PersonId := "person_id"
  const Scores := "scores"
  const Sex := "sex"
  const Brackets: set<char> := {'[', ']'}

  // ---------------------------------------------------------------------------
  // naming the key column

  /** Renames the first PCS column to `person_id` unless it already has that name;
      `IndexError` for a table without columns. */
  function NameKeyColumn(pcs: Table): (r: Result<Table>)
    ensures r.Err? <==> |pcs.columns| == 0
    ensures r.Err? ==> r.error.IndexError?
    ensures r.Ok? ==> r.value.rows == pcs.rows && |r.value.columns| == |pcs.columns|
    ensures r.Ok? ==> r.value.columns[0] == PersonId
    ensures r.Ok? && DistinctNames(pcs.columns) ==> r.value.columns[1..] == pcs.columns[1..]
    ensures r.Ok? && pcs.columns[0] == PersonId ==> r.value == pcs
  {
    if |pcs.columns| == 0 then Err(IndexError("index 0 is out of bounds"))
    else if pcs.columns[0] != PersonId then Ok(RenameColumn(pcs, pcs.columns[0], PersonId))
    else Ok(pcs)
  }

  // ---------------------------------------------------------------------------
  // expanding the scores vector

  /** `.str.strip("[]").str.split(",")` of one cell; a non-string (NaN) has no pieces. */
  function ScoreParts(c: Cell): Option<seq<string>> {
    if c.Str? then Some(Split(StripChars(c.s, Brackets), ",")) else None
  }

  /** The columns a cell asks `expand=True` for: its piece count, or one for NaN. */
  function PartCount(c: Cell): (n: nat)
    ensures n >= 1
  {
    match ScoreParts(c)
    case Some(ps) => |ps|
    case None => 1
  }

  /** The number of PC columns: the largest piece count over the rows, zero without rows. */
  function Width(cells: seq<Cell>): (k: nat)
    ensures forall i :: 0 <= i < |cells| ==> PartCount(cells[i]) <= k
    ensures k == 0 <==> |cells| == 0
    ensures |cells| > 0 ==> exists i :: 0 <= i < |cells| && PartCount(cells[i]) == k
  {
    MaxOf(cells, PartCount)
  }

  /** `PC1`, `PC2`, ...: the name of the PC column at 0-based position `i`. */
  function PcName(i: nat): string {
    "PC" + Decimal(i + 1)
  }

  function PcNames(k: nat): (names: seq<string>)
    ensures |names| == k && forall i :: 0 <= i < k ==> names[i] == PcName(i)
  {
    seq(k, i requires 0 <= i < k => PcName(i))
  }

  /** One expanded row: the pieces as strings, padded with missing cells to `k`. */
  function ExpandCell(c: Cell, k: nat): (r: Row)
    ensures |r| == k
  {
    var parts := ScoreParts(c);
    seq(k, j requires 0 <= j < k => if parts.Some? && j < |parts.value| then Str(parts.value[j]) else Missing)
  }

  /** The cells of the `scores` column. */
  function ScoreCells(t: Table): (cells: seq<Cell>)
    ensures |cells| == |t.rows|
    ensures forall k :: 0 <= k < |t.rows| ==> cells[k] == At(t, k, Scores)
  {
    seq(|t.rows|, k requires 0 <= k < |t.rows| => At(t, k, Scores))
  }

  /** Replaces the PCS table by `person_id` followed by `PC1..PCk`, where `k` is the largest
      number of pieces in a `scores` cell; every other PCS column is dropped. */
  function ExpandScores(pcs: Table): (r: Table)
    ensures r.columns == [PersonId] + PcNames(Width(ScoreCells(pcs)))
    ensures Rectangular(r) && |r.rows| == |pcs.rows|
    ensures forall k :: 0 <= k < |pcs.rows| ==> r.rows[k][0] == At(pcs, k, PersonId)
    ensures forall k, j :: 0 <= k < |pcs.rows| && 0 <= j < Width(ScoreCells(pcs)) ==>
      r.rows[k][j + 1] == ExpandCell(At(pcs, k, Scores), Width(ScoreCells(pcs)))[j]
  {
    var w := Width(ScoreCells(pcs));
    Table([PersonId] + PcNames(w),
          seq(|pcs.rows|, k requires 0 <= k < |pcs.rows| => [At(pcs, k, PersonId)] + ExpandCell(At(pcs, k, Scores), w)))
  }

  /** Every cell gets all of its pieces: a string cell's first `PartCount` PC cells are its
      pieces and they re-join to the cell without its surrounding brackets; the remaining
      PC cells, and all of a NaN cell's, are missing. */
  lemma ExpandCellPieces(c: Cell, k: nat)
    requires PartCount(c) <= k
    ensures var r := ExpandCell(c, k);
            (c.Str? ==> (forall j :: 0 <= j < PartCount(c) ==> r[j].Str?) &&
                        Join(seq(PartCount(c), j requires 0 <= j < PartCount(c) => r[j].s), ",") == StripChars(c.s, Brackets)) &&
            (forall j :: (if c.Str? then PartCount(c) else 0) <= j < k ==> r[j] == Missing)
  {
    if c.Str? {
      var parts := ScoreParts(c).value;
      var r := ExpandCell(c, k);
      assert seq(PartCount(c), j requires 0 <= j < PartCount(c) => r[j].s) == parts;
      JoinSplit(StripChars(c.s, Brackets), ",");
    }
  }

  /** The first character of a comma-join is the first piece's, or a comma. */
  lemma JoinFirstChar(vs: seq<string>)
    requires |vs| >= 1 && |Join(vs, ",")| > 0
    ensures Join(vs, ",")[0] == (if |vs[0]| > 0 then vs[0][0] else ',')
  {
    JoinStart(vs, ",");
  }

  /** The last character of a comma-join is the last piece's, or a comma. */
  lemma JoinLastChar(vs: seq<string>)
    requires |vs| >= 1 && |Join(vs, ",")| > 0
    ensures var j := Join(vs, ","); var last := vs[|vs| - 1];
            j[|j| - 1] == (if |last| > 0 then last[|last| - 1] else ',')
  {
    JoinEnd(vs, ",");
    var j := Join(vs, ",");
    var last := vs[|vs| - 1];
    if |last| > 0 {
      assert j[|j| - 1] == j[|j| - |last|..][|last| - 1];
    } else {
      assert |vs| > 1;
      assert j[|j| - 1] == j[|j| - |"," + last|..][0];
    }
  }

  /** A comma-join of comma-free pieces whose outer ends are not brackets is unchanged by
      stripping the brackets off a `[...]` around it, and splits back into its pieces. */
  lemma CommaJoinUnwraps(vs: seq<string>)
    requires |vs| >= 1
    requires forall i :: 0 <= i < |vs| ==> ',' !in vs[i]
    requires |vs[0]| > 0 ==> vs[0][0] !in Brackets
    requires |vs[|vs| - 1]| > 0 ==> vs[|vs| - 1][|vs[|vs| - 1]| - 1] !in Brackets
    ensures ScoreParts(Str("[" + Join(vs, ",") + "]")) == Some(vs)
  {
    var x := Join(vs, ",");
    if |x| > 0 {
      JoinFirstChar(vs);
      JoinLastChar(vs);
    }
    StripWrapped(x, '[', ']', Brackets);
    assert "[" + x + "]" == ['['] + x + [']'];
    forall i | 0 <= i < |vs|
      ensures Delimited(vs[i], ",")
    {
      DelimitedByChar(vs[i], ',');
    }
    SplitJoin(vs, ",");
  }

  /** Round trip: the vector `[v1,...,vk]`, whose pieces hold no comma, whose first piece
      does not start with a bracket and whose last piece does not end with one, expands to
      exactly `v1..vk` followed by missing cells. */
  lemma ScoresRoundTrip(vs: seq<string>, k: nat)
    requires 1 <= |vs| <= k
    requires forall i :: 0 <= i < |vs| ==> ',' !in vs[i]
    requires |vs[0]| > 0 ==> vs[0][0] !in Brackets
    requires |vs[|vs| - 1]| > 0 ==> vs[|vs| - 1][|vs[|vs| - 1]| - 1] !in Brackets
    ensures var r := ExpandCell(Str("[" + Join(vs, ",") + "]"), k);
            (forall j :: 0 <= j < |vs| ==> r[j] == Str(vs[j])) &&
            (forall j :: |vs| <= j < k ==> r[j] == Missing)
  {
    CommaJoinUnwraps(vs);
  }

  // ---------------------------------------------------------------------------
  // the sex filter

  /** The `sex` string a sex-specific run keeps: "0.0" for "Male", "1.0" for "Female". */
  function SexCode(run: Option<string>): Option<string> {
    if run == Some("Male") then Some("0.0")
    else if run == Some("Female") then Some("1.0")
    else None
  }

  /** Keeps the covariate rows whose `sex` equals the run's code; any other or absent
      argument keeps every row. `KeyError` when filtering a table without `sex`. */
  function FilterSex(cov: Table, run: Option<string>): (r: Result<Table>)
    requires Rectangular(cov)
    ensures SexCode(run).None? ==> r == Ok(cov)
    ensures SexCode(run).Some? ==> (r.Err? <==> Sex !in cov.columns)
    ensures r.Ok? ==> r.value.columns == cov.columns && Rectangular(r.value)
    ensures r.Ok? && SexCode(run).Some? ==>
      forall row :: row in r.value.rows <==> row in cov.rows && Value(cov.columns, row, Sex) == Str(SexCode(run).value)
  {
    match SexCode(run)
    case None => Ok(cov)
    case Some(code) =>
      if Sex !in cov.columns then Err(KeyError(Sex))
      else
        assert forall row :: Eq(Value(cov.columns, row, Sex), Str(code)) <==> Value(cov.columns, row, Sex) == Str(code) by {
          forall row { EqStr(Value(cov.columns, row, Sex), code); }
        }
        Ok(FilterRows(cov, row => Eq(Value(cov.columns, row, Sex), Str(code))))
  }

  /** A male run keeps "0.0" but not "0": the match is on the exact string. */
  lemma MaleRunExact(cov: Table, row: Row)
    requires Rectangular(cov) && FilterSex(cov, Some("Male")).Ok?
    requires row in cov.rows
    ensures row in FilterSex(cov, Some("Male")).value.rows <==> Value(cov.columns, row, Sex) == Str("0.0")
  {
  }

  // ---------------------------------------------------------------------------
  // the script

  /** The PCS table ready to merge: key column named, scores expanded, key stripped.
      `AttributeError` when the renaming leaves two `person_id` columns, since
      `pcs["person_id"]` is then a table without `.str`. */
  function PreparePcs(pcs: Table): (r: Result<Table>)
    requires Rectangular(pcs)
    ensures r.Err? <==> |pcs.columns| == 0 || !DistinctNames(NameKeyColumn(pcs).value.columns)
    ensures r.Ok? ==> Rectangular(r.value) && |r.value.rows| == |pcs.rows|
    ensures r.Ok? ==> |r.value.columns| > 0 && r.value.columns[0] == PersonId
  {
    var named :- NameKeyColumn(pcs);
    if !DistinctNames(named.columns) then Err(AttributeError("'DataFrame' object has no attribute 'str'"))
    else
      var expanded := if Scores in named.columns then ExpandScores(named) else named;
      Ok(StripColumn(expanded, PersonId))
  }

  /** The covariates ready to merge: key stripped, then the optional sex filter. Only a
      sex-specific run on a table without `sex` fails; a run without one keeps every
      stripped row in order, and a sex-specific run keeps exactly the stripped rows of
      its sex. */
  function PrepareCovariates(cov: Table, run: Option<string>): (r: Result<Table>)
    requires Rectangular(cov)
    ensures r.Err? <==> SexCode(run).Some? && Sex !in cov.columns
    ensures r.Err? ==> r.error == KeyError(Sex)
    ensures r.Ok? ==> Rectangular(r.value) && r.value.columns == cov.columns && |r.value.rows| <= |cov.rows|
    ensures SexCode(run).None? ==> r == Ok(StripColumn(cov, PersonId))
    ensures r.Ok? && SexCode(run).Some? ==> forall row :: row in r.value.rows <==>
      row in StripColumn(cov, PersonId).rows && Value(cov.columns, row, Sex) == Str(SexCode(run).value)
  {
    FilterSex(StripColumn(cov, PersonId), run)
  }

  /** Row `k` of a sex-specific run survives, key stripped, exactly when its own `sex`
      is the run's code: stripping the key never touches `sex`. */
  lemma PrepareCovariatesRow(cov: Table, run: Option<string>, k: nat)
    requires Rectangular(cov) && k < |cov.rows|
    requires SexCode(run).Some? && Sex in cov.columns
    ensures PrepareCovariates(cov, run).Ok?
    ensures StripColumn(cov, PersonId).rows[k] in PrepareCovariates(cov, run).value.rows <==>
      At(cov, k, Sex) == Str(SexCode(run).value)
  {
    var stripped := StripColumn(cov, PersonId);
    assert At(stripped, k, Sex) == At(cov, k, Sex);
    assert stripped.rows[k] in stripped.rows;
  }

  /** The inner merge on `person_id`, before the fill. */
  function MergeTables(cov: Table, pcs: Table, run: Option<string>): (r: Result<Table>)
    requires Rectangular(cov) && Rectangular(pcs)
    ensures r.Ok? ==> Rectangular(r.value)
    ensures r.Ok? ==> PreparePcs(pcs).Ok? && PrepareCovariates(cov, run).Ok?
    ensures r.Ok? ==> r == InnerJoin(PrepareCovariates(cov, run).value, PreparePcs(pcs).value, [PersonId])
  {
    var p :- PreparePcs(pcs);
    var c :- PrepareCovariates(cov, run);
    InnerJoin(c, p, [PersonId])
  }

  /** `fillna("")` on every column: nothing is left missing. */
  function FillEmpty(t: Table): (r: Table)
    requires Rectangular(t)
    ensures r.columns == t.columns && |r.rows| == |t.rows| && Rectangular(r)
    ensures forall k, j :: 0 <= k < |r.rows| && 0 <= j < |r.columns| ==> !r.rows[k][j].Missing?
  {
    FillAll(t, Str(""))
  }

  /** The whole script: the merge with every missing cell replaced by "". */
  function CombineCovariatesAndPcs(cov: Table, pcs: Table, run: Option<string>): (r: Result<Table>)
    requires Rectangular(cov) && Rectangular(pcs)
    ensures r.Ok? <==> MergeTables(cov, pcs, run).Ok?
    ensures r.Ok? ==> MergeTables(cov, pcs, run).Ok? && r.value.columns == MergeTables(cov, pcs, run).value.columns
    ensures r.Ok? ==> Rectangular(r.value)
    ensures r.Ok? ==> Rectangular(r.value) && forall k, j :: 0 <= k < |r.value.rows| && 0 <= j < |r.value.columns| ==>
                                                !r.value.rows[k][j].Missing?
  {
    var merged := MergeTables(cov, pcs, run);
    if merged.Err? then Err(merged.error) else Ok(FillEmpty(merged.value))
  }

  /** A covariate table without `person_id` makes the merge raise `KeyError`, once the PCS
      table is usable and the sex filter has passed. */
  lemma MissingKeyFails(cov: Table, pcs: Table, run: Option<string>)
    requires Rectangular(cov) && Rectangular(pcs)
    requires PersonId !in cov.columns
    requires PreparePcs(pcs).Ok? && PrepareCovariates(cov, run).Ok?
    ensures MergeTables(cov, pcs, run).Err? && MergeTables(cov, pcs, run).error == KeyError(PersonId)
  {
  }

  /** The merged key values are exactly those both prepared tables hold. */
  lemma MergeKeySet(cov: Table, pcs: Table, run: Option<string>)
    requires Rectangular(cov) && Rectangular(pcs) && MergeTables(cov, pcs, run).Ok?
    ensures KeyValues(MergeTables(cov, pcs, run).value, PersonId) ==
            KeyValues(PrepareCovariates(cov, run).value, PersonId) * KeyValues(PreparePcs(pcs).value, PersonId)
  {
    InnerJoinKeySet(PrepareCovariates(cov, run).value, PreparePcs(pcs).value, PersonId);
  }

  /** Cells already present before the fill keep their values. */
  lemma CombineKeepsPresent(cov: Table, pcs: Table, run: Option<string>, k: nat, j: nat)
    requires Rectangular(cov) && Rectangular(pcs) && MergeTables(cov, pcs, run).Ok?
    requires k < |MergeTables(cov, pcs, run).value.rows| && j < |MergeTables(cov, pcs, run).value.columns|
    requires !MergeTables(cov, pcs, run).value.rows[k][j].Missing?
    ensures CombineCovariatesAndPcs(cov, pcs, run).value.rows[k][j] == MergeTables(cov, pcs, run).value.rows[k][j]
  {
  }
}

=== FILE: phecode_fix.dfy ===
/** The one-off repair that keeps phecodes from being read as numbers: every wholly
    numeric CSV column name and every wholly numeric phecode in the phenotype JSON gets
    the prefix `phe_`.
 */
module PhecodeFix {
  import opened Wrappers
  import opened Strings
  import opened Json
  import opened Tables

  const Prefix := "phe_"
  const PhecodeKey := "phecode"

  /** A prefixed name is never numeric: it starts with a letter. */
  lemma PrefixedNotNumeric(s: string)
    ensures !IsNumeric(Prefix + s)
  {
    assert (Prefix + s)[0] == 'p';
  }

  // ---------------------------------------------------------------------------
  // CSV header

  /** The new name of one CSV column. */
  function ColumnName(col: string): (r: string)
    ensures !IsNumeric(r)
    ensures IsNumeric(col) ==> r == Prefix + col
    ensures !IsNumeric(col) ==> r == col
  {
    if IsNumeric(col) then
      PrefixedNotNumeric(col);
      Prefix + col
    else col
  }

  /** Renames the numeric columns of a table; the cells and the column order stay. */
  function RenameColumns(t: Table): (r: Table)
    ensures r.rows == t.rows && |r.columns| == |t.columns|
    ensures forall i :: 0 <= i < |t.columns| ==> r.columns[i] == ColumnName(t.columns[i])
    ensures forall i :: 0 <= i < |r.columns| ==> !IsNumeric(r.columns[i])
  {
    Table(seq(|t.columns|, i requires 0 <= i < |t.columns| => ColumnName(t.columns[i])), t.rows)
  }

  /** Renaming a renamed table changes nothing. */
  lemma RenameColumnsIdempotent(t: Table)
    ensures RenameColumns(RenameColumns(t)) == RenameColumns(t)
  {
    var r := RenameColumns(t);
    assert RenameColumns(r).columns == r.columns;
  }

  /** Distinct names stay distinct unless a header already holds both `c` and `phe_c`
      for a numeric `c`. */
  lemma RenameColumnsDistinct(t: Table)
    requires DistinctNames(t.columns)
    requires forall i :: 0 <= i < |t.columns| && IsNumeric(t.columns[i]) ==> Prefix + t.columns[i] !in t.columns
    ensures DistinctNames(RenameColumns(t).columns)
  {
    var cs := t.columns;
    var r := RenameColumns(t).columns;
    forall i, j | 0 <= i < j < |r|
      ensures r[i] != r[j]
    {
      if IsNumeric(cs[i]) && !IsNumeric(cs[j]) {
        assert r[i] == Prefix + cs[i] && r[j] == cs[j];
      } else if !IsNumeric(cs[i]) && IsNumeric(cs[j]) {
        assert r[i] == cs[i] && r[j] == Prefix + cs[j];
      } else if IsNumeric(cs[i]) {
        assert cs[i] != cs[j];
        assert (Prefix + cs[i])[|Prefix|..] == cs[i];
        assert (Prefix + cs[j])[|Prefix|..] == cs[j];
      }
    }
  }

  /** A header holding both `c` and `phe_c` collapses onto one name. */
  lemma RenameColumnsCollide()
    ensures ColumnName("250") == ColumnName("phe_250")
  {
    assert IsNumeric("250");
    assert !IsDigit("phe_250"[0]);
  }

  // ---------------------------------------------------------------------------
  // JSON phecodes

  /** One item of a phecode list: prefixed when its `str()` is numeric. An integer
      item becomes a string. */
  function PrefixItem(code: Json): (r: Json)
    ensures !IsNumeric(PyStr(r))
    ensures IsNumeric(PyStr(code)) ==> r == JStr(Prefix + PyStr(code))
    ensures !IsNumeric(PyStr(code)) ==> r == code
  {
    if IsNumeric(PyStr(code)) then
      PrefixedNotNumeric(PyStr(code));
      JStr(Prefix + PyStr(code))
    else code
  }

  function PrefixItems(items: seq<Json>): (r: seq<Json>)
    ensures |r| == |items|
    ensures forall i :: 0 <= i < |items| ==> r[i] == PrefixItem(items[i])
  {
    seq(|items|, i requires 0 <= i < |items| => PrefixItem(items[i]))
  }

  /** The repaired `phecode` of an entry, or `None` when it is left as it is. */
  function NewPhecode(entry: Object): (r: Option<Json>)
    ensures r.Some? ==> HasKey(entry, PhecodeKey)
  {
    match Get(entry, PhecodeKey)
    case Some(JList(items)) => Some(JList(PrefixItems(items)))
    case Some(JStr(s)) => if IsNumeric(s) then Some(JStr(Prefix + s)) else None
    case _ => None
  }

  /** Repairs the `phecode` of one phenotype entry. A list has each numeric item
      prefixed; a numeric string is prefixed; any other value, and a missing key,
      leave the entry as it is. */
  function UpdatePhecodes(entry: Object): (r: Object)
    ensures |r| == |entry|
    ensures forall k :: k != PhecodeKey ==> Get(r, k) == Get(entry, k)
    ensures HasKey(r, PhecodeKey) <==> HasKey(entry, PhecodeKey)
    ensures forall items :: Get(entry, PhecodeKey) == Some(JList(items)) ==>
      Get(r, PhecodeKey) == Some(JList(PrefixItems(items)))
    ensures forall s :: Get(entry, PhecodeKey) == Some(JStr(s)) ==>
      Get(r, PhecodeKey) == Some(JStr(if IsNumeric(s) then Prefix + s else s))
    ensures !(Get(entry, PhecodeKey).Some? && (Get(entry, PhecodeKey).value.JList? || Get(entry, PhecodeKey).value.JStr?)) ==>
      r == entry
  {
    var p := NewPhecode(entry);
    if p.Some? then Set(entry, PhecodeKey, p.value) else entry
  }

  /** Repairing a list of items twice is repairing it once. */
  lemma PrefixItemsIdempotent(items: seq<Json>)
    ensures PrefixItems(PrefixItems(items)) == PrefixItems(items)
  {
    var once := PrefixItems(items);
    forall i | 0 <= i < |once|
      ensures PrefixItem(once[i]) == once[i]
    {
      assert !IsNumeric(PyStr(once[i]));
    }
  }

  /** Repairing an entry twice is repairing it once: no repaired phecode is numeric. */
  lemma UpdatePhecodesIdempotent(entry: Object)
    ensures UpdatePhecodes(UpdatePhecodes(entry)) == UpdatePhecodes(entry)
  {
    var once := UpdatePhecodes(entry);
    match Get(entry, PhecodeKey)
    case Some(JList(items)) =>
      PrefixItemsIdempotent(items);
      SetExisting(once, PhecodeKey, JList(PrefixItems(items)));
    case Some(JStr(s)) =>
      if IsNumeric(s) {
        PrefixedNotNumeric(s);
      }
    case _ =>
  }

  /** The whole phenotype file: every entry repaired, count and order kept. */
  function UpdateJsonPhenotypes(entries: seq<Object>): (r: seq<Object>)
    ensures |r| == |entries|
    ensures forall i :: 0 <= i < |entries| ==> r[i] == UpdatePhecodes(entries[i])
  {
    seq(|entries|, i requires 0 <= i < |entries| => UpdatePhecodes(entries[i]))
  }

  /** Repairing the file twice is repairing it once. */
  lemma UpdateJsonPhenotypesIdempotent(entries: seq<Object>)
    ensures UpdateJsonPhenotypes(UpdateJsonPhenotypes(entries)) == UpdateJsonPhenotypes(entries)
  {
    var once := UpdateJsonPhenotypes(entries);
    forall i | 0 <= i < |once|
      ensures UpdatePhecodes(once[i]) == once[i]
    {
      UpdatePhecodesIdempotent(entries[i]);
    }
  }

  /** A decimal or comma-separated phecode string is not numeric and stays as it is. */
  lemma DecimalPhecodeKept(entry: Object, s: string)
    requires Get(entry, PhecodeKey) == Some(JStr(s))
    requires '.' in s || ',' in s
    ensures UpdatePhecodes(entry) == entry
  {
    assert !IsNumeric(s);
    SetExisting(entry, PhecodeKey, JStr(s));
  }
}

=== FILE: phecode_map.dfy ===
/** Attaching AoU phecodes to the phenotype JSON: a brava-code to AoU-code lookup
    built from a two-column CSV, then every entry whose `phenotype_ID` is a brava code
    gets that code's AoU phecode.
 */
module PhecodeMap {
  import opened Wrappers
  import opened Strings
  import opened Seqs
  import opened Json
  import opened Tables

  const BravaCode := "brava_code"
  const AouCode := "aou_code"
  const PhenotypeId := "phenotype_ID"
  const PhecodeKey := "phecode"

  /** The (brava_code, aou_code) pair of every row, in row order. */
  function CodePairs(t: Table): (ps: seq<(Cell, Cell)>)
    ensures |ps| == |t.rows|
    ensures forall k :: 0 <= k < |t.rows| ==> ps[k] == (At(t, k, BravaCode), At(t, k, AouCode))
  {
    seq(|t.rows|, k requires 0 <= k < |t.rows| => (At(t, k, BravaCode), At(t, k, AouCode)))
  }

  /** `dict(zip(csv["brava_code"], csv["aou_code"]))`: a `KeyError` for a missing column,
      otherwise every brava code maps to the AoU code of the last row holding it. */
  function BravaMapping(t: Table): (r: Result<map<Cell, Cell>>)
    ensures r.Ok? <==> BravaCode in t.columns && AouCode in t.columns
    ensures BravaCode !in t.columns ==> r == Err(KeyError(BravaCode))
    ensures BravaCode in t.columns && AouCode !in t.columns ==> r == Err(KeyError(AouCode))
    ensures r.Ok? ==> forall c :: c in r.value <==> exists k :: 0 <= k < |t.rows| && At(t, k, BravaCode) == c
  {
    if BravaCode !in t.columns then Err(KeyError(BravaCode))
    else if AouCode !in t.columns then Err(KeyError(AouCode))
    else
      var ps := CodePairs(t);
      var m := ToMap(ps);
      assert forall c :: c in m <==> exists k :: 0 <= k < |t.rows| && At(t, k, BravaCode) == c by {
        forall c
          ensures c in m <==> exists k :: 0 <= k < |t.rows| && At(t, k, BravaCode) == c
        {
          if c in m {
            var k :| 0 <= k < |ps| && ps[k].0 == c;
          }
          if exists k :: 0 <= k < |t.rows| && At(t, k, BravaCode) == c {
            var k :| 0 <= k < |t.rows| && At(t, k, BravaCode) == c;
            assert ps[k].0 == c;
          }
        }
      }
      Ok(m)
  }

  /** For a repeated brava code the last row wins. */
  lemma BravaMappingLastWins(t: Table, k: nat)
    requires BravaCode in t.columns && AouCode in t.columns
    requires k < |t.rows|
    requires forall j :: k < j < |t.rows| ==> At(t, j, BravaCode) != At(t, k, BravaCode)
    ensures BravaMapping(t).Ok?
    ensures At(t, k, BravaCode) in BravaMapping(t).value
    ensures BravaMapping(t).value[At(t, k, BravaCode)] == At(t, k, AouCode)
  {
    var ps := CodePairs(t);
    ToMapLastWins(ps, k);
  }

  /** Python `==` between a hashable JSON `phenotype_ID` and a dictionary key, which is
      what `in` tests: a string equals the same text, an integer or a boolean equals a
      numeric cell of the same value (`True == 1 == 1.0`), `None` equals no cell. */
  predicate KeyMatches(id: Json, c: Cell) {
    match id
    case JStr(s) => c == Str(s)
    case JInt(i) => AsNumber(c) == Some(i as real)
    case JBool(b) => AsNumber(c) == Some(if b then 1.0 else 0.0)
    case _ => false
  }

  /** The cells a JSON `phenotype_ID` can be equal to, listed so the lookup can try them. */
  function Candidates(id: Json): seq<Cell> {
    match id
    case JStr(s) => [Str(s)]
    case JInt(i) => [Int(i), Real(i as real)] + (if i == 0 then [Bool(false)] else if i == 1 then [Bool(true)] else [])
    case JBool(b) => [Bool(b), Int(if b then 1 else 0), Real(if b then 1.0 else 0.0)]
    case _ => []
  }

  /** The candidates are exactly the cells the id is equal to. */
  lemma CandidatesMatch(id: Json)
    ensures forall c :: c in Candidates(id) <==> KeyMatches(id, c)
  {
    forall c
      ensures c in Candidates(id) <==> KeyMatches(id, c)
    {
      if id.JInt? && c.Int? && KeyMatches(id, c) {
        assert c.i as real == id.i as real;
      }
    }
  }

  /** The first of `cs` that is a key of `m`. */
  function FirstKey(cs: seq<Cell>, m: map<Cell, Cell>): (r: Option<Cell>)
    ensures r.Some? <==> exists c :: c in cs && c in m
    ensures r.Some? ==> r.value in cs && r.value in m
  {
    if |cs| == 0 then None
    else if cs[0] in m then Some(cs[0])
    else FirstKey(cs[1..], m)
  }

  /** `phenotype_id in brava_mapping` and the value it finds. A JSON list or object is
      unhashable, so the test raises `TypeError`; any other id finds the value of a key it
      is equal to, or nothing. */
  function Lookup(id: Json, m: map<Cell, Cell>): (r: Result<Option<Cell>>)
    ensures r.Err? <==> id.JList? || id.JObject?
    ensures r.Ok? ==> (r.value.Some? <==> exists c :: c in m && KeyMatches(id, c))
    ensures r.Ok? && r.value.Some? ==> exists c :: c in m && KeyMatches(id, c) && r.value.value == m[c]
  {
    if id.JList? then Err(TypeError("unhashable type: 'list'"))
    else if id.JObject? then Err(TypeError("unhashable type: 'dict'"))
    else
      CandidatesMatch(id);
      var key := FirstKey(Candidates(id), m);
      if key.Some? then Ok(Some(m[key.value])) else Ok(None)
  }

  /** The JSON value a CSV cell is written as. */
  function CellJson(c: Cell, floatText: real -> string): Json {
    match c
    case Missing => JFloat("NaN")
    case Str(s) => JStr(s)
    case Int(i) => JInt(i)
    case Real(x) => JFloat(floatText(x))
    case Bool(b) => JBool(b)
  }

  /** The mapped phecode of an entry: `entry.get("phenotype_ID")`, then the lookup. An
      entry without the field looks up `None`, which finds nothing. */
  function MappedPhecode(entry: Object, m: map<Cell, Cell>): (r: Result<Option<Cell>>)
    ensures r.Err? <==> HasKey(entry, PhenotypeId)
                        && (Get(entry, PhenotypeId).value.JList? || Get(entry, PhenotypeId).value.JObject?)
    ensures (r.Ok? && r.value.Some?) <==>
      HasKey(entry, PhenotypeId) && exists c :: c in m && KeyMatches(Get(entry, PhenotypeId).value, c)
  {
    var id := Get(entry, PhenotypeId);
    if id.None? then Ok(None) else Lookup(id.value, m)
  }

  /** One entry: `phecode` set, or overwritten, to the mapped code; an entry with a
      missing or unmapped `phenotype_ID` is unchanged; an unhashable id raises. */
  function AddPhecode(entry: Object, m: map<Cell, Cell>, floatText: real -> string): (r: Result<Object>)
    ensures r.Err? <==> MappedPhecode(entry, m).Err?
    ensures r.Ok? ==> forall k :: k != PhecodeKey ==> Get(r.value, k) == Get(entry, k)
    ensures MappedPhecode(entry, m).Ok? && MappedPhecode(entry, m).value.Some? ==>
      r.Ok? && Get(r.value, PhecodeKey) == Some(CellJson(MappedPhecode(entry, m).value.value, floatText))
    ensures MappedPhecode(entry, m) == Ok(None) ==> r == Ok(entry)
    ensures r.Ok? ==> |r.value| == if MappedPhecode(entry, m).value.Some? && !HasKey(entry, PhecodeKey) then |entry| + 1 else |entry|
  {
    var code :- MappedPhecode(entry, m);
    if code.Some? then Ok(Set(entry, PhecodeKey, CellJson(code.value, floatText))) else Ok(entry)
  }

  /** Adding the phecodes twice is adding them once: the update never touches
      `phenotype_ID`, so the second pass writes the value already there. */
  lemma AddPhecodeIdempotent(entry: Object, m: map<Cell, Cell>, floatText: real -> string)
    ensures AddPhecode(entry, m, floatText).Ok? ==>
      AddPhecode(AddPhecode(entry, m, floatText).value, m, floatText) == AddPhecode(entry, m, floatText)
  {
    var r := AddPhecode(entry, m, floatText);
    if r.Ok? {
      var once := r.value;
      assert Get(once, PhenotypeId) == Get(entry, PhenotypeId);
      var code := MappedPhecode(entry, m);
      if code.value.Some? {
        SetExisting(once, PhecodeKey, CellJson(code.value.value, floatText));
      }
    }
  }

  /** The whole JSON file. The loop updates the entries in order and the first
      unhashable id raises before anything is written; otherwise there is one output
      entry per input entry, in order, each updated as `AddPhecode` says. */
  function AddPhecodes(entries: seq<Object>, m: map<Cell, Cell>, floatText: real -> string): (r: Result<seq<Object>>)
    ensures r.Err? <==> exists i :: 0 <= i < |entries| && MappedPhecode(entries[i], m).Err?
    ensures r.Err? ==> exists i :: 0 <= i < |entries| && MappedPhecode(entries[i], m) == Err(r.error)
                                  && forall j :: 0 <= j < i ==> MappedPhecode(entries[j], m).Ok?
    ensures r.Ok? ==> |r.value| == |entries|
    ensures r.Ok? ==> forall i, k :: 0 <= i < |entries| && k != PhecodeKey ==> Get(r.value[i], k) == Get(entries[i], k)
    ensures r.Ok? ==> forall i :: 0 <= i < |entries| && MappedPhecode(entries[i], m).value.Some? ==>
      Get(r.value[i], PhecodeKey) == Some(CellJson(MappedPhecode(entries[i], m).value.value, floatText))
  {
    var f := e => AddPhecode(e, m, floatText);
    var r := Traverse(entries, f);
    assert r.Ok? ==> forall i :: 0 <= i < |entries| ==> r.value[i] == AddPhecode(entries[i], m, floatText).value;
    assert r.Err? ==> exists i :: 0 <= i < |entries| && f(entries[i]) == Err(r.error) && forall j :: 0 <= j < i ==> f(entries[j]).Ok?;
    r
  }

  /** End to end: an entry whose `phenotype_ID` equals the brava code of row `k`, of no
      later row and of no other brava code, ends up with row `k`'s AoU code. */
  lemma AddPhecodesFromRow(t: Table, entries: seq<Object>, i: nat, k: nat, floatText: real -> string)
    requires BravaCode in t.columns && AouCode in t.columns
    requires i < |entries| && k < |t.rows|
    requires Get(entries[i], PhenotypeId).Some?
    requires KeyMatches(Get(entries[i], PhenotypeId).value, At(t, k, BravaCode))
    requires forall j :: 0 <= j < |t.rows| && KeyMatches(Get(entries[i], PhenotypeId).value, At(t, j, BravaCode)) ==>
      At(t, j, BravaCode) == At(t, k, BravaCode)
    requires forall j :: k < j < |t.rows| ==> At(t, j, BravaCode) != At(t, k, BravaCode)
    ensures BravaMapping(t).Ok?
    ensures AddPhecode(entries[i], BravaMapping(t).value, floatText).Ok?
    ensures Get(AddPhecode(entries[i], BravaMapping(t).value, floatText).value, PhecodeKey)
         == Some(CellJson(At(t, k, AouCode), floatText))
    ensures AddPhecodes(entries, BravaMapping(t).value, floatText).Ok? ==>
      Get(AddPhecodes(entries, BravaMapping(t).value, floatText).value[i], PhecodeKey)
         == Some(CellJson(At(t, k, AouCode), floatText))
  {
    BravaMappingLastWins(t, k);
    var m := BravaMapping(t).value;
    var id := Get(entries[i], PhenotypeId).value;
    var code := MappedPhecode(entries[i], m);
    assert code.Ok? && code.value.Some?;
    var c :| c in m && KeyMatches(id, c) && code.value.value == m[c];
    var j :| 0 <= j < |t.rows| && At(t, j, BravaCode) == c;
  }
}

=== FILE: phecode_pairs.dfy ===
/** The two phecode-correlation scripts: pick the phenotypes that carry exactly two
    comma-separated phecodes, skip pairs whose phecodes are not columns of the case
    table, count the cases of each phecode, and name one plot file per pair. Both
    scripts share the same `extract_phecodes`.
 */
module PhecodePairs {
  import opened Wrappers
  import opened Strings
  import opened Seqs
  import opened Json
  import opened Tables

  const PhecodeKey := "phecode"
  const PhenotypeId := "phenotype_ID"
  const Comma := [',']
  const Versus := "_vs_"

  /** A phenotype with two phecodes: its id and both codes, whitespace-stripped. */
  datatype PhecodePair = PhecodePair(id: Json, first: string, second: string)

  /** The entry has a string `phecode` with exactly two comma-separated parts. */
  predicate HasTwoCodes(entry: Object) {
    var p := Get(entry, PhecodeKey);
    p.Some? && p.value.JStr? && |Split(p.value.s, Comma)| == 2
  }

  function PairOf(entry: Object): (r: PhecodePair)
    requires HasTwoCodes(entry) && HasKey(entry, PhenotypeId)
  {
    var parts := Split(Get(entry, PhecodeKey).value.s, Comma);
    PhecodePair(Get(entry, PhenotypeId).value, Strip(parts[0]), Strip(parts[1]))
  }

  /** `extract_phecodes`: one pair per two-code entry, in input order. An entry that
      qualifies but has no `phenotype_ID` raises `KeyError`; every other entry is
      skipped. */
  function ExtractPhecodes(entries: seq<Object>): (r: Result<seq<PhecodePair>>)
    ensures r.Ok? <==> forall e :: e in entries && HasTwoCodes(e) ==> HasKey(e, PhenotypeId)
    ensures r.Err? ==> r.error == KeyError(PhenotypeId)
    ensures r.Ok? ==> PairsOf(r.value, Filter(entries, HasTwoCodes))
    decreases |entries|
  {
    if |entries| == 0 then Ok([])
    else
      var e := entries[0];
      var tail := entries[1..];
      assert forall x :: x in entries <==> x == e || x in tail;
      if HasTwoCodes(e) then
        if !HasKey(e, PhenotypeId) then Err(KeyError(PhenotypeId))
        else
          var rest :- ExtractPhecodes(tail);
          var f := Filter(tail, HasTwoCodes);
          assert Filter(entries, HasTwoCodes) == [e] + f;
          PairsOfCons(e, rest, f);
          Ok([PairOf(e)] + rest)
      else
        assert Filter(entries, HasTwoCodes) == Filter(tail, HasTwoCodes);
        ExtractPhecodes(tail)
  }

  /** `pairs` is the pair of each entry of `qualified`, position by position. */
  predicate PairsOf(pairs: seq<PhecodePair>, qualified: seq<Object>) {
    |pairs| == |qualified| &&
    forall i :: 0 <= i < |pairs| ==>
      HasTwoCodes(qualified[i]) && HasKey(qualified[i], PhenotypeId) && pairs[i] == PairOf(qualified[i])
  }

  lemma PairsOfCons(e: Object, rest: seq<PhecodePair>, tail: seq<Object>)
    requires HasTwoCodes(e) && HasKey(e, PhenotypeId)
    requires PairsOf(rest, tail)
    ensures PairsOf([PairOf(e)] + rest, [e] + tail)
  {
    var r := [PairOf(e)] + rest;
    var q := [e] + tail;
    forall i | 0 <= i < |r|
      ensures HasTwoCodes(q[i]) && HasKey(q[i], PhenotypeId) && r[i] == PairOf(q[i])
    {
      if i > 0 {
        assert r[i] == rest[i - 1] && q[i] == tail[i - 1];
      }
    }
  }

  /** An entry has two codes exactly when its phecode is a string with one comma. */
  lemma HasTwoCodesIff(entry: Object)
    ensures HasTwoCodes(entry) <==>
      Get(entry, PhecodeKey).Some? && Get(entry, PhecodeKey).value.JStr? &&
      multiset(Get(entry, PhecodeKey).value.s)[','] == 1
  {
    var p := Get(entry, PhecodeKey);
    if p.Some? && p.value.JStr? {
      SplitCharCount(p.value.s, ',');
    }
  }

  /** A phecode written `a,b` with no comma inside `a` or `b` yields the pair of the
      stripped halves. */
  lemma PairOfJoined(entry: Object, a: string, b: string)
    requires Get(entry, PhecodeKey) == Some(JStr(a + "," + b))
    requires ',' !in a && ',' !in b
    requires HasKey(entry, PhenotypeId)
    ensures HasTwoCodes(entry)
    ensures PairOf(entry) == PhecodePair(Get(entry, PhenotypeId).value, Strip(a), Strip(b))
  {
    DelimitedByChar(a, ',');
    DelimitedByChar(b, ',');
    assert Join([a, b], Comma) == a + "," + b by {
      JoinCons(a, [b], Comma);
    }
    SplitJoin([a, b], Comma);
  }

  // ---------------------------------------------------------------------------
  // case counts

  /** `col.astype(str).str.lower() == "true"` on one cell. */
  predicate IsTrue(c: Cell, floatText: real -> string) {
    Lower(Text(c, floatText)) == "true"
  }

  /** Booleans count when true, strings when they spell "true" in any case; missing
      values and integers never count. */
  lemma IsTrueCells(b: bool, s: string, i: int, floatText: real -> string)
    ensures IsTrue(Bool(b), floatText) <==> b
    ensures IsTrue(Str(s), floatText) <==> Lower(s) == "true"
    ensures !IsTrue(Missing, floatText)
    ensures !IsTrue(Int(i), floatText)
  {
    assert Lower("True") == "true" by {
      assert Lower("True")[0] == LowerChar('T');
    }
    assert Lower("False")[0] == 'f';
    assert Lower("nan")[0] == 'n';
    var t := IntToString(i);
    assert |t| > 0 ==> Lower(t)[0] == LowerChar(t[0]);
    if i >= 0 {
      assert IsDigit(t[0]);
    } else {
      assert t[0] == '-';
    }
  }

  /** Number of rows whose cell under `name` counts as true. */
  function CountTrue(cols: seq<string>, rows: seq<Row>, name: string, floatText: real -> string): (n: nat)
    ensures n <= |rows|
    ensures n == 0 <== forall k :: 0 <= k < |rows| ==> !IsTrue(Value(cols, rows[k], name), floatText)
    decreases |rows|
  {
    if |rows| == 0 then 0
    else
      var rest := CountTrue(cols, rows[1..], name, floatText);
      assert forall k :: 1 <= k < |rows| ==> rows[1..][k - 1] == rows[k];
      (if IsTrue(Value(cols, rows[0], name), floatText) then 1 else 0) + rest
  }

  /** `df_subset.sum()` for one phecode: its case count. */
  function CaseCount(t: Table, name: string, floatText: real -> string): (n: nat)
    ensures n <= |t.rows|
  {
    CountTrue(t.columns, t.rows, name, floatText)
  }

  /** The boolean column of one phecode, row by row. */
  function BoolColumn(cols: seq<string>, rows: seq<Row>, name: string, floatText: real -> string): (bs: seq<bool>)
    ensures |bs| == |rows|
    ensures forall k :: 0 <= k < |rows| ==> bs[k] == IsTrue(Value(cols, rows[k], name), floatText)
  {
    seq(|rows|, k requires 0 <= k < |rows| => IsTrue(Value(cols, rows[k], name), floatText))
  }

  /** pandas `sum()` of a boolean column. */
  function TrueCount(bs: seq<bool>): nat
    decreases |bs|
  {
    if |bs| == 0 then 0 else (if bs[0] then 1 else 0) + TrueCount(bs[1..])
  }

  /** The case count is the sum of the phecode's boolean column. */
  lemma {:induction false} CaseCountIsSum(cols: seq<string>, rows: seq<Row>, name: string, floatText: real -> string)
    ensures TrueCount(BoolColumn(cols, rows, name, floatText)) == CountTrue(cols, rows, name, floatText)
    decreases |rows|
  {
    if |rows| > 0 {
      var bs := BoolColumn(cols, rows, name, floatText);
      assert bs[1..] == BoolColumn(cols, rows[1..], name, floatText);
      CaseCountIsSum(cols, rows[1..], name, floatText);
    }
  }

  // ---------------------------------------------------------------------------
  // pairs to plot

  /** Both phecodes of the pair are columns of the case table. */
  predicate Usable(p: PhecodePair, cols: seq<string>) {
    p.first in cols && p.second in cols
  }

  /** The pairs that are not skipped, in order. */
  function Surviving(pairs: seq<PhecodePair>, cols: seq<string>): (r: seq<PhecodePair>)
    ensures |r| <= |pairs|
    ensures forall p :: p in r <==> p in pairs && Usable(p, cols)
    decreases |pairs|
  {
    if |pairs| == 0 then []
    else
      assert forall p :: p in pairs <==> p == pairs[0] || p in pairs[1..];
      (if Usable(pairs[0], cols) then [pairs[0]] else []) + Surviving(pairs[1..], cols)
  }

  /** One point of the combined scatter plot. */
  datatype PlotPoint = PlotPoint(id: Json, first: string, second: string, cases1: nat, cases2: nat)

  function PointOf(p: PhecodePair, t: Table, floatText: real -> string): PlotPoint {
    PlotPoint(p.id, p.first, p.second, CaseCount(t, p.first, floatText), CaseCount(t, p.second, floatText))
  }

  /** The loop of `plot_correlation` in the combined script: a skipped pair adds
      nothing, every other pair adds its two case counts. */
  function PlotData(pairs: seq<PhecodePair>, t: Table, floatText: real -> string): (r: seq<PlotPoint>)
    ensures |r| <= |pairs|
    ensures forall pt :: pt in r ==> pt.cases1 <= |t.rows| && pt.cases2 <= |t.rows|
    decreases |pairs|
  {
    if |pairs| == 0 then []
    else
      var rest := PlotData(pairs[1..], t, floatText);
      if Usable(pairs[0], t.columns) then [PointOf(pairs[0], t, floatText)] + rest else rest
  }

  /** The plot point of each pair. */
  function PointsOf(t: Table, floatText: real -> string): PhecodePair -> PlotPoint {
    p => PointOf(p, t, floatText)
  }

  /** The plot data has one point per pair that is not skipped, in order, and each
      point holds that pair's two case counts. */
  lemma {:induction false} PlotDataPoints(pairs: seq<PhecodePair>, t: Table, floatText: real -> string)
    ensures PlotData(pairs, t, floatText) == Map(Surviving(pairs, t.columns), PointsOf(t, floatText))
    decreases |pairs|
  {
    if |pairs| > 0 {
      PlotDataPoints(pairs[1..], t, floatText);
      var kept := Surviving(pairs[1..], t.columns);
      assert Surviving(pairs, t.columns) == (if Usable(pairs[0], t.columns) then [pairs[0]] else []) + kept;
      if Usable(pairs[0], t.columns) {
        MapCons(pairs[0], kept, PointsOf(t, floatText));
      }
    }
  }

  /** The combined script stops early, with no plot, when every pair was skipped. */
  function PlotCorrelation(pairs: seq<PhecodePair>, t: Table, floatText: real -> string): (r: Option<seq<PlotPoint>>)
    ensures r.None? <==> forall i :: 0 <= i < |pairs| ==> !Usable(pairs[i], t.columns)
    ensures r.Some? ==> |r.value| > 0 && forall i :: 0 <= i < |r.value| ==>
      r.value[i] in PlotData(pairs, t, floatText)
  {
    var data := PlotData(pairs, t, floatText);
    var kept := Surviving(pairs, t.columns);
    PlotDataPoints(pairs, t, floatText);
    assert |data| == 0 <==> forall i :: 0 <= i < |pairs| ==> !Usable(pairs[i], t.columns) by {
      if |data| > 0 {
        assert kept[0] in kept;
        var i :| 0 <= i < |pairs| && pairs[i] == kept[0];
      } else {
        forall i | 0 <= i < |pairs|
          ensures !Usable(pairs[i], t.columns)
        {
          assert pairs[i] !in kept;
        }
      }
    }
    if |data| == 0 then None else Some(data)
  }

  // ---------------------------------------------------------------------------
  // one plot file per pair

  /** `f"{phenotype_ID}_{phe1}_vs_{phe2}.png"`. */
  function FileName(p: PhecodePair): string {
    PyStr(p.id) + "_" + p.first + Versus + p.second + ".png"
  }

  /** A plot file is a PNG whose name starts with the phenotype id and an underscore. */
  lemma FileNameShape(p: PhecodePair)
    ensures StartsWith(FileName(p), PyStr(p.id) + "_")
    ensures EndsWith(FileName(p), ".png")
  {
    var n := FileName(p);
    var head := PyStr(p.id) + "_";
    assert n == head + (p.first + Versus + p.second + ".png");
    assert n[..|head|] == head;
    assert n[|n| - 4..] == ".png";
  }

  /** The phecodes can be read back from a file name when neither contains `_vs_`. */
  lemma FileNameRoundTrip(p: PhecodePair)
    requires Delimited(p.first, Versus) && Delimited(p.second, Versus)
    ensures var n := FileName(p);
      |PyStr(p.id)| + 1 <= |n| - 4 &&
      Split(n[|PyStr(p.id)| + 1..|n| - 4], Versus) == [p.first, p.second]
  {
    var n := FileName(p);
    var mid := p.first + Versus + p.second;
    assert n == PyStr(p.id) + "_" + mid + ".png";
    assert n[|PyStr(p.id)| + 1..|n| - 4] == mid;
    assert Join([p.first, p.second], Versus) == mid by {
      JoinCons(p.first, [p.second], Versus);
    }
    SplitJoin([p.first, p.second], Versus);
  }

  /** The separate-plots script: one file per pair that is not skipped, in order. */
  function PlotFiles(pairs: seq<PhecodePair>, cols: seq<string>): (r: seq<string>)
    ensures |r| == |Surviving(pairs, cols)|
    ensures forall i :: 0 <= i < |r| ==> r[i] == FileName(Surviving(pairs, cols)[i])
  {
    var kept := Surviving(pairs, cols);
    seq(|kept|, i requires 0 <= i < |kept| => FileName(kept[i]))
  }

  /** Every plot file belongs to a pair whose two phecodes are both columns. */
  lemma PlotFileOfPair(pairs: seq<PhecodePair>, cols: seq<string>, i: nat)
    requires i < |PlotFiles(pairs, cols)|
    ensures exists p :: p in pairs && Usable(p, cols) && PlotFiles(pairs, cols)[i] == FileName(p)
  {
    var p := Surviving(pairs, cols)[i];
    assert p in Surviving(pairs, cols);
    assert p in pairs && Usable(p, cols) && PlotFiles(pairs, cols)[i] == FileName(p);
  }
}

=== FILE: result_names.dfy ===
/** The result-file names of the association runs,
    `aou_snp_<ancestry>_step2_<trait>_vars_<class>.txt`, and the regular expression
    `aou_snp_(.*?)_step2_(.*?)_vars_(.*?)\.txt` that both result scripts search them with.
 */
module ResultNames {
  import opened Wrappers
  import opened Strings

  /** The literal pieces of a name pattern: a prefix, then one closing literal after
      each of the three groups. */
  datatype Markers = Markers(prefix: string, step: string, vars: string, ext: string)

  const ResultPattern := Markers("aou_snp_", "_step2_", "_vars_", ".txt")

  /** The three groups of a match. */
  datatype Groups = Groups(ancestry: string, traitCode: string, variantClass: string)

  function Closers(m: Markers): seq<string> {
    [m.step, m.vars, m.ext]
  }

  function Parts(g: Groups): seq<string> {
    [g.ancestry, g.traitCode, g.variantClass]
  }

  /** Each part followed by the literal that closes it. */
  function Interleave(parts: seq<string>, lits: seq<string>): (r: string)
    requires |parts| == |lits|
    decreases |parts|
  {
    if |parts| == 0 then "" else parts[0] + lits[0] + Interleave(parts[1..], lits[1..])
  }

  /** The text a match with groups `g` covers. */
  function Assemble(g: Groups, m: Markers): string {
    m.prefix + Interleave(Parts(g), Closers(m))
  }

  /** The lazy groups `(.*?)L1(.*?)L2...` read from `pos`: each group runs up to the
      first occurrence of its closing literal, and the next group starts after it. A
      literal that does not occur fails the match. */
  function LazyGroups(name: string, lits: seq<string>, pos: nat): (r: Option<seq<string>>)
    ensures r.Some? ==> |r.value| == |lits|
    decreases |lits|
  {
    if |lits| == 0 then Some([])
    else
      match FindFrom(name, lits[0], pos)
      case None => None
      case Some(j) =>
        match LazyGroups(name, lits[1..], j + |lits[0]|)
        case None => None
        case Some(gs) => Some([name[pos..j]] + gs)
  }

  /** `re.search` of the pattern. A later start can only see fewer literals, so the
      search starts at the first prefix and the groups follow lazily. */
  function ParseName(name: string, m: Markers): (r: Option<Groups>) {
    match FindFrom(name, m.prefix, 0)
    case None => None
    case Some(i) =>
      match LazyGroups(name, Closers(m), i + |m.prefix|)
      case None => None
      case Some(gs) => Some(Groups(gs[0], gs[1], gs[2]))
  }

  /** A match of `m` with groups `g` somewhere in `name`. */
  ghost predicate Covered(name: string, m: Markers, g: Groups) {
    exists a: nat :: IsAt(name, Assemble(g, m), a)
  }

  /** Two occurrences side by side are one occurrence of the concatenation. */
  lemma IsAtConcat(s: string, a: string, b: string, x: nat)
    requires IsAt(s, a, x) && IsAt(s, b, x + |a|)
    ensures IsAt(s, a + b, x)
  {
    assert s[x..x + |a| + |b|] == s[x..x + |a|] + s[x + |a|..x + |a| + |b|];
  }

  /** Inside an occurrence of `w` at `x`, `p` occurs at `x + k` exactly when it occurs
      in `w` at `k`. */
  lemma IsAtShift(s: string, w: string, x: nat, p: string, k: nat)
    requires IsAt(s, w, x) && k + |p| <= |w|
    ensures IsAt(s, p, x + k) <==> IsAt(w, p, k)
  {
    var a := s[x + k..x + k + |p|];
    var b := w[k..k + |p|];
    forall t | 0 <= t < |p|
      ensures a[t] == b[t]
    {
      assert s[x..x + |w|][k + t] == s[x + k + t];
    }
    assert a == b;
  }

  lemma IsAtSlice(s: string, x: nat, y: nat)
    requires x <= y <= |s|
    ensures IsAt(s, s[x..y], x)
  {
  }

  /** A delimited part followed by its separator: the separator is first found right
      after the part. */
  lemma FindAfterPart(s: string, part: string, sep: string, x: nat)
    requires IsAt(s, part + sep, x) && Delimited(part, sep)
    ensures FindFrom(s, sep, x) == Some(x + |part|)
  {
    var w := part + sep;
    forall k | x <= k < x + |part|
      ensures !IsAt(s, sep, k)
    {
      IsAtShift(s, w, x, sep, k - x);
    }
    IsAtShift(s, w, x, sep, |part|);
    assert w[|part|..] == sep;
    FindFromIs(s, sep, x, x + |part|);
  }

  /** Soundness of the lazy groups: from `pos` the name spells the groups and their
      closing literals. */
  lemma {:induction false} LazyGroupsCover(name: string, lits: seq<string>, pos: nat)
    requires pos <= |name|
    ensures LazyGroups(name, lits, pos).Some? ==> IsAt(name, Interleave(LazyGroups(name, lits, pos).value, lits), pos)
    decreases |lits|
  {
    if |lits| > 0 {
      match FindFrom(name, lits[0], pos)
      case None =>
      case Some(j) =>
        var next := j + |lits[0]|;
        LazyGroupsCover(name, lits[1..], next);
        LazyGroupsStep(name, lits, pos, j);
        match LazyGroups(name, lits[1..], next)
        case None =>
        case Some(gs) =>
          LazyCoverStep(name, lits, pos, j, gs);
    } else {
      assert name[pos..pos] == "";
    }
  }

  /** One step of the soundness: the first group and its literal, then the rest. */
  lemma LazyCoverStep(name: string, lits: seq<string>, pos: nat, j: nat, gs: seq<string>)
    requires |lits| > 0 && |gs| == |lits| - 1
    requires FindFrom(name, lits[0], pos) == Some(j) && pos <= j
    requires IsAt(name, Interleave(gs, lits[1..]), j + |lits[0]|)
    ensures IsAt(name, Interleave([name[pos..j]] + gs, lits), pos)
  {
    var r := [name[pos..j]] + gs;
    assert r[0] == name[pos..j] && r[1..] == gs;
    var group := name[pos..j];
    IsAtSlice(name, pos, j);
    assert pos + |group| == j;
    IsAtConcat(name, group, lits[0], pos);
    assert pos + |group + lits[0]| == j + |lits[0]|;
    IsAtConcat(name, group + lits[0], Interleave(gs, lits[1..]), pos);
    assert Interleave(r, lits) == group + lits[0] + Interleave(gs, lits[1..]);
  }

  /** One step of the lazy groups, once the first closing literal is found at `j`. */
  lemma LazyGroupsStep(name: string, lits: seq<string>, pos: nat, j: nat)
    requires |lits| > 0 && FindFrom(name, lits[0], pos) == Some(j)
    ensures pos <= j <= |name|
    ensures LazyGroups(name, lits, pos) ==
      var more := LazyGroups(name, lits[1..], j + |lits[0]|);
      if more.None? then None else Some([name[pos..j]] + more.value)
  {
  }

  /** Soundness of the search: whatever `ParseName` returns, the name holds the
      assembled match. */
  lemma ParseNameCovers(name: string, m: Markers)
    ensures ParseName(name, m).Some? ==> Covered(name, m, ParseName(name, m).value)
  {
    match FindFrom(name, m.prefix, 0)
    case None =>
    case Some(i) =>
      var pos := i + |m.prefix|;
      assert IsAt(name, m.prefix, i);
      LazyGroupsCover(name, Closers(m), pos);
      match LazyGroups(name, Closers(m), pos)
      case None =>
      case Some(gs) =>
        CoverOfGroups(name, m, i, gs);
  }

  /** A prefix followed by the laid-out groups is a covered match. */
  lemma CoverOfGroups(name: string, m: Markers, i: nat, gs: seq<string>)
    requires |gs| == |Closers(m)|
    requires IsAt(name, m.prefix, i)
    requires IsAt(name, Interleave(gs, Closers(m)), i + |m.prefix|)
    ensures Covered(name, m, Groups(gs[0], gs[1], gs[2]))
  {
    var g := Groups(gs[0], gs[1], gs[2]);
    assert gs == Parts(g);
    IsAtConcat(name, m.prefix, Interleave(gs, Closers(m)), i);
    assert IsAt(name, Assemble(g, m), i);
  }

  /** The lazy groups recover parts none of which hides its closing literal. */
  lemma {:induction false} LazyGroupsRoundTrip(name: string, parts: seq<string>, lits: seq<string>, pos: nat)
    requires |parts| == |lits|
    requires forall n :: 0 <= n < |parts| ==> Delimited(parts[n], lits[n])
    requires IsAt(name, Interleave(parts, lits), pos)
    ensures LazyGroups(name, lits, pos) == Some(parts)
    decreases |parts|
  {
    if |parts| > 0 {
      var j := pos + |parts[0]|;
      var next := j + |lits[0]|;
      assert FindFrom(name, lits[0], pos) == Some(j) && name[pos..j] == parts[0] by {
        RoundTripHead(name, parts, lits, pos);
      }
      assert LazyGroups(name, lits[1..], next) == Some(parts[1..]) by {
        RoundTripHead(name, parts, lits, pos);
        DelimitedTail(parts, lits);
        LazyGroupsRoundTrip(name, parts[1..], lits[1..], next);
      }
      LazyGroupsCons(name, parts, lits, pos, j);
    }
  }

  /** One step of the round trip: the first group found, and the rest recovered. */
  lemma LazyGroupsCons(name: string, parts: seq<string>, lits: seq<string>, pos: nat, j: nat)
    requires |parts| == |lits| > 0
    requires FindFrom(name, lits[0], pos) == Some(j) && name[pos..j] == parts[0]
    requires LazyGroups(name, lits[1..], j + |lits[0]|) == Some(parts[1..])
    ensures LazyGroups(name, lits, pos) == Some(parts)
  {
    LazyGroupsStep(name, lits, pos, j);
    assert [parts[0]] + parts[1..] == parts;
  }

  /** The first group of a laid-out name: its literal is found right after it, and the
      rest of the layout follows. */
  lemma RoundTripHead(name: string, parts: seq<string>, lits: seq<string>, pos: nat)
    requires |parts| == |lits| > 0
    requires Delimited(parts[0], lits[0])
    requires IsAt(name, Interleave(parts, lits), pos)
    ensures FindFrom(name, lits[0], pos) == Some(pos + |parts[0]|)
    ensures name[pos..pos + |parts[0]|] == parts[0]
    ensures IsAt(name, Interleave(parts[1..], lits[1..]), pos + |parts[0]| + |lits[0]|)
  {
    var w := Interleave(parts, lits);
    var head := parts[0] + lits[0];
    var tail := Interleave(parts[1..], lits[1..]);
    IsAtShift(name, w, pos, head, 0);
    assert w[0..|head|] == head;
    FindAfterPart(name, parts[0], lits[0], pos);
    IsAtShift(name, w, pos, tail, |head|);
    assert w[|head|..|head| + |tail|] == tail;
    IsAtShift(name, w, pos, parts[0], 0);
    assert w[0..|parts[0]|] == parts[0];
  }

  lemma DelimitedTail(parts: seq<string>, lits: seq<string>)
    requires |parts| == |lits| > 0
    requires forall n :: 0 <= n < |parts| ==> Delimited(parts[n], lits[n])
    ensures forall n :: 0 <= n < |parts| - 1 ==> Delimited(parts[1..][n], lits[1..][n])
  {
    forall n | 0 <= n < |parts| - 1
      ensures Delimited(parts[1..][n], lits[1..][n])
    {
      assert parts[1..][n] == parts[n + 1] && lits[1..][n] == lits[n + 1];
    }
  }

  /** Round trip: a name built from three parts, none of which hides the literal that
      follows it, parses back to those parts. */
  lemma ParseAssemble(g: Groups, m: Markers)
    requires Delimited(g.ancestry, m.step) && Delimited(g.traitCode, m.vars) && Delimited(g.variantClass, m.ext)
    ensures ParseName(Assemble(g, m), m) == Some(g)
  {
    AssembledFinds(g, m);
  }

  /** In an assembled name the prefix is found at the start and the lazy groups after it
      are the parts. */
  lemma AssembledFinds(g: Groups, m: Markers)
    requires Delimited(g.ancestry, m.step) && Delimited(g.traitCode, m.vars) && Delimited(g.variantClass, m.ext)
    ensures FindFrom(Assemble(g, m), m.prefix, 0) == Some(0)
    ensures LazyGroups(Assemble(g, m), Closers(m), |m.prefix|) == Some(Parts(g))
  {
    var n := Assemble(g, m);
    var w := Interleave(Parts(g), Closers(m));
    assert n[0..|m.prefix|] == m.prefix;
    FindFromIs(n, m.prefix, 0, 0);
    assert n[|m.prefix|..|m.prefix| + |w|] == w;
    assert forall i :: 0 <= i < |Parts(g)| ==> Delimited(Parts(g)[i], Closers(m)[i]) by {
      assert Parts(g) == [g.ancestry, g.traitCode, g.variantClass];
    }
    LazyGroupsRoundTrip(n, Parts(g), Closers(m), |m.prefix|);
  }

  /** The round trip for the result-file pattern itself. */
  lemma ResultNameRoundTrip(g: Groups)
    requires Delimited(g.ancestry, ResultPattern.step)
    requires Delimited(g.traitCode, ResultPattern.vars)
    requires Delimited(g.variantClass, ResultPattern.ext)
    ensures ParseName(Assemble(g, ResultPattern), ResultPattern) == Some(g)
  {
    ParseAssemble(g, ResultPattern);
  }
}

=== FILE: results.dfy ===
/** The association-result scripts. `combine_and_sort_results.py` reads every
    `aou_snp_<ancestry>_step2_<trait>_vars_<class>.txt` result file except the ADDITIVE
    ones, tags each row with the three name parts, keeps rows with enough cases and a
    rare allele, concatenates the files and sorts by p-value. `extract_high_AF_combos.py`
    collects the distinct (marker, ancestry, class) triples of the common-allele rows.
 */
module Results {
  import opened Wrappers
  import opened Strings
  import opened Seqs
  import opened Tables
  import opened ResultNames

  const Additive := "ADDITIVE"

  /** `combine_and_sort_results.py` skips every file whose name mentions ADDITIVE. */
  predicate Excluded(name: string) {
    Contains(name, Additive)
  }

  // ---------------------------------------------------------------------------
  // numeric filters

  const Ancestry := "Ancestry"
  const Trait := "Trait"
  const VariantClass := "VariantClass"
  const NCase := "N_case"
  const AfAllele2 := "AF_Allele2"
  const PValue := "p.value"
  const MarkerId := "MarkerID"

  /** `pd.to_numeric(x, errors="coerce")` on one cell: numbers stay, a string becomes
      the number `parse` reads from it or NaN. */
  function ToNumeric(c: Cell, parse: string -> Option<real>): (r: Cell)
    ensures r.Missing? || AsNumber(r).Some?
    ensures AsNumber(c).Some? || c.Missing? ==> r == c
    ensures c.Str? ==> (r.Missing? <==> parse(c.s).None?)
  {
    match c
    case Str(s) => if parse(s).Some? then Real(parse(s).value) else Missing
    case _ => c
  }

  /** A comparison of a coerced cell with a number: false for NaN. */
  predicate Holds(c: Cell, op: Order, bound: real) {
    AsNumber(c).Some? && RealHolds(AsNumber(c).value, op, bound)
  }

  /** A row with the cell under `col` coerced to a number. */
  function CoerceRow(cols: seq<string>, row: Row, col: string, parse: string -> Option<real>): (r: Row)
    requires |row| == |cols|
    ensures |r| == |cols|
    ensures Value(cols, r, col) == ToNumeric(Value(cols, row, col), parse)
    ensures forall c :: c != col ==> Value(cols, r, c) == Value(cols, row, c)
    ensures col !in cols ==> r == row
  {
    if col in cols then
      var i := IndexOf(cols, col);
      row[i := ToNumeric(row[i], parse)]
    else row
  }

  function Coerce(t: Table, col: string, parse: string -> Option<real>): (r: Table)
    requires Rectangular(t)
    ensures Rectangular(r) && r.columns == t.columns && |r.rows| == |t.rows|
    ensures forall k :: 0 <= k < |t.rows| ==> r.rows[k] == CoerceRow(t.columns, t.rows[k], col, parse)
  {
    Table(t.columns, seq(|t.rows|, k requires 0 <= k < |t.rows| => CoerceRow(t.columns, t.rows[k], col, parse)))
  }

  /** `df[col] = pd.to_numeric(df[col], errors="coerce")` then `df[df[col] <op> bound]`,
      applied only when the table has the column: the kept rows are exactly the coerced
      rows whose value passes, in order. */
  function KeepWhere(t: Table, col: string, op: Order, bound: real, parse: string -> Option<real>): (r: Table)
    requires Rectangular(t)
    ensures Rectangular(r) && r.columns == t.columns && |r.rows| <= |t.rows|
    ensures col !in t.columns ==> r == t
    ensures col in t.columns ==> forall row :: row in r.rows <==>
      (exists k :: 0 <= k < |t.rows| && row == CoerceRow(t.columns, t.rows[k], col, parse)) &&
      Holds(Value(t.columns, row, col), op, bound)
  {
    if col !in t.columns then t
    else
      var c := Coerce(t, col, parse);
      var r := FilterRows(c, row => Holds(Value(t.columns, row, col), op, bound));
      assert forall row :: row in c.rows <==> exists k :: 0 <= k < |t.rows| && row == CoerceRow(t.columns, t.rows[k], col, parse) by {
        forall row
          ensures row in c.rows <==> exists k :: 0 <= k < |t.rows| && row == CoerceRow(t.columns, t.rows[k], col, parse)
        {
          if row in c.rows {
            var k :| 0 <= k < |c.rows| && c.rows[k] == row;
          }
        }
      }
      r
  }

  /** Every kept row passes the test. */
  lemma KeepWherePasses(t: Table, col: string, op: Order, bound: real, parse: string -> Option<real>)
    requires Rectangular(t) && col in t.columns
    ensures forall row :: row in KeepWhere(t, col, op, bound, parse).rows ==> Holds(Value(t.columns, row, col), op, bound)
  {
  }

  /** A property every cell of another column has survives the filter. */
  lemma KeepWhereOthers(t: Table, col: string, op: Order, bound: real, parse: string -> Option<real>,
                        c: string, p: Cell -> bool)
    requires Rectangular(t) && c != col
    requires forall k :: 0 <= k < |t.rows| ==> p(At(t, k, c))
    ensures forall row :: row in KeepWhere(t, col, op, bound, parse).rows ==> p(Value(t.columns, row, c))
  {
    var r := KeepWhere(t, col, op, bound, parse);
    if col in t.columns {
      forall row | row in r.rows
        ensures p(Value(t.columns, row, c))
      {
        var k :| 0 <= k < |t.rows| && row == CoerceRow(t.columns, t.rows[k], col, parse);
        assert Value(t.columns, row, c) == At(t, k, c);
      }
    } else {
      forall row | row in r.rows
        ensures p(Value(t.columns, row, c))
      {
        var k :| 0 <= k < |t.rows| && t.rows[k] == row;
        assert Value(t.columns, row, c) == At(t, k, c);
      }
    }
  }

  /** A property of every row of a table holds of every row of `KeepWhere` on another column. */
  lemma KeepWhereRows(t: Table, col: string, op: Order, bound: real, parse: string -> Option<real>,
                      c: string, p: Cell -> bool)
    requires Rectangular(t) && c != col
    requires forall row :: row in t.rows ==> p(Value(t.columns, row, c))
    ensures forall row :: row in KeepWhere(t, col, op, bound, parse).rows ==> p(Value(t.columns, row, c))
  {
    forall k | 0 <= k < |t.rows|
      ensures p(At(t, k, c))
    {
      assert t.rows[k] in t.rows;
    }
    KeepWhereOthers(t, col, op, bound, parse, c, p);
  }

  /** Every kept row is an input row, coerced when the table has the column, and passes
      the test when it does. */
  lemma KeepWhereFrom(t: Table, col: string, op: Order, bound: real, parse: string -> Option<real>, row: Row)
    returns (k: nat)
    requires Rectangular(t) && row in KeepWhere(t, col, op, bound, parse).rows
    ensures k < |t.rows| && row == CoerceRow(t.columns, t.rows[k], col, parse)
    ensures col in t.columns ==> Holds(Value(t.columns, row, col), op, bound)
  {
    if col !in t.columns {
      k :| 0 <= k < |t.rows| && t.rows[k] == row;
    } else {
      k :| 0 <= k < |t.rows| && row == CoerceRow(t.columns, t.rows[k], col, parse);
    }
  }

  /** An input row whose coerced value passes (or any row, without the column) is kept,
      coerced. */
  lemma KeepWhereKeeps(t: Table, col: string, op: Order, bound: real, parse: string -> Option<real>, k: nat)
    requires Rectangular(t) && k < |t.rows|
    requires col in t.columns ==> Holds(ToNumeric(At(t, k, col), parse), op, bound)
    ensures CoerceRow(t.columns, t.rows[k], col, parse) in KeepWhere(t, col, op, bound, parse).rows
  {
    if col !in t.columns {
      assert t.rows[k] in t.rows;
    }
  }

  // ---------------------------------------------------------------------------
  // one result file

  /** `df["Ancestry"] = ancestry` and so on: three constant columns. */
  function Annotate(t: Table, g: Groups): (r: Table)
    requires Rectangular(t)
    ensures Rectangular(r) && |r.rows| == |t.rows|
    ensures forall c :: c in r.columns <==> c in t.columns || c == Ancestry || c == Trait || c == VariantClass
    ensures forall k :: 0 <= k < |t.rows| ==>
      At(r, k, Ancestry) == Str(g.ancestry) && At(r, k, Trait) == Str(g.traitCode) && At(r, k, VariantClass) == Str(g.variantClass)
    ensures forall k, c :: 0 <= k < |t.rows| && c != Ancestry && c != Trait && c != VariantClass ==> At(r, k, c) == At(t, k, c)
  {
    var t1 := SetColumn(t, Ancestry, _ => Str(g.ancestry));
    var t2 := SetColumn(t1, Trait, _ => Str(g.traitCode));
    SetColumn(t2, VariantClass, _ => Str(g.variantClass))
  }

  /** Row `k` of a result file passes both filters: at least 100 cases and an allele
      frequency below 0.5, each read as a number and each tested only when the file has
      the column. */
  predicate RowKept(t: Table, k: nat, parse: string -> Option<real>)
    requires k < |t.rows|
  {
    (NCase in t.columns ==> Holds(ToNumeric(At(t, k, NCase), parse), GreaterEq, 100.0)) &&
    (AfAllele2 in t.columns ==> Holds(ToNumeric(At(t, k, AfAllele2), parse), Less, 0.5))
  }

  /** The cell the output holds under column `c` for row `k` of the file named by `g`: the
      name parts under the three tag columns, the number read from the cell under the two
      filtered columns, and the input cell everywhere else. */
  function OutputCell(t: Table, k: nat, g: Groups, c: string, parse: string -> Option<real>): Cell
    requires k < |t.rows|
  {
    if c == Ancestry then Str(g.ancestry)
    else if c == Trait then Str(g.traitCode)
    else if c == VariantClass then Str(g.variantClass)
    else if c == NCase || c == AfAllele2 then ToNumeric(At(t, k, c), parse)
    else At(t, k, c)
  }

  /** `row` (under `cols`) holds, in every column, the output cell for row `k`. */
  predicate OutputRow(cols: seq<string>, row: Row, t: Table, k: nat, g: Groups, parse: string -> Option<real>)
    requires k < |t.rows|
  {
    forall c :: c in cols ==> Value(cols, row, c) == OutputCell(t, k, g, c, parse)
  }

  /** One file of `combine_and_sort_results.py`: `None` for a skipped file (ADDITIVE in
      the name, or no match); otherwise the tagged rows that pass the `N_case` and
      `AF_Allele2` filters, each filter applied only when its column exists. */
  function ProcessFile(name: string, t: Table, parse: string -> Option<real>): (r: Option<Table>)
    requires Rectangular(t)
    ensures r.Some? <==> Used(name)
    ensures r.Some? ==> Rectangular(r.value) && |r.value.rows| <= |t.rows|
    ensures r.Some? ==> forall row :: row in r.value.rows ==>
      var g := ParseName(name, ResultPattern).value;
      Value(r.value.columns, row, Ancestry) == Str(g.ancestry) &&
      Value(r.value.columns, row, Trait) == Str(g.traitCode) &&
      Value(r.value.columns, row, VariantClass) == Str(g.variantClass)
    ensures r.Some? && NCase in t.columns ==>
      forall row :: row in r.value.rows ==> Holds(Value(r.value.columns, row, NCase), GreaterEq, 100.0)
    ensures r.Some? && AfAllele2 in t.columns ==>
      forall row :: row in r.value.rows ==> Holds(Value(r.value.columns, row, AfAllele2), Less, 0.5)
    ensures r.Some? ==> forall c :: c in r.value.columns <==> c in t.columns || c == Ancestry || c == Trait || c == VariantClass
    ensures r.Some? ==> forall row :: row in r.value.rows ==>
      (exists k :: 0 <= k < |t.rows| && RowKept(t, k, parse) &&
                   OutputRow(r.value.columns, row, t, k, ParseName(name, ResultPattern).value, parse))
    ensures r.Some? ==> forall k :: 0 <= k < |t.rows| && RowKept(t, k, parse) ==>
      (exists row :: row in r.value.rows && OutputRow(r.value.columns, row, t, k, ParseName(name, ResultPattern).value, parse))
  {
    if Excluded(name) then None
    else
      match ParseName(name, ResultPattern)
      case None => None
      case Some(g) =>
        var tagged := Annotate(t, g);
        var cased := KeepWhere(tagged, NCase, GreaterEq, 100.0, parse);
        var rare := KeepWhere(cased, AfAllele2, Less, 0.5, parse);
        FileFacts(t, g, parse, tagged, cased, rare);
        FileRows(t, g, parse, tagged, cased, rare);
        Some(rare)
  }

  /** The facts `ProcessFile` promises, step by step. */
  lemma FileFacts(t: Table, g: Groups, parse: string -> Option<real>, tagged: Table, cased: Table, rare: Table)
    requires Rectangular(t)
    requires tagged == Annotate(t, g)
    requires cased == KeepWhere(tagged, NCase, GreaterEq, 100.0, parse)
    requires rare == KeepWhere(cased, AfAllele2, Less, 0.5, parse)
    ensures forall row :: row in rare.rows ==>
      Value(rare.columns, row, Ancestry) == Str(g.ancestry) &&
      Value(rare.columns, row, Trait) == Str(g.traitCode) &&
      Value(rare.columns, row, VariantClass) == Str(g.variantClass)
    ensures NCase in t.columns ==>
      forall row :: row in rare.rows ==> Holds(Value(rare.columns, row, NCase), GreaterEq, 100.0)
    ensures AfAllele2 in t.columns ==>
      forall row :: row in rare.rows ==> Holds(Value(rare.columns, row, AfAllele2), Less, 0.5)
  {
    var tag := (c: Cell) => c == Str(g.ancestry);
    KeepWhereOthers(tagged, NCase, GreaterEq, 100.0, parse, Ancestry, c => c == Str(g.ancestry));
    KeepWhereRows(cased, AfAllele2, Less, 0.5, parse, Ancestry, c => c == Str(g.ancestry));
    KeepWhereOthers(tagged, NCase, GreaterEq, 100.0, parse, Trait, c => c == Str(g.traitCode));
    KeepWhereRows(cased, AfAllele2, Less, 0.5, parse, Trait, c => c == Str(g.traitCode));
    KeepWhereOthers(tagged, NCase, GreaterEq, 100.0, parse, VariantClass, c => c == Str(g.variantClass));
    KeepWhereRows(cased, AfAllele2, Less, 0.5, parse, VariantClass, c => c == Str(g.variantClass));
    if NCase in t.columns {
      KeepWherePasses(tagged, NCase, GreaterEq, 100.0, parse);
      KeepWhereRows(cased, AfAllele2, Less, 0.5, parse, NCase, c => Holds(c, GreaterEq, 100.0));
    }
    if AfAllele2 in t.columns {
      KeepWherePasses(cased, AfAllele2, Less, 0.5, parse);
    }
  }

  /** The rows of a processed file are exactly the output rows of the input rows that
      pass both filters. */
  lemma FileRows(t: Table, g: Groups, parse: string -> Option<real>, tagged: Table, cased: Table, rare: Table)
    requires Rectangular(t)
    requires tagged == Annotate(t, g)
    requires cased == KeepWhere(tagged, NCase, GreaterEq, 100.0, parse)
    requires rare == KeepWhere(cased, AfAllele2, Less, 0.5, parse)
    ensures forall row :: row in rare.rows ==>
      (exists k :: 0 <= k < |t.rows| && RowKept(t, k, parse) && OutputRow(rare.columns, row, t, k, g, parse))
    ensures forall k :: 0 <= k < |t.rows| && RowKept(t, k, parse) ==>
      (exists row :: row in rare.rows && OutputRow(rare.columns, row, t, k, g, parse))
  {
    forall row | row in rare.rows
      ensures exists k :: 0 <= k < |t.rows| && RowKept(t, k, parse) && OutputRow(rare.columns, row, t, k, g, parse)
    {
      FileRowFrom(t, g, parse, tagged, cased, rare, row);
    }
    forall k | 0 <= k < |t.rows| && RowKept(t, k, parse)
      ensures exists row :: row in rare.rows && OutputRow(rare.columns, row, t, k, g, parse)
    {
      FileRowFor(t, g, parse, tagged, cased, rare, k);
    }
  }

  /** Coercing `N_case` and then `AF_Allele2` in a tagged row gives the output row. */
  lemma OutputCells(t: Table, g: Groups, parse: string -> Option<real>, tagged: Table, k: nat, row1: Row, row: Row)
    requires Rectangular(t) && k < |t.rows| && tagged == Annotate(t, g)
    requires row1 == CoerceRow(tagged.columns, tagged.rows[k], NCase, parse)
    requires row == CoerceRow(tagged.columns, row1, AfAllele2, parse)
    ensures OutputRow(tagged.columns, row, t, k, g, parse)
  {
    var cols := tagged.columns;
    forall c | c in cols
      ensures Value(cols, row, c) == OutputCell(t, k, g, c, parse)
    {
      if c == AfAllele2 {
        assert Value(cols, row1, c) == At(tagged, k, c) == At(t, k, c);
      } else if c == NCase {
        assert Value(cols, row, c) == Value(cols, row1, c);
        assert At(tagged, k, c) == At(t, k, c);
      } else {
        assert Value(cols, row, c) == Value(cols, row1, c) == At(tagged, k, c);
      }
    }
  }

  /** Every row of a processed file is the output row of an input row that passes. */
  lemma FileRowFrom(t: Table, g: Groups, parse: string -> Option<real>, tagged: Table, cased: Table, rare: Table, row: Row)
    requires Rectangular(t)
    requires tagged == Annotate(t, g)
    requires cased == KeepWhere(tagged, NCase, GreaterEq, 100.0, parse)
    requires rare == KeepWhere(cased, AfAllele2, Less, 0.5, parse)
    requires row in rare.rows
    ensures exists k :: 0 <= k < |t.rows| && RowKept(t, k, parse) && OutputRow(rare.columns, row, t, k, g, parse)
  {
    var k1 := KeepWhereFrom(cased, AfAllele2, Less, 0.5, parse, row);
    var row1 := cased.rows[k1];
    assert row1 in cased.rows;
    var k := KeepWhereFrom(tagged, NCase, GreaterEq, 100.0, parse, row1);
    OutputCells(t, g, parse, tagged, k, row1, row);
    KeptFromPassing(t, g, parse, tagged, k, row1, row);
  }

  /** An output row whose coerced values passed both tests comes from a row that passes. */
  lemma KeptFromPassing(t: Table, g: Groups, parse: string -> Option<real>, tagged: Table, k: nat, row1: Row, row: Row)
    requires Rectangular(t) && k < |t.rows| && tagged == Annotate(t, g)
    requires row1 == CoerceRow(tagged.columns, tagged.rows[k], NCase, parse)
    requires row == CoerceRow(tagged.columns, row1, AfAllele2, parse)
    requires NCase in tagged.columns ==> Holds(Value(tagged.columns, row1, NCase), GreaterEq, 100.0)
    requires AfAllele2 in tagged.columns ==> Holds(Value(tagged.columns, row, AfAllele2), Less, 0.5)
    requires OutputRow(tagged.columns, row, t, k, g, parse)
    ensures RowKept(t, k, parse)
  {
    var cols := tagged.columns;
    if NCase in t.columns {
      assert Value(cols, row, NCase) == Value(cols, row1, NCase) == OutputCell(t, k, g, NCase, parse);
    }
    if AfAllele2 in t.columns {
      assert Value(cols, row, AfAllele2) == OutputCell(t, k, g, AfAllele2, parse);
    }
  }

  /** Every input row that passes has its output row in the processed file. */
  lemma FileRowFor(t: Table, g: Groups, parse: string -> Option<real>, tagged: Table, cased: Table, rare: Table, k: nat)
    requires Rectangular(t)
    requires tagged == Annotate(t, g)
    requires cased == KeepWhere(tagged, NCase, GreaterEq, 100.0, parse)
    requires rare == KeepWhere(cased, AfAllele2, Less, 0.5, parse)
    requires k < |t.rows| && RowKept(t, k, parse)
    ensures exists row :: row in rare.rows && OutputRow(rare.columns, row, t, k, g, parse)
  {
    assert At(tagged, k, NCase) == At(t, k, NCase);
    KeepWhereKeeps(tagged, NCase, GreaterEq, 100.0, parse, k);
    var row1 := CoerceRow(tagged.columns, tagged.rows[k], NCase, parse);
    var k1 :| 0 <= k1 < |cased.rows| && cased.rows[k1] == row1;
    assert At(cased, k1, AfAllele2) == Value(tagged.columns, row1, AfAllele2) == At(tagged, k, AfAllele2) == At(t, k, AfAllele2);
    KeepWhereKeeps(cased, AfAllele2, Less, 0.5, parse, k1);
    var row := CoerceRow(cased.columns, row1, AfAllele2, parse);
    OutputCells(t, g, parse, tagged, k, row1, row);
  }

  // ---------------------------------------------------------------------------
  // combining and sorting

  /** What `ProcessFile` makes of each file, in file order. */
  function Processed(files: seq<(string, Table)>, parse: string -> Option<real>): (ps: seq<Option<Table>>)
    requires forall i :: 0 <= i < |files| ==> Rectangular(files[i].1)
    ensures |ps| == |files|
    ensures forall i :: 0 <= i < |files| ==> ps[i] == ProcessFile(files[i].0, files[i].1, parse)
  {
    seq(|files|, i requires 0 <= i < |files| && Rectangular(files[i].1) => ProcessFile(files[i].0, files[i].1, parse))
  }

  /** `combine_and_sort_results.py` uses a file when its name lacks ADDITIVE and matches
      the result-name pattern. */
  predicate Used(name: string) {
    !Excluded(name) && ParseName(name, ResultPattern).Some?
  }

  /** Which files are used, as present and absent marks. */
  function UsedMarks(files: seq<(string, Table)>): (ms: seq<Option<()>>)
    ensures |ms| == |files| && forall i :: 0 <= i < |files| ==> (ms[i].Some? <==> Used(files[i].0))
  {
    seq(|files|, i requires 0 <= i < |files| => if Used(files[i].0) then Some(()) else None)
  }

  /** The positions of the used files, in increasing order. */
  function UsedFiles(files: seq<(string, Table)>): (ix: seq<nat>)
    ensures Increasing(ix)
    ensures forall j :: 0 <= j < |ix| ==> ix[j] < |files| && Used(files[ix[j]].0)
    ensures forall i :: 0 <= i < |files| && Used(files[i].0) ==> i in ix
  {
    SomeIndices(UsedMarks(files))
  }

  /** The tables of the files that are not skipped, in file order: one per used file, in
      increasing file position. */
  function FileTables(files: seq<(string, Table)>, parse: string -> Option<real>): (ts: seq<Table>)
    requires forall i :: 0 <= i < |files| ==> Rectangular(files[i].1)
    ensures |ts| <= |files|
    ensures forall t :: t in ts <==> exists i :: 0 <= i < |files| && ProcessFile(files[i].0, files[i].1, parse) == Some(t)
    ensures |ts| == |UsedFiles(files)|
    ensures forall j :: 0 <= j < |ts| ==>
      ProcessFile(files[UsedFiles(files)[j]].0, files[UsedFiles(files)[j]].1, parse) == Some(ts[j])
  {
    var ps := Processed(files, parse);
    SameSomeIndices(ps, UsedMarks(files));
    var ts := Somes(ps);
    assert forall t :: t in ts <==> exists i :: 0 <= i < |files| && ProcessFile(files[i].0, files[i].1, parse) == Some(t) by {
      forall t
        ensures t in ts <==> exists i :: 0 <= i < |files| && ProcessFile(files[i].0, files[i].1, parse) == Some(t)
      {
        ProcessedMember(files, parse, t);
      }
    }
    ts
  }

  lemma ProcessedMember(files: seq<(string, Table)>, parse: string -> Option<real>, t: Table)
    requires forall i :: 0 <= i < |files| ==> Rectangular(files[i].1)
    ensures Some(t) in Processed(files, parse) <==>
      exists i :: 0 <= i < |files| && ProcessFile(files[i].0, files[i].1, parse) == Some(t)
  {
    var ps := Processed(files, parse);
    if Some(t) in ps {
      var i :| 0 <= i < |ps| && ps[i] == Some(t);
      assert ProcessFile(files[i].0, files[i].1, parse) == Some(t);
    }
    if exists i :: 0 <= i < |files| && ProcessFile(files[i].0, files[i].1, parse) == Some(t) {
      var i :| 0 <= i < |files| && ProcessFile(files[i].0, files[i].1, parse) == Some(t);
      assert ps[i] == Some(t);
    }
  }

  /** Sort key: the numeric p-value, `None` for NaN. */
  function PValueKey(cols: seq<string>): Row -> Option<real> {
    row => AsNumber(Value(cols, row, PValue))
  }

  /** Every row of every table, table by table, realigned to `cols` and with its p-value
      coerced. */
  function CoercedRows(cols: seq<string>, ts: seq<Table>, parse: string -> Option<real>): (rows: seq<Row>)
    decreases |ts|
  {
    if |ts| == 0 then []
    else
      seq(|ts[0].rows|, k requires 0 <= k < |ts[0].rows| =>
        CoerceRow(cols, Realign(cols, ts[0].columns, ts[0].rows[k]), PValue, parse))
      + CoercedRows(cols, ts[1..], parse)
  }

  /** Coercing the concatenated table coerces each table's realigned rows in turn. */
  lemma {:induction false} CoercedConcat(cols: seq<string>, ts: seq<Table>, parse: string -> Option<real>)
    ensures Coerce(Table(cols, ConcatRows(cols, ts)), PValue, parse).rows == CoercedRows(cols, ts, parse)
    decreases |ts|
  {
    if |ts| > 0 {
      var head := RealignAll(cols, ts[0]);
      var tail := ConcatRows(cols, ts[1..]);
      assert ConcatRows(cols, ts) == head + tail;
      CoercedConcat(cols, ts[1..], parse);
      var l := Coerce(Table(cols, head + tail), PValue, parse).rows;
      var r := CoercedRows(cols, ts, parse);
      var tl := Coerce(Table(cols, tail), PValue, parse).rows;
      assert |l| == |r|;
      forall k | 0 <= k < |l|
        ensures l[k] == r[k]
      {
        if k >= |head| {
          assert (head + tail)[k] == tail[k - |head|];
          assert l[k] == tl[k - |head|];
        }
      }
    }
  }

  /** The concatenation and sort of `combine_and_sort_results.py`. `ValueError` when no
      table is left to concatenate, `KeyError` when none has a `p.value` column;
      otherwise every row, realigned to the union of the columns and with its p-value
      coerced to a number, sorted by p-value with NaN last. */
  function CombineTables(ts: seq<Table>, parse: string -> Option<real>): (r: Result<Table>)
    ensures r.Ok? <==> |ts| > 0 && PValue in UnionColumns(ts)
    ensures |ts| == 0 ==> r.Err? && r.error.ValueError?
    ensures |ts| > 0 && PValue !in UnionColumns(ts) ==> r == Err(KeyError(PValue))
    ensures r.Ok? ==> r.value.columns == UnionColumns(ts)
    ensures r.Ok? ==> |r.value.rows| == TotalRows(ts)
    ensures r.Ok? ==> SortedBy(r.value.rows, PValueKey(r.value.columns))
    ensures r.Ok? ==> forall n, k :: 0 <= n < |ts| && 0 <= k < |ts[n].rows| ==>
      CoerceRow(r.value.columns, Realign(r.value.columns, ts[n].columns, ts[n].rows[k]), PValue, parse) in r.value.rows
    ensures r.Ok? ==> multiset(r.value.rows) == multiset(Coerce(Concat(ts).value, PValue, parse).rows)
    ensures r.Ok? ==> multiset(r.value.rows) == multiset(CoercedRows(r.value.columns, ts, parse))
  {
    var combined :- Concat(ts);
    if PValue !in combined.columns then Err(KeyError(PValue))
    else
      var conv := Coerce(combined, PValue, parse);
      var sorted := SortBy(conv.rows, PValueKey(conv.columns));
      SortedKeeps(combined, conv, sorted, ts, parse);
      CoercedConcat(combined.columns, ts, parse);
      Ok(Table(conv.columns, sorted))
  }

  /** The whole of `combine_and_sort_results.py`: the tables of the files that are not
      skipped, combined and sorted. A run in which every file is skipped has nothing
      to concatenate; every kept row of every file reaches the output. */
  function CombineAndSort(files: seq<(string, Table)>, parse: string -> Option<real>): (r: Result<Table>)
    requires forall i :: 0 <= i < |files| ==> Rectangular(files[i].1)
    ensures (forall i :: 0 <= i < |files| ==> ProcessFile(files[i].0, files[i].1, parse).None?) ==>
      r.Err? && r.error.ValueError?
    ensures r.Ok? ==> forall i, k ::
      (0 <= i < |files| && ProcessFile(files[i].0, files[i].1, parse).Some? &&
       0 <= k < |ProcessFile(files[i].0, files[i].1, parse).value.rows|) ==>
        var t := ProcessFile(files[i].0, files[i].1, parse).value;
        CoerceRow(r.value.columns, Realign(r.value.columns, t.columns, t.rows[k]), PValue, parse) in r.value.rows
    ensures r.Ok? ==> multiset(r.value.rows) == multiset(Coerce(Concat(FileTables(files, parse)).value, PValue, parse).rows)
  {
    var ts := FileTables(files, parse);
    var r := CombineTables(ts, parse);
    FilesReachOutput(files, parse, ts, r);
    r
  }

  lemma FilesReachOutput(files: seq<(string, Table)>, parse: string -> Option<real>, ts: seq<Table>, r: Result<Table>)
    requires forall i :: 0 <= i < |files| ==> Rectangular(files[i].1)
    requires ts == FileTables(files, parse) && r == CombineTables(ts, parse)
    ensures (forall i :: 0 <= i < |files| ==> ProcessFile(files[i].0, files[i].1, parse).None?) ==>
      r.Err? && r.error.ValueError?
    ensures r.Ok? ==> forall i, k ::
      (0 <= i < |files| && ProcessFile(files[i].0, files[i].1, parse).Some? &&
       0 <= k < |ProcessFile(files[i].0, files[i].1, parse).value.rows|) ==>
        var t := ProcessFile(files[i].0, files[i].1, parse).value;
        CoerceRow(r.value.columns, Realign(r.value.columns, t.columns, t.rows[k]), PValue, parse) in r.value.rows
  {
    if forall i :: 0 <= i < |files| ==> ProcessFile(files[i].0, files[i].1, parse).None? {
      assert |UsedFiles(files)| == 0;
    }
    if r.Ok? {
      forall i, k | 0 <= i < |files| && ProcessFile(files[i].0, files[i].1, parse).Some? &&
        0 <= k < |ProcessFile(files[i].0, files[i].1, parse).value.rows|
        ensures var t := ProcessFile(files[i].0, files[i].1, parse).value;
          CoerceRow(r.value.columns, Realign(r.value.columns, t.columns, t.rows[k]), PValue, parse) in r.value.rows
      {
        var t := ProcessFile(files[i].0, files[i].1, parse).value;
        assert t in ts;
        TableRowReaches(ts, parse, t, k);
      }
    }
  }

  /** A row of a table that takes part in the combination reaches the output. */
  lemma TableRowReaches(ts: seq<Table>, parse: string -> Option<real>, t: Table, k: nat)
    requires t in ts && k < |t.rows| && CombineTables(ts, parse).Ok?
    ensures var r := CombineTables(ts, parse).value;
            CoerceRow(r.columns, Realign(r.columns, t.columns, t.rows[k]), PValue, parse) in r.rows
  {
    var n :| 0 <= n < |ts| && ts[n] == t;
  }

  lemma SortedKeeps(combined: Table, conv: Table, sorted: seq<Row>, ts: seq<Table>, parse: string -> Option<real>)
    requires Rectangular(combined)
    requires forall n, k :: 0 <= n < |ts| && 0 <= k < |ts[n].rows| ==>
      Realign(combined.columns, ts[n].columns, ts[n].rows[k]) in combined.rows
    requires conv == Coerce(combined, PValue, parse)
    requires multiset(sorted) == multiset(conv.rows)
    ensures forall n, k :: 0 <= n < |ts| && 0 <= k < |ts[n].rows| ==>
      CoerceRow(combined.columns, Realign(combined.columns, ts[n].columns, ts[n].rows[k]), PValue, parse) in sorted
    ensures |sorted| == |conv.rows|
  {
    assert |multiset(sorted)| == |multiset(conv.rows)|;
    forall n, k | 0 <= n < |ts| && 0 <= k < |ts[n].rows|
      ensures CoerceRow(combined.columns, Realign(combined.columns, ts[n].columns, ts[n].rows[k]), PValue, parse) in sorted
    {
      var row := Realign(combined.columns, ts[n].columns, ts[n].rows[k]);
      var i :| 0 <= i < |combined.rows| && combined.rows[i] == row;
      assert conv.rows[i] in multiset(conv.rows);
    }
  }

  // ---------------------------------------------------------------------------
  // high allele-frequency combinations

  /** A (marker, ancestry, variant class) triple. */
  datatype Combo = Combo(gene: Cell, ancestry: string, variantClass: string)

  /** `df["AF_Allele2"] >= 0.5` on one row, without coercion: a string raises. */
  function CommonTest(cols: seq<string>): Row -> Result<bool> {
    row => Compare(Value(cols, row, AfAllele2), GreaterEq, Real(0.5))
  }

  /** The triple a common-allele row of a file with name groups `g` contributes. */
  function ComboOf(cols: seq<string>, g: Groups, row: Row): Combo {
    Combo(Value(cols, row, MarkerId), g.ancestry, g.variantClass)
  }

  /** One file of `extract_high_AF_combos.py`: nothing from a name that does not match;
      otherwise the combinations of `GroupCombos`. ADDITIVE files are not skipped here. */
  function FileCombos(name: string, t: Table): (r: Result<set<Combo>>)
    requires Rectangular(t)
    ensures ParseName(name, ResultPattern).None? ==> r == Ok({})
    ensures forall g :: ParseName(name, ResultPattern) == Some(g) ==> r == GroupCombos(g, t)
  {
    match ParseName(name, ResultPattern)
    case None => Ok({})
    case Some(g) => GroupCombos(g, t)
  }

  /** The combinations of one matched file: nothing from a table lacking `MarkerID` or
      `AF_Allele2`, a `TypeError` when some frequency is text, and otherwise the triple of
      every row whose allele frequency is at least 0.5. */
  function GroupCombos(g: Groups, t: Table): (r: Result<set<Combo>>)
    requires Rectangular(t)
    ensures r.Err? ==> r.error.TypeError?
    ensures MarkerId !in t.columns || AfAllele2 !in t.columns ==> r == Ok({})
    ensures r.Ok? <==> (MarkerId !in t.columns || AfAllele2 !in t.columns ||
                        forall k :: 0 <= k < |t.rows| ==> CommonTest(t.columns)(t.rows[k]).Ok?)
    ensures r.Ok? && MarkerId in t.columns && AfAllele2 in t.columns ==> forall c :: c in r.value <==>
      exists k :: 0 <= k < |t.rows| && CommonTest(t.columns)(t.rows[k]) == Ok(true) &&
        c == Combo(At(t, k, MarkerId), g.ancestry, g.variantClass)
  {
    if MarkerId !in t.columns || AfAllele2 !in t.columns then Ok({})
    else
      var common :- FilterRowsChecked(t, CommonTest(t.columns));
      var combos := set row | row in common.rows :: ComboOf(t.columns, g, row);
      CombosOfCommon(t, common, g, combos);
      Ok(combos)
  }

  lemma CombosOfCommon(t: Table, common: Table, g: Groups, combos: set<Combo>)
    requires forall row :: row in common.rows <==> row in t.rows && CommonTest(t.columns)(row) == Ok(true)
    requires combos == set row | row in common.rows :: ComboOf(t.columns, g, row)
    ensures forall c :: c in combos <==>
      exists k :: 0 <= k < |t.rows| && CommonTest(t.columns)(t.rows[k]) == Ok(true) &&
        c == Combo(At(t, k, MarkerId), g.ancestry, g.variantClass)
  {
    forall c
      ensures c in combos <==>
        exists k :: 0 <= k < |t.rows| && CommonTest(t.columns)(t.rows[k]) == Ok(true) &&
          c == Combo(At(t, k, MarkerId), g.ancestry, g.variantClass)
    {
      if c in combos {
        var row :| row in common.rows && c == ComboOf(t.columns, g, row);
        var k :| 0 <= k < |t.rows| && t.rows[k] == row;
      }
      if exists k :: 0 <= k < |t.rows| && CommonTest(t.columns)(t.rows[k]) == Ok(true) &&
          c == Combo(At(t, k, MarkerId), g.ancestry, g.variantClass) {
        var k :| 0 <= k < |t.rows| && CommonTest(t.columns)(t.rows[k]) == Ok(true) &&
          c == Combo(At(t, k, MarkerId), g.ancestry, g.variantClass);
        assert t.rows[k] in common.rows;
        assert c == ComboOf(t.columns, g, t.rows[k]);
      }
    }
  }

  /** The whole of `extract_high_AF_combos.py`: the union over all files, duplicates
      collapsing; the first file whose comparison raises fails the run. */
  function HighAfCombos(files: seq<(string, Table)>): (r: Result<set<Combo>>)
    requires forall i :: 0 <= i < |files| ==> Rectangular(files[i].1)
    ensures r.Ok? <==> forall i :: 0 <= i < |files| ==> FileCombos(files[i].0, files[i].1).Ok?
    ensures r.Err? ==> r.error.TypeError?
    ensures r.Ok? ==> forall c :: c in r.value <==>
      exists i :: 0 <= i < |files| && c in FileCombos(files[i].0, files[i].1).value
    decreases |files|
  {
    if |files| == 0 then Ok({})
    else
      assert forall i :: 1 <= i < |files| ==> files[i] == files[1..][i - 1];
      var first :- FileCombos(files[0].0, files[0].1);
      var rest :- HighAfCombos(files[1..]);
      CombosUnion(files, first, rest);
      Ok(first + rest)
  }

  /** The union of the first file's combinations with those of the rest. */
  lemma CombosUnion(files: seq<(string, Table)>, first: set<Combo>, rest: set<Combo>)
    requires |files| > 0 && forall i :: 0 <= i < |files| ==> Rectangular(files[i].1)
    requires forall i :: 0 <= i < |files| ==> FileCombos(files[i].0, files[i].1).Ok?
    requires first == FileCombos(files[0].0, files[0].1).value
    requires forall c :: c in rest <==> exists i :: 1 <= i < |files| && c in FileCombos(files[i].0, files[i].1).value
    ensures forall c :: c in first + rest <==> exists i :: 0 <= i < |files| && c in FileCombos(files[i].0, files[i].1).value
  {
    forall c | c in first + rest
      ensures exists i :: 0 <= i < |files| && c in FileCombos(files[i].0, files[i].1).value
    {
      if c !in first {
        var i :| 1 <= i < |files| && c in FileCombos(files[i].0, files[i].1).value;
      }
    }
    forall c | exists i :: 0 <= i < |files| && c in FileCombos(files[i].0, files[i].1).value
      ensures c in first + rest
    {
      var i :| 0 <= i < |files| && c in FileCombos(files[i].0, files[i].1).value;
      if i > 0 {
        assert c in rest;
      }
    }
  }

  /** On a numeric allele frequency the two scripts split the rows: a row passes the
      `< 0.5` filter exactly when it fails the `>= 0.5` one. A NaN frequency passes
      neither, and a string is coerced to NaN by the first script but raises in the
      second. */
  lemma AfComplement(c: Cell, parse: string -> Option<real>)
    ensures AsNumber(c).Some? ==>
      (Holds(ToNumeric(c, parse), Less, 0.5) <==> Compare(c, GreaterEq, Real(0.5)) == Ok(false))
    ensures c.Missing? ==>
      !Holds(ToNumeric(c, parse), Less, 0.5) && Compare(c, GreaterEq, Real(0.5)) == Ok(false)
    ensures c.Str? ==> Compare(c, GreaterEq, Real(0.5)).Err?
  {
  }
}

=== FILE: seqs.dfy ===
/** Generic sequence operations the scripts lean on through pandas and Python:
    boolean-mask filtering, `dict(zip(...))` with last-wins duplicates, and sorting
    by a possibly-missing numeric key with missing keys last.
 */
module Seqs {
  import opened Wrappers

  // ---------------------------------------------------------------------------
  // filtering

  /** Keep the elements satisfying `p`, in order (a pandas boolean mask). */
  function Filter<T(!new)>(s: seq<T>, p: T -> bool): (r: seq<T>)
    ensures |r| <= |s|
    ensures forall x :: x in r <==> x in s && p(x)
    decreases |s|
  {
    if |s| == 0 then []
    else
      assert s == [s[0]] + s[1..];
      (if p(s[0]) then [s[0]] else []) + Filter(s[1..], p)
  }

  /** The filter keeps every copy of an element that passes and none of one that fails. */
  lemma {:induction false} FilterMultiset<T(!new)>(s: seq<T>, p: T -> bool)
    ensures forall x :: multiset(Filter(s, p))[x] == if p(x) then multiset(s)[x] else 0
    decreases |s|
  {
    if |s| > 0 {
      FilterMultiset(s[1..], p);
      assert s == [s[0]] + s[1..];
    }
  }

  /** Filtering a concatenation filters each part: the kept elements stay in input order. */
  lemma {:induction false} FilterConcat<T(!new)>(a: seq<T>, b: seq<T>, p: T -> bool)
    ensures Filter(a + b, p) == Filter(a, p) + Filter(b, p)
    decreases |a|
  {
    if |a| > 0 {
      assert (a + b)[1..] == a[1..] + b;
      FilterConcat(a[1..], b, p);
    } else {
      assert a + b == b;
    }
  }

  /** A filter that every element passes keeps everything. */
  lemma {:induction false} FilterAll<T(!new)>(s: seq<T>, p: T -> bool)
    requires forall i :: 0 <= i < |s| ==> p(s[i])
    ensures Filter(s, p) == s
    decreases |s|
  {
    if |s| > 0 {
      FilterAll(s[1..], p);
    }
  }

  /** A filter that no element passes keeps nothing. */
  lemma {:induction false} FilterNone<T(!new)>(s: seq<T>, p: T -> bool)
    requires forall x :: x in s ==> !p(x)
    ensures Filter(s, p) == []
    decreases |s|
  {
    if |s| > 0 {
      assert forall x :: x in s[1..] ==> x in s;
      FilterNone(s[1..], p);
    }
  }

  /** Applying the same filter twice is the same as applying it once. */
  lemma FilterIdempotent<T(!new)>(s: seq<T>, p: T -> bool)
    ensures Filter(Filter(s, p), p) == Filter(s, p)
  {
    var r := Filter(s, p);
    forall i | 0 <= i < |r|
      ensures p(r[i])
    {
      assert r[i] in r;
    }
    FilterAll(r, p);
  }

  /** Two filters in a row keep what their conjunction keeps. */
  lemma {:induction false} FilterFilter<T(!new)>(s: seq<T>, p: T -> bool, q: T -> bool)
    ensures Filter(Filter(s, p), q) == Filter(s, x => p(x) && q(x))
    decreases |s|
  {
    if |s| > 0 {
      FilterFilter(s[1..], p, q);
      var head := if p(s[0]) then [s[0]] else [];
      FilterConcat(head, Filter(s[1..], p), q);
    }
  }

  /** Sequences with the same elements (as multisets) have equally many elements passing a filter. */
  lemma FilterPermutation<T(!new)>(a: seq<T>, b: seq<T>, p: T -> bool)
    requires multiset(a) == multiset(b)
    ensures |Filter(a, p)| == |Filter(b, p)|
  {
    FilterMultiset(a, p);
    FilterMultiset(b, p);
    assert multiset(Filter(a, p)) == multiset(Filter(b, p));
    assert |multiset(Filter(a, p))| == |Filter(a, p)|;
    assert |multiset(Filter(b, p))| == |Filter(b, p)|;
  }

  /** `f` applied to every element, in order. */
  function Map<A, B>(s: seq<A>, f: A -> B): (r: seq<B>)
    ensures |r| == |s| && forall i :: 0 <= i < |s| ==> r[i] == f(s[i])
  {
    seq(|s|, i requires 0 <= i < |s| => f(s[i]))
  }

  lemma MapCons<A, B>(x: A, s: seq<A>, f: A -> B)
    ensures Map([x] + s, f) == [f(x)] + Map(s, f)
  {
    var l := Map([x] + s, f);
    var r := [f(x)] + Map(s, f);
    forall i | 0 <= i < |l|
      ensures l[i] == r[i]
    {
      if i > 0 {
        assert ([x] + s)[i] == s[i - 1];
      }
    }
  }

  /** Number of elements satisfying `p`. */
  function Count<T(!new)>(s: seq<T>, p: T -> bool): (n: nat)
    ensures n <= |s|
  {
    |Filter(s, p)|
  }

  /** When the elements `p` accepts all share one key and the keys of `s` are distinct,
      `p` accepts at most one element of `s`. */
  lemma {:induction false} FilterAtMostOne<T(!new), K>(s: seq<T>, p: T -> bool, key: T -> K)
    requires forall i, j :: 0 <= i < j < |s| ==> key(s[i]) != key(s[j])
    requires forall x, y :: x in s && y in s && p(x) && p(y) ==> key(x) == key(y)
    ensures |Filter(s, p)| <= 1
    decreases |s|
  {
    if |s| > 0 {
      var rest := s[1..];
      assert forall i, j :: 0 <= i < j < |rest| ==> rest[i] == s[i + 1] && rest[j] == s[j + 1];
      assert forall x :: x in rest ==> x in s;
      if p(s[0]) {
        forall y | y in rest
          ensures !p(y)
        {
          var j :| 0 <= j < |rest| && rest[j] == y;
          assert key(s[0]) != key(s[j + 1]);
        }
        FilterNone(rest, p);
      } else {
        FilterAtMostOne(rest, p, key);
      }
    }
  }

  // ---------------------------------------------------------------------------
  // dict(zip(keys, values))

  /** Python `dict(pairs)`: keys inserted left to right, so a repeated key keeps its last value. */
  function ToMap<K(!new), V>(pairs: seq<(K, V)>): (m: map<K, V>)
    ensures forall k :: k in m <==> exists i :: 0 <= i < |pairs| && pairs[i].0 == k
    decreases |pairs|
  {
    if |pairs| == 0 then map[]
    else
      var init := pairs[..|pairs| - 1];
      assert forall i :: 0 <= i < |init| ==> init[i] == pairs[i];
      ToMap(init)[pairs[|pairs| - 1].0 := pairs[|pairs| - 1].1]
  }

  /** For a repeated key the last pair wins. */
  lemma {:induction false} ToMapLastWins<K(!new), V>(pairs: seq<(K, V)>, i: nat)
    requires i < |pairs|
    requires forall j :: i < j < |pairs| ==> pairs[j].0 != pairs[i].0
    ensures pairs[i].0 in ToMap(pairs) && ToMap(pairs)[pairs[i].0] == pairs[i].1
    decreases |pairs|
  {
    if i < |pairs| - 1 {
      var init := pairs[..|pairs| - 1];
      ToMapLastWins(init, i);
    }
  }

  // ---------------------------------------------------------------------------
  // sorting by a numeric key, missing keys last

  /** The order pandas `sort_values(ascending=True)` uses: numbers ascending, NaN last. */
  predicate KeyLe(a: Option<real>, b: Option<real>) {
    match a
    case None => b.None?
    case Some(x) => b.None? || x <= b.value
  }

  predicate SortedBy<T>(s: seq<T>, key: T -> Option<real>) {
    forall i, j :: 0 <= i < j < |s| ==> KeyLe(key(s[i]), key(s[j]))
  }

  lemma KeyLeTotal(a: Option<real>, b: Option<real>)
    ensures KeyLe(a, b) || KeyLe(b, a)
  {
  }

  /** Putting a smallest element in front of a sorted sequence keeps it sorted. */
  lemma SortedCons<T>(h: T, rest: seq<T>, key: T -> Option<real>)
    requires SortedBy(rest, key)
    requires forall y :: y in rest ==> KeyLe(key(h), key(y))
    ensures SortedBy([h] + rest, key)
  {
    var r := [h] + rest;
    forall i, j | 0 <= i < j < |r|
      ensures KeyLe(key(r[i]), key(r[j]))
    {
      if i == 0 {
        assert r[j] == rest[j - 1];
        assert rest[j - 1] in rest;
      } else {
        assert r[i] == rest[i - 1] && r[j] == rest[j - 1];
      }
    }
  }

  function Insert<T>(x: T, s: seq<T>, key: T -> Option<real>): (r: seq<T>)
    requires SortedBy(s, key)
    ensures SortedBy(r, key)
    ensures multiset(r) == multiset(s) + multiset{x}
    decreases |s|
  {
    if |s| == 0 then [x]
    else if KeyLe(key(x), key(s[0])) then
      InsertFront(x, s, key);
      [x] + s
    else
      var rest := Insert(x, s[1..], key);
      InsertBehind(x, s, rest, key);
      [s[0]] + rest
  }

  lemma InsertFront<T>(x: T, s: seq<T>, key: T -> Option<real>)
    requires SortedBy(s, key) && |s| > 0 && KeyLe(key(x), key(s[0]))
    ensures SortedBy([x] + s, key)
  {
    forall y | y in s
      ensures KeyLe(key(x), key(y))
    {
      var k :| 0 <= k < |s| && s[k] == y;
      if k > 0 {
        assert KeyLe(key(s[0]), key(s[k]));
      }
    }
    SortedCons(x, s, key);
  }

  lemma InsertBehind<T>(x: T, s: seq<T>, rest: seq<T>, key: T -> Option<real>)
    requires SortedBy(s, key) && |s| > 0 && !KeyLe(key(x), key(s[0]))
    requires SortedBy(rest, key) && multiset(rest) == multiset(s[1..]) + multiset{x}
    ensures SortedBy([s[0]] + rest, key)
    ensures multiset([s[0]] + rest) == multiset(s) + multiset{x}
  {
    assert s == [s[0]] + s[1..];
    forall y | y in rest
      ensures KeyLe(key(s[0]), key(y))
    {
      assert y in multiset(rest);
      if y == x {
        KeyLeTotal(key(x), key(s[0]));
      } else {
        assert y in multiset(s[1..]);
        assert y in s[1..];
        var k :| 1 <= k < |s| && s[k] == y;
      }
    }
    SortedCons(s[0], rest, key);
  }

  /** A stable insertion sort by `key`. */
  function SortBy<T>(s: seq<T>, key: T -> Option<real>): (r: seq<T>)
    ensures SortedBy(r, key)
    ensures multiset(r) == multiset(s)
    decreases |s|
  {
    if |s| == 0 then []
    else
      assert s == [s[0]] + s[1..];
      Insert(s[0], SortBy(s[1..], key), key)
  }

  /** In a sorted sequence every missing key comes after every present one. */
  lemma MissingKeysLast<T>(s: seq<T>, key: T -> Option<real>, i: nat, j: nat)
    requires SortedBy(s, key) && i < j < |s|
    requires key(s[i]).None?
    ensures key(s[j]).None?
  {
  }

  // ---------------------------------------------------------------------------
  // Python `list(dict.fromkeys(s))`: distinct elements in order of first appearance

  function Distinct<T(==,!new)>(s: seq<T>): (r: seq<T>)
    ensures forall x :: x in r <==> x in s
    ensures forall i, j :: 0 <= i < j < |r| ==> r[i] != r[j]
    decreases |s|
  {
    if |s| == 0 then []
    else
      var rest := Distinct(s[..|s| - 1]);
      assert forall x :: x in s[..|s| - 1] ==> x in s;
      assert s == s[..|s| - 1] + [s[|s| - 1]];
      if s[|s| - 1] in rest then rest else rest + [s[|s| - 1]]
  }

  // ---------------------------------------------------------------------------
  // the largest measure over a list

  /** The largest `f` over `s`, zero when `s` is empty. */
  function MaxOf<T>(s: seq<T>, f: T -> nat): (k: nat)
    ensures forall i :: 0 <= i < |s| ==> f(s[i]) <= k
    ensures |s| > 0 ==> exists i :: 0 <= i < |s| && f(s[i]) == k
    ensures |s| == 0 ==> k == 0
    decreases |s|
  {
    if |s| == 0 then 0
    else
      var w := MaxOf(s[1..], f);
      assert forall i :: 1 <= i < |s| ==> s[i] == s[1..][i - 1];
      if f(s[0]) >= w then f(s[0])
      else
        var i :| 0 <= i < |s[1..]| && f(s[1..][i]) == w;
        assert f(s[i + 1]) == w;
        w
  }

  // ---------------------------------------------------------------------------
  // a loop that applies a step to every element and stops at the first exception

  /** `f` applied to every element in order, or the error of the first element it fails on. */
  function Traverse<A, B>(s: seq<A>, f: A -> Result<B>): (r: Result<seq<B>>)
    ensures r.Ok? <==> forall i :: 0 <= i < |s| ==> f(s[i]).Ok?
    ensures r.Ok? ==> |r.value| == |s| && forall i :: 0 <= i < |s| ==> r.value[i] == f(s[i]).value
    ensures r.Err? ==> exists i :: 0 <= i < |s| && f(s[i]) == Err(r.error) && forall j :: 0 <= j < i ==> f(s[j]).Ok?
    decreases |s|
  {
    if |s| == 0 then Ok([])
    else
      var x :- f(s[0]);
      var rest := Traverse(s[1..], f);
      assert forall i :: 1 <= i < |s| ==> s[i] == s[1..][i - 1];
      if rest.Err? then Err(rest.error) else Ok([x] + rest.value)
  }

  // ---------------------------------------------------------------------------
  // the present values of a list of options, in order (a loop with `continue`)

  /** Positions in strictly increasing order. */
  predicate Increasing(ix: seq<nat>) {
    forall j, j' :: 0 <= j < j' < |ix| ==> ix[j] < ix[j']
  }

  /** The positions of the present values of `s`, in increasing order. */
  function SomeIndices<T>(s: seq<Option<T>>): (ix: seq<nat>)
    ensures |ix| <= |s|
    ensures forall j :: 0 <= j < |ix| ==> ix[j] < |s| && s[ix[j]].Some?
    ensures Increasing(ix)
    ensures forall i :: 0 <= i < |s| && s[i].Some? ==> i in ix
    decreases |s|
  {
    if |s| == 0 then []
    else
      var rest := SomeIndices(s[1..]);
      ShiftedIncreasing(rest);
      if s[0].Some? then
        ConsIndices(s, rest);
        [0] + Shifted(rest)
      else
        ShiftedPresent(s, rest);
        Shifted(rest)
  }

  /** When the head is present, its position followed by the present positions of the
      tail, one further on, are the present positions of `s`. */
  lemma ConsIndices<T>(s: seq<Option<T>>, rest: seq<nat>)
    requires |s| > 0 && s[0].Some?
    requires forall j :: 0 <= j < |rest| ==> rest[j] < |s| - 1 && s[1..][rest[j]].Some?
    requires forall i :: 0 <= i < |s| - 1 && s[1..][i].Some? ==> i in rest
    ensures forall j :: 0 <= j < |[0] + Shifted(rest)| ==> ([0] + Shifted(rest))[j] < |s| && s[([0] + Shifted(rest))[j]].Some?
    ensures forall i :: 0 <= i < |s| && s[i].Some? ==> i in [0] + Shifted(rest)
  {
    var shifted := Shifted(rest);
    var ix := [0] + shifted;
    ShiftedPresent(s, rest);
    forall j | 0 <= j < |ix|
      ensures ix[j] < |s| && s[ix[j]].Some?
    {
      if j > 0 {
        assert ix[j] == shifted[j - 1];
      }
    }
    forall i | 0 <= i < |s| && s[i].Some?
      ensures i in ix
    {
      if i > 0 {
        var j :| 0 <= j < |shifted| && shifted[j] == i;
        assert ix[j + 1] == i;
      }
    }
  }

  /** The present positions of the tail, one further on, are those of `s` after its head. */
  lemma ShiftedPresent<T>(s: seq<Option<T>>, rest: seq<nat>)
    requires |s| > 0
    requires forall j :: 0 <= j < |rest| ==> rest[j] < |s| - 1 && s[1..][rest[j]].Some?
    requires forall i :: 0 <= i < |s| - 1 && s[1..][i].Some? ==> i in rest
    ensures forall j :: 0 <= j < |rest| ==> 0 < Shifted(rest)[j] < |s| && s[Shifted(rest)[j]].Some?
    ensures forall i :: 1 <= i < |s| && s[i].Some? ==> i in Shifted(rest)
  {
    var shifted := Shifted(rest);
    forall j | 0 <= j < |rest|
      ensures shifted[j] < |s| && s[shifted[j]].Some?
    {
      assert s[1..][rest[j]] == s[shifted[j]];
    }
    forall i | 1 <= i < |s| && s[i].Some?
      ensures i in shifted
    {
      assert s[1..][i - 1] == s[i];
      var j :| 0 <= j < |rest| && rest[j] == i - 1;
      assert shifted[j] == i;
    }
  }

  /** Every position one further on. */
  function Shifted(ix: seq<nat>): (r: seq<nat>)
    ensures |r| == |ix| && forall j :: 0 <= j < |ix| ==> r[j] == ix[j] + 1
  {
    seq(|ix|, j requires 0 <= j < |ix| => ix[j] + 1)
  }

  /** Shifting keeps the order, and leaves room for position 0 in front. */
  lemma ShiftedIncreasing(ix: seq<nat>)
    requires Increasing(ix)
    ensures Increasing(Shifted(ix)) && Increasing([0] + Shifted(ix))
  {
    var shifted := Shifted(ix);
    assert forall j :: 1 <= j < |[0] + shifted| ==> ([0] + shifted)[j] == shifted[j - 1];
  }

  /** Two sequences with their present values at the same positions have the same present
      positions. */
  lemma {:induction false} SameSomeIndices<A, B>(a: seq<Option<A>>, b: seq<Option<B>>)
    requires |a| == |b| && forall i :: 0 <= i < |a| ==> (a[i].Some? <==> b[i].Some?)
    ensures SomeIndices(a) == SomeIndices(b)
    decreases |a|
  {
    if |a| > 0 {
      assert forall i :: 0 <= i < |a| - 1 ==> a[1..][i] == a[i + 1] && b[1..][i] == b[i + 1];
      SameSomeIndices(a[1..], b[1..]);
    }
  }

  /** The present values of `s`, in order: value `j` comes from the `j`th present
      position. */
  function Somes<T(!new)>(s: seq<Option<T>>): (r: seq<T>)
    ensures |r| <= |s|
    ensures forall x :: x in r <==> Some(x) in s
    ensures |r| == 0 <==> forall i :: 0 <= i < |s| ==> s[i].None?
    ensures |r| == |SomeIndices(s)| && forall j :: 0 <= j < |r| ==> s[SomeIndices(s)[j]] == Some(r[j])
  {
    var ix := SomeIndices(s);
    var r := seq(|ix|, j requires 0 <= j < |ix| => s[ix[j]].value);
    PresentValues(s, ix, r);
    r
  }

  /** Values read off every present position are exactly the present values. */
  lemma PresentValues<T(!new)>(s: seq<Option<T>>, ix: seq<nat>, r: seq<T>)
    requires |r| == |ix| && forall j :: 0 <= j < |ix| ==> ix[j] < |s| && s[ix[j]] == Some(r[j])
    requires forall i :: 0 <= i < |s| && s[i].Some? ==> i in ix
    ensures forall x :: x in r <==> Some(x) in s
    ensures |r| == 0 <==> forall i :: 0 <= i < |s| ==> s[i].None?
  {
    forall x | Some(x) in s
      ensures x in r
    {
      var i :| 0 <= i < |s| && s[i] == Some(x);
      var j :| 0 <= j < |ix| && ix[j] == i;
      assert r[j] == x;
    }
    if |r| > 0 {
      assert s[ix[0]].Some?;
    }
  }

  // ---------------------------------------------------------------------------
  // nested-loop pairing: the row order of a pandas merge

  /** The elements of `ys` that `x` matches, in order. */
  function MatchesOf<A, B(!new)>(x: A, ys: seq<B>, m: (A, B) -> bool): (r: seq<B>)
    ensures forall y :: y in r <==> y in ys && m(x, y)
  {
    Filter(ys, y => m(x, y))
  }

  /** When the right elements have distinct keys and every match of `x` has the same
      key, `x` has at most one match. */
  lemma MatchesAtMostOne<A, B(!new), K>(x: A, ys: seq<B>, m: (A, B) -> bool, key: B -> K)
    requires forall i, j :: 0 <= i < j < |ys| ==> key(ys[i]) != key(ys[j])
    requires forall y, z :: y in ys && z in ys && m(x, y) && m(x, z) ==> key(y) == key(z)
    ensures |MatchesOf(x, ys, m)| <= 1
  {
    FilterAtMostOne(ys, y => m(x, y), key);
  }

  /** Every matching pair, ordered by the left element and then by the right one
      (the row order of a pandas inner merge). */
  function Pairs<A(!new), B(!new)>(xs: seq<A>, ys: seq<B>, m: (A, B) -> bool): (ps: seq<(A, B)>)
    ensures forall p :: p in ps <==> p.0 in xs && p.1 in ys && m(p.0, p.1)
    decreases |xs|
  {
    if |xs| == 0 then []
    else
      var ms := MatchesOf(xs[0], ys, m);
      var here := seq(|ms|, i requires 0 <= i < |ms| => (xs[0], ms[i]));
      assert forall p :: p in here <==> p.0 == xs[0] && p.1 in ms by {
        forall p: (A, B) | p.0 == xs[0] && p.1 in ms
          ensures p in here
        {
          var i :| 0 <= i < |ms| && ms[i] == p.1;
          assert here[i] == p;
        }
      }
      assert xs == [xs[0]] + xs[1..];
      here + Pairs(xs[1..], ys, m)
  }

  /** One left element with each of its matches, or alone when it has none. */
  function LeftGroup<A, B(!new)>(x: A, ys: seq<B>, m: (A, B) -> bool): (g: seq<(A, Option<B>)>)
    ensures |g| >= 1
    ensures |MatchesOf(x, ys, m)| <= 1 ==> |g| == 1
    ensures forall p :: p in g ==> p.0 == x
    ensures forall p :: p in g && p.1.Some? ==> p.1.value in ys && m(x, p.1.value)
    ensures forall p :: p in g && p.1.None? ==> |MatchesOf(x, ys, m)| == 0
  {
    var ms := MatchesOf(x, ys, m);
    if |ms| == 0 then [(x, None)]
    else
      var g := seq(|ms|, i requires 0 <= i < |ms| => (x, Some(ms[i])));
      assert forall p :: p in g ==> p.0 == x && p.1.Some? && p.1.value in ms;
      g
  }

  /** Every left element with each of its matches, or alone (`None`) when it has none
      (the row order of a pandas left merge). */
  function LeftPairs<A(!new), B(!new)>(xs: seq<A>, ys: seq<B>, m: (A, B) -> bool): (ps: seq<(A, Option<B>)>)
    ensures |ps| >= |xs|
    decreases |xs|
  {
    if |xs| == 0 then [] else LeftGroup(xs[0], ys, m) + LeftPairs(xs[1..], ys, m)
  }

  /** Every pair of a left pairing holds a left element and either one of its matches or,
      when it has none, nothing. */
  lemma {:induction false} LeftPairsFacts<A(!new), B(!new)>(xs: seq<A>, ys: seq<B>, m: (A, B) -> bool)
    ensures forall p :: p in LeftPairs(xs, ys, m) ==> p.0 in xs
    ensures forall p :: p in LeftPairs(xs, ys, m) && p.1.Some? ==> p.1.value in ys && m(p.0, p.1.value)
    ensures forall p :: p in LeftPairs(xs, ys, m) && p.1.None? ==> |MatchesOf(p.0, ys, m)| == 0
    decreases |xs|
  {
    if |xs| > 0 {
      LeftPairsFacts(xs[1..], ys, m);
      assert LeftPairs(xs, ys, m) == LeftGroup(xs[0], ys, m) + LeftPairs(xs[1..], ys, m);
      assert forall x :: x in xs[1..] ==> x in xs;
    }
  }

  /** Every left element occurs in a left pairing. */
  lemma {:induction false} LeftPairsCover<A(!new), B(!new)>(xs: seq<A>, ys: seq<B>, m: (A, B) -> bool, i: nat)
    requires i < |xs|
    ensures exists j :: 0 <= j < |LeftPairs(xs, ys, m)| && LeftPairs(xs, ys, m)[j].0 == xs[i]
    decreases |xs|
  {
    if i == 0 {
      LeftPairsHead(xs, ys, m);
    } else {
      LeftPairsCover(xs[1..], ys, m, i - 1);
      var j :| 0 <= j < |LeftPairs(xs[1..], ys, m)| && LeftPairs(xs[1..], ys, m)[j].0 == xs[1..][i - 1];
      LeftPairsCoverStep(xs, ys, m, i, j);
    }
  }

  /** A pair of the tail's pairing that holds `xs[i]` gives one in the whole pairing. */
  lemma LeftPairsCoverStep<A(!new), B(!new)>(xs: seq<A>, ys: seq<B>, m: (A, B) -> bool, i: nat, j: nat)
    requires 0 < i < |xs| && j < |LeftPairs(xs[1..], ys, m)|
    requires LeftPairs(xs[1..], ys, m)[j].0 == xs[1..][i - 1]
    ensures exists k :: 0 <= k < |LeftPairs(xs, ys, m)| && LeftPairs(xs, ys, m)[k].0 == xs[i]
  {
    LeftPairsTail(xs, ys, m, j);
    var k := |LeftGroup(xs[0], ys, m)| + j;
    assert LeftPairs(xs, ys, m)[k].0 == xs[i];
  }

  /** A left pairing starts with the first left element. */
  lemma LeftPairsHead<A(!new), B(!new)>(xs: seq<A>, ys: seq<B>, m: (A, B) -> bool)
    requires 0 < |xs|
    ensures LeftPairs(xs, ys, m)[0].0 == xs[0]
  {
    var here := LeftGroup(xs[0], ys, m);
    assert LeftPairs(xs, ys, m) == here + LeftPairs(xs[1..], ys, m);
    assert here[0] in here;
  }

  /** A left pairing of the tail follows the first element's group in the whole pairing. */
  lemma LeftPairsTail<A(!new), B(!new)>(xs: seq<A>, ys: seq<B>, m: (A, B) -> bool, j: nat)
    requires 0 < |xs| && j < |LeftPairs(xs[1..], ys, m)|
    ensures |LeftGroup(xs[0], ys, m)| + j < |LeftPairs(xs, ys, m)|
    ensures LeftPairs(xs, ys, m)[|LeftGroup(xs[0], ys, m)| + j] == LeftPairs(xs[1..], ys, m)[j]
  {
    var here := LeftGroup(xs[0], ys, m);
    var rest := LeftPairs(xs[1..], ys, m);
    assert LeftPairs(xs, ys, m) == here + rest;
  }

  /** When no left element has two matches, a left pairing keeps one entry per left
      element, in the left order. */
  lemma {:induction false} LeftPairsUnique<A(!new), B(!new)>(xs: seq<A>, ys: seq<B>, m: (A, B) -> bool)
    requires forall x :: x in xs ==> |MatchesOf(x, ys, m)| <= 1
    ensures |LeftPairs(xs, ys, m)| == |xs|
    ensures forall i :: 0 <= i < |xs| ==> LeftPairs(xs, ys, m)[i].0 == xs[i]
    decreases |xs|
  {
    if |xs| > 0 {
      var here := LeftGroup(xs[0], ys, m);
      var rest := LeftPairs(xs[1..], ys, m);
      assert LeftPairs(xs, ys, m) == here + rest;
      assert xs[0] in xs;
      assert here[0] in here;
      assert forall x :: x in xs[1..] ==> x in xs;
      LeftPairsUnique(xs[1..], ys, m);
      forall i | 0 <= i < |xs|
        ensures LeftPairs(xs, ys, m)[i].0 == xs[i]
      {
        if i > 0 {
          assert (here + rest)[i] == rest[i - 1];
        }
      }
    }
  }

  /** With at most one match per left element, position `i` of the left pairing holds
      `xs[i]` with its match when it has one. */
  lemma LeftPairsMatched<A(!new), B(!new)>(xs: seq<A>, ys: seq<B>, m: (A, B) -> bool, i: nat, y: B)
    requires forall x :: x in xs ==> |MatchesOf(x, ys, m)| <= 1
    requires i < |xs| && y in ys && m(xs[i], y)
    ensures i < |LeftPairs(xs, ys, m)| && LeftPairs(xs, ys, m)[i] == (xs[i], Some(y))
  {
    LeftPairsUnique(xs, ys, m);
    LeftPairsFacts(xs, ys, m);
    var ps := LeftPairs(xs, ys, m);
    var p := ps[i];
    assert p in ps;
    var ms := MatchesOf(xs[i], ys, m);
    assert |ms| <= 1 by {
      assert xs[i] in xs;
    }
    assert y in ms;
    assert p.1.Some?;
    assert p.1.value in ms;
    AtMostOneMember(ms, p.1.value, y);
  }

  lemma AtMostOneMember<T>(s: seq<T>, a: T, b: T)
    requires |s| <= 1 && a in s && b in s
    ensures a == b
  {
  }

  /** ... and with nothing when it has no match. */
  lemma LeftPairsUnmatched<A(!new), B(!new)>(xs: seq<A>, ys: seq<B>, m: (A, B) -> bool, i: nat)
    requires forall x :: x in xs ==> |MatchesOf(x, ys, m)| <= 1
    requires i < |xs| && forall y :: y in ys ==> !m(xs[i], y)
    ensures i < |LeftPairs(xs, ys, m)| && LeftPairs(xs, ys, m)[i] == (xs[i], None)
  {
    LeftPairsUnique(xs, ys, m);
    LeftPairsFacts(xs, ys, m);
    var ps := LeftPairs(xs, ys, m);
    assert ps[i] in ps;
  }
}

=== FILE: strings.dfy ===
/** Python string operations used by the scripts, restricted to ASCII:
    `strip`, `lower`, `isnumeric`, `in`, `split`, `join`, `replace` and `str()` of an integer.
 */
module Strings {
  import opened Wrappers

  /** The ASCII characters Python's `str.isspace()` accepts, i.e. what `str.strip()` removes. */
  const Whitespace: set<char> :=
    {' ', '\t', '\n', '\r', '\U{B}', '\U{C}', '\U{1C}', '\U{1D}', '\U{1E}', '\U{1F}'}

  // ---------------------------------------------------------------------------
  // strip

  /** Python `s.lstrip(cs)`. */
  function StripLeft(s: string, cs: set<char>): (r: string)
    ensures |r| <= |s| && r == s[|s| - |r|..]
    ensures forall i :: 0 <= i < |s| - |r| ==> s[i] in cs
    ensures |r| > 0 ==> r[0] !in cs
    decreases |s|
  {
    if |s| > 0 && s[0] in cs then StripLeft(s[1..], cs) else s
  }

  /** Python `s.rstrip(cs)`. */
  function StripRight(s: string, cs: set<char>): (r: string)
    ensures |r| <= |s| && r == s[..|r|]
    ensures forall i :: |r| <= i < |s| ==> s[i] in cs
    ensures |r| > 0 ==> r[|r| - 1] !in cs
    decreases |s|
  {
    if |s| > 0 && s[|s| - 1] in cs then StripRight(s[..|s| - 1], cs) else s
  }

  /** Python `s.strip(cs)`: remove every leading and trailing character that is in `cs`. */
  function StripChars(s: string, cs: set<char>): (r: string)
    ensures |r| <= |s|
    ensures |r| > 0 ==> r[0] !in cs && r[|r| - 1] !in cs
    ensures (forall i :: 0 <= i < |s| ==> s[i] in cs) ==> r == []
  {
    StripRight(StripLeft(s, cs), cs)
  }

  /** Python `s.strip()`. */
  function Strip(s: string): string {
    StripChars(s, Whitespace)
  }

  /** `lstrip` removes exactly the leading run of `cs` characters. */
  lemma {:induction false} StripLeftExact(s: string, cs: set<char>, k: nat)
    requires k <= |s|
    requires forall i :: 0 <= i < k ==> s[i] in cs
    requires k < |s| ==> s[k] !in cs
    ensures StripLeft(s, cs) == s[k..]
    decreases k
  {
    if k > 0 {
      StripLeftExact(s[1..], cs, k - 1);
      assert s[1..][k - 1..] == s[k..];
    }
  }

  /** `rstrip` removes exactly the trailing run of `cs` characters. */
  lemma {:induction false} StripRightExact(s: string, cs: set<char>, j: nat)
    requires j <= |s|
    requires forall i :: j <= i < |s| ==> s[i] in cs
    requires j > 0 ==> s[j - 1] !in cs
    ensures StripRight(s, cs) == s[..j]
    decreases |s| - j
  {
    if j < |s| {
      StripRightExact(s[..|s| - 1], cs, j);
      assert s[..|s| - 1][..j] == s[..j];
    }
  }

  /** `rstrip` of a suffix `s[k..]` whose tail from `j` on is all `cs` gives `s[k..j]`. */
  lemma StripRightInfix(s: string, cs: set<char>, k: nat, j: nat)
    requires k < j <= |s|
    requires forall i :: j <= i < |s| ==> s[i] in cs
    requires s[j - 1] !in cs
    ensures StripRight(s[k..], cs) == s[k..j]
  {
    var t := s[k..];
    assert forall i :: j - k <= i < |t| ==> t[i] == s[i + k];
    StripRightExact(t, cs, j - k);
    assert t[..j - k] == s[k..j];
  }

  /** `StripChars` is the unique infix `s[k..j]` whose outside consists of `cs` characters
      and whose ends are not in `cs`: an independent description of what strip returns. */
  lemma StripCharsIsInfix(s: string, cs: set<char>, k: nat, j: nat)
    requires k <= j <= |s|
    requires forall i :: 0 <= i < k ==> s[i] in cs
    requires forall i :: j <= i < |s| ==> s[i] in cs
    requires k < j ==> s[k] !in cs && s[j - 1] !in cs
    requires k == j ==> forall i :: 0 <= i < |s| ==> s[i] in cs
    ensures StripChars(s, cs) == s[k..j]
  {
    if k == j {
      StripLeftExact(s, cs, |s|);
    } else {
      StripLeftExact(s, cs, k);
      StripRightInfix(s, cs, k, j);
    }
  }

  /** Stripping a string that neither starts nor ends with a `cs` character changes nothing. */
  lemma StripCharsNoop(s: string, cs: set<char>)
    requires |s| > 0 ==> s[0] !in cs && s[|s| - 1] !in cs
    ensures StripChars(s, cs) == s
  {
    if |s| > 0 {
      StripCharsIsInfix(s, cs, 0, |s|);
    }
  }

  /** Python's `strip` is idempotent. */
  lemma StripCharsIdempotent(s: string, cs: set<char>)
    ensures StripChars(StripChars(s, cs), cs) == StripChars(s, cs)
  {
    StripCharsNoop(StripChars(s, cs), cs);
  }

  /** Wrapping a value in one pair of delimiter characters and stripping them again
      gives the value back, provided the value itself does not start or end with one. */
  lemma StripWrapped(x: string, open: char, close: char, cs: set<char>)
    requires open in cs && close in cs
    requires |x| > 0 ==> x[0] !in cs && x[|x| - 1] !in cs
    ensures StripChars([open] + x + [close], cs) == x
  {
    var s := [open] + x + [close];
    if |x| == 0 {
      StripCharsIsInfix(s, cs, 1, 1);
    } else {
      StripCharsIsInfix(s, cs, 1, |s| - 1);
    }
    assert s[1..|s| - 1] == x;
  }

  // ---------------------------------------------------------------------------
  // lower, isnumeric

  function LowerChar(c: char): char {
    if 'A' <= c <= 'Z' then (c as int + 32) as char else c
  }

  /** Python `s.lower()` on ASCII letters. */
  function Lower(s: string): (r: string)
    ensures |r| == |s|
  {
    seq(|s|, i requires 0 <= i < |s| => LowerChar(s[i]))
  }

  predicate IsDigit(c: char) {
    '0' <= c <= '9'
  }

  /** Python `s.isnumeric()` on ASCII: non-empty and every character a digit. */
  predicate IsNumeric(s: string) {
    |s| > 0 && forall i :: 0 <= i < |s| ==> IsDigit(s[i])
  }

  // ---------------------------------------------------------------------------
  // str() of an integer

  function DigitChar(d: nat): (c: char)
    requires d < 10
    ensures IsDigit(c)
  {
    ('0' as int + d) as char
  }

  /** Decimal text of a natural number, without leading zeros. */
  function Decimal(n: nat): (r: string)
    ensures IsNumeric(r)
    decreases n
  {
    if n < 10 then [DigitChar(n)] else Decimal(n / 10) + [DigitChar(n % 10)]
  }

  /** Python `str(i)` for an `int`. */
  function IntToString(i: int): (r: string)
    ensures IsNumeric(r) <==> i >= 0
  {
    if i < 0 then
      var r := "-" + Decimal(-i);
      assert !IsDigit(r[0]);
      r
    else Decimal(i)
  }

  // ---------------------------------------------------------------------------
  // substring search

  /** `p` occurs in `s` at position `i`. */
  predicate IsAt(s: string, p: string, i: nat) {
    i + |p| <= |s| && s[i..i + |p|] == p
  }

  predicate StartsWith(s: string, p: string) {
    IsAt(s, p, 0)
  }

  predicate EndsWith(s: string, p: string) {
    |p| <= |s| && s[|s| - |p|..] == p
  }

  /** Python `s.find(p, from)` as an option: the first occurrence of `p` at or after `from`. */
  function FindFrom(s: string, p: string, from: nat): (r: Option<nat>)
    ensures r.Some? ==> from <= r.value && IsAt(s, p, r.value)
    ensures r.Some? ==> forall k :: from <= k < r.value ==> !IsAt(s, p, k)
    ensures r.None? ==> forall k :: from <= k ==> !IsAt(s, p, k)
    decreases |s| - from
  {
    if from + |p| > |s| then None
    else if s[from..from + |p|] == p then Some(from)
    else FindFrom(s, p, from + 1)
  }

  /** Python `p in s`. */
  predicate Contains(s: string, p: string) {
    FindFrom(s, p, 0).Some?
  }

  lemma ContainsIff(s: string, p: string)
    ensures Contains(s, p) <==> exists i: nat :: IsAt(s, p, i)
  {
  }

  /** The first occurrence at or after `from` is determined by its defining property. */
  lemma FindFromIs(s: string, p: string, from: nat, i: nat)
    requires from <= i && IsAt(s, p, i)
    requires forall k :: from <= k < i ==> !IsAt(s, p, k)
    ensures FindFrom(s, p, from) == Some(i)
  {
  }

  lemma FindFromNone(s: string, p: string, from: nat)
    requires forall k :: from <= k ==> !IsAt(s, p, k)
    ensures FindFrom(s, p, from) == None
  {
  }

  /** An occurrence that fits inside a prefix of `s + t` is an occurrence in `s`, and conversely. */
  lemma IsAtPrefix(s: string, t: string, p: string, k: nat)
    requires k + |p| <= |s|
    ensures IsAt(s + t, p, k) <==> IsAt(s, p, k)
  {
    assert (s + t)[k..k + |p|] == s[k..k + |p|];
  }

  // ---------------------------------------------------------------------------
  // split, join, replace

  /** No occurrence of `sep` starts inside `part` in `part + sep`: splitting
      `part + sep + rest` on `sep` cuts exactly after `part`. */
  predicate Delimited(part: string, sep: string) {
    forall k: nat :: k < |part| ==> !IsAt(part + sep, sep, k)
  }

  /** For a one-character separator, being delimited just means not containing it. */
  lemma DelimitedByChar(part: string, c: char)
    ensures Delimited(part, [c]) <==> c !in part
  {
    forall k: nat | k < |part|
      ensures IsAt(part + [c], [c], k) <==> part[k] == c
    {
      assert (part + [c])[k..k + 1] == [part[k]];
    }
  }

  lemma DelimitedNotContains(part: string, sep: string)
    requires |sep| > 0 && Delimited(part, sep)
    ensures !Contains(part, sep)
  {
    forall k: nat | IsAt(part, sep, k)
      ensures false
    {
      IsAtPrefix(part, sep, sep, k);
    }
  }

  /** Python `s.split(sep)` for a non-empty separator: cut at every non-overlapping
      occurrence, scanning left to right. */
  function Split(s: string, sep: string): (parts: seq<string>)
    requires |sep| > 0
    ensures |parts| >= 1
    decreases |s|
  {
    match FindFrom(s, sep, 0)
    case None => [s]
    case Some(i) => [s[..i]] + Split(s[i + |sep|..], sep)
  }

  /** Python `sep.join(parts)`. */
  function Join(parts: seq<string>, sep: string): string
    decreases |parts|
  {
    if |parts| == 0 then ""
    else if |parts| == 1 then parts[0]
    else parts[0] + sep + Join(parts[1..], sep)
  }

  /** A join starts with its first piece, followed by the separator when more follow. */
  lemma JoinStart(parts: seq<string>, sep: string)
    requires |parts| >= 1
    ensures |parts| == 1 ==> Join(parts, sep) == parts[0]
    ensures |parts| > 1 ==> parts[0] + sep <= Join(parts, sep)
  {
  }

  /** A join ends with its last piece, preceded by the separator when more come before. */
  lemma {:induction false} JoinEnd(parts: seq<string>, sep: string)
    requires |parts| >= 1
    ensures var j := Join(parts, sep); var last := parts[|parts| - 1];
            |last| <= |j| && j[|j| - |last|..] == last &&
            (|parts| > 1 ==> |sep + last| <= |j| && j[|j| - |sep + last|..] == sep + last)
    decreases |parts|
  {
    if |parts| > 1 {
      JoinEnd(parts[1..], sep);
      var rest := Join(parts[1..], sep);
      var last := parts[|parts| - 1];
      assert Join(parts, sep) == parts[0] + sep + rest;
      if |parts| > 2 {
        assert rest[|rest| - |sep + last|..] == sep + last;
      } else {
        assert rest == last;
      }
    }
  }

  /** Python `s.replace(target, replacement)`: every non-overlapping occurrence, left to right. */
  function ReplaceAll(s: string, target: string, replacement: string): string
    requires |target| > 0
  {
    Join(Split(s, target), replacement)
  }

  lemma JoinCons(p: string, rest: seq<string>, sep: string)
    requires |rest| >= 1
    ensures Join([p] + rest, sep) == p + sep + Join(rest, sep)
  {
    assert ([p] + rest)[1..] == rest;
  }

  /** Joining the pieces of a split gives the string back. */
  lemma {:induction false} JoinSplit(s: string, sep: string)
    requires |sep| > 0
    ensures Join(Split(s, sep), sep) == s
    decreases |s|
  {
    var f := FindFrom(s, sep, 0);
    if f.Some? {
      var i := f.value;
      var rest := s[i + |sep|..];
      assert Split(s, sep) == [s[..i]] + Split(rest, sep);
      JoinSplit(rest, sep);
      JoinCons(s[..i], Split(rest, sep), sep);
      assert s[i..i + |sep|] == sep;
      assert s == s[..i] + sep + rest;
    }
  }

  /** Every piece of a split is free of the separator. */
  lemma {:induction false} SplitPiecesFree(s: string, sep: string)
    requires |sep| > 0
    ensures forall i :: 0 <= i < |Split(s, sep)| ==> !Contains(Split(s, sep)[i], sep)
    decreases |s|
  {
    match FindFrom(s, sep, 0)
    case None =>
    case Some(i) =>
      SplitPiecesFree(s[i + |sep|..], sep);
      forall k: nat | IsAt(s[..i], sep, k)
        ensures false
      {
        assert s[..i] + s[i..] == s;
        IsAtPrefix(s[..i], s[i..], sep, k);
      }
  }

  /** Splitting a join of delimited pieces gives the pieces back. */
  lemma {:induction false} SplitJoin(parts: seq<string>, sep: string)
    requires |sep| > 0 && |parts| >= 1
    requires forall i :: 0 <= i < |parts| ==> Delimited(parts[i], sep)
    ensures Split(Join(parts, sep), sep) == parts
    decreases |parts|
  {
    var p := parts[0];
    if |parts| == 1 {
      DelimitedNotContains(p, sep);
    } else {
      var rest := Join(parts[1..], sep);
      var s := p + sep + rest;
      assert s == (p + sep) + rest;
      forall k | 0 <= k < |p|
        ensures !IsAt(s, sep, k)
      {
        IsAtPrefix(p + sep, rest, sep, k);
      }
      IsAtPrefix(p + sep, rest, sep, |p|);
      assert (p + sep)[|p|..|p| + |sep|] == sep;
      FindFromIs(s, sep, 0, |p|);
      assert s[..|p|] == p;
      assert s[|p| + |sep|..] == rest;
      SplitJoin(parts[1..], sep);
      assert [p] + parts[1..] == parts;
    }
  }

  /** Replacing a separator that does not occur changes nothing. */
  lemma ReplaceAbsent(s: string, target: string, replacement: string)
    requires |target| > 0 && !Contains(s, target)
    ensures ReplaceAll(s, target, replacement) == s
  {
  }

  /** Replacing the separator of a join of delimited pieces re-joins the same pieces
      with the replacement separator. */
  lemma ReplaceJoin(parts: seq<string>, target: string, replacement: string)
    requires |target| > 0 && |parts| >= 1
    requires forall i :: 0 <= i < |parts| ==> Delimited(parts[i], target)
    ensures ReplaceAll(Join(parts, target), target, replacement) == Join(parts, replacement)
  {
    SplitJoin(parts, target);
  }

  /** A one-character search: `[c] in s` is `c` occurring in `s`. */
  lemma ContainsChar(s: string, c: char)
    ensures Contains(s, [c]) <==> c in s
  {
    ContainsIff(s, [c]);
    if c in s {
      var k :| 0 <= k < |s| && s[k] == c;
      assert s[k..k + 1] == [c];
      assert IsAt(s, [c], k);
    }
    forall k: nat | IsAt(s, [c], k)
      ensures c in s
    {
      assert s[k] == s[k..k + 1][0];
    }
  }

  /** A join of pieces that all avoid a character, with a separator that avoids it too,
      avoids it. */
  lemma {:induction false} JoinAvoids(parts: seq<string>, sep: string, c: char)
    requires forall i :: 0 <= i < |parts| ==> c !in parts[i]
    requires c !in sep
    ensures c !in Join(parts, sep)
    decreases |parts|
  {
    if |parts| > 1 {
      JoinAvoids(parts[1..], sep, c);
    }
  }

  /** A piece that avoids the separator's first character is delimited by it. */
  lemma DelimitedWithoutFirst(part: string, sep: string)
    requires |sep| > 0 && sep[0] !in part
    ensures Delimited(part, sep)
  {
    forall k: nat | k < |part|
      ensures !IsAt(part + sep, sep, k)
    {
      assert (part + sep)[k] == part[k];
    }
  }

  /** Splitting on a single character gives one more piece than the character has
      occurrences. */
  lemma {:induction false} SplitCharCount(s: string, c: char)
    ensures |Split(s, [c])| == multiset(s)[c] + 1
    decreases |s|
  {
    match FindFrom(s, [c], 0)
    case None =>
      ContainsChar(s, [c][0]);
      assert c !in s;
    case Some(i) =>
      assert s[i..i + 1] == [c];
      assert c !in s[..i] by {
        forall k | 0 <= k < i
          ensures s[k] != c
        {
          assert !IsAt(s, [c], k);
          assert s[k..k + 1] == [s[k]];
        }
      }
      assert s == s[..i] + [c] + s[i + 1..];
      assert multiset(s) == multiset(s[..i]) + multiset([c]) + multiset(s[i + 1..]);
      SplitCharCount(s[i + 1..], c);
  }

  /** Searching from the end of `pre` finds the separator right after a delimited part. */
  lemma FindDelimited(pre: string, part: string, sep: string, rest: string)
    requires Delimited(part, sep)
    ensures FindFrom(pre + part + sep + rest, sep, |pre|) == Some(|pre| + |part|)
  {
    var s := pre + part + sep + rest;
    var mid := part + sep;
    assert s == pre + mid + rest;
    forall k | |pre| <= k < |pre| + |part|
      ensures !IsAt(s, sep, k)
    {
      assert s[k..k + |sep|] == mid[k - |pre|..k - |pre| + |sep|];
      assert !IsAt(mid, sep, k - |pre|);
    }
    assert s[|pre| + |part|..|pre| + |part| + |sep|] == sep;
    FindFromIs(s, sep, |pre|, |pre| + |part|);
  }

  // ---------------------------------------------------------------------------
  // repetition

  /** Python `s * n`: `s` written `n` times over, empty when `n <= 0`. */
  function Repeat(s: string, n: int): (r: string)
    ensures |r| == if n <= 0 then 0 else |s| * n
    ensures n > 0 ==> s <= r
    decreases n
  {
    if n <= 0 then [] else s + Repeat(s, n - 1)
  }

  /** A repetition is periodic with period `|s|`: with the prefix `s` this fixes every
      character. */
  lemma {:induction false} RepeatPeriodic(s: string, n: int, i: nat)
    requires i + |s| < |Repeat(s, n)|
    ensures Repeat(s, n)[i + |s|] == Repeat(s, n)[i]
    decreases n
  {
    var t := Repeat(s, n - 1);
    assert Repeat(s, n) == s + t;
    if i >= |s| {
      RepeatPeriodic(s, n - 1, i - |s|);
    } else {
      assert s <= t;
    }
  }
}

=== FILE: tables.dfy ===
/** A pandas DataFrame reduced to what the scripts rely on: an ordered list of column
    names and rows of cells in column order, with pandas' comparison, selection,
    assignment, filling, merging and concatenation.
 */
module Tables {
  import opened Wrappers
  import opened Strings
  import opened Seqs

  /** One cell. `Missing` stands for NaN and None alike. */
  datatype Cell =
    | Missing
    | Str(s: string)
    | Int(i: int)
    | Real(r: real)
    | Bool(b: bool)

  type Row = seq<Cell>

  datatype Table = Table(columns: seq<string>, rows: seq<Row>)

  /** Every row has one cell per column, which pandas guarantees. */
  predicate Rectangular(t: Table) {
    forall k :: 0 <= k < |t.rows| ==> |t.rows[k]| == |t.columns|
  }

  /** No column name repeats, as after `read_csv` (which renames duplicate headers). */
  predicate DistinctNames(cols: seq<string>) {
    forall i, j :: 0 <= i < j < |cols| ==> cols[i] != cols[j]
  }

  // ---------------------------------------------------------------------------
  // column lookup

  /** Position of the first column called `c`. */
  function IndexOf(cols: seq<string>, c: string): (i: nat)
    requires c in cols
    ensures i < |cols| && cols[i] == c
    ensures forall j :: 0 <= j < i ==> cols[j] != c
  {
    if cols[0] == c then 0 else 1 + IndexOf(cols[1..], c)
  }

  lemma IndexOfAppend(cols: seq<string>, more: seq<string>, c: string)
    requires c in cols
    ensures IndexOf(cols + more, c) == IndexOf(cols, c)
  {
    var i := IndexOf(cols, c);
    assert (cols + more)[i] == c;
  }

  lemma {:induction false} IndexOfAfter(cols: seq<string>, more: seq<string>, c: string)
    requires c !in cols && c in more
    ensures IndexOf(cols + more, c) == |cols| + IndexOf(more, c)
    decreases |cols|
  {
    if |cols| > 0 {
      assert (cols + more)[0] == cols[0] != c;
      assert c !in cols[1..];
      assert (cols + more)[1..] == cols[1..] + more;
      IndexOfAfter(cols[1..], more, c);
      assert IndexOf(cols + more, c) == 1 + IndexOf((cols + more)[1..], c);
    } else {
      assert cols + more == more;
    }
  }

  lemma IndexOfDistinct(cols: seq<string>, i: nat)
    requires DistinctNames(cols) && i < |cols|
    ensures IndexOf(cols, cols[i]) == i
  {
  }

  /** The cell of `row` under column `c`; a column the table lacks reads as missing. */
  function Value(cols: seq<string>, row: Row, c: string): Cell {
    if c in cols && IndexOf(cols, c) < |row| then row[IndexOf(cols, c)] else Missing
  }

  /** The cell in row `k` under column `c`. */
  function At(t: Table, k: nat, c: string): Cell
    requires k < |t.rows|
  {
    Value(t.columns, t.rows[k], c)
  }

  /** A row extended on the right keeps its values under its own columns. */
  lemma ValueAppend(cols: seq<string>, more: seq<string>, a: Row, rest: Row, c: string)
    requires |a| == |cols| && c in cols
    ensures Value(cols + more, a + rest, c) == Value(cols, a, c)
  {
    IndexOfAppend(cols, more, c);
  }

  /** The set of values a table holds under column `c`. */
  function KeyValues(t: Table, c: string): (vs: set<Cell>)
    ensures forall v :: v in vs <==> exists k :: 0 <= k < |t.rows| && Value(t.columns, t.rows[k], c) == v
  {
    set k | 0 <= k < |t.rows| :: Value(t.columns, t.rows[k], c)
  }

  /** The first name of `names` that is not a column, if any (pandas' `KeyError`). */
  function FirstAbsent(names: seq<string>, cols: seq<string>): (r: Option<string>)
    ensures r.None? <==> forall n :: n in names ==> n in cols
    ensures r.Some? ==> r.value in names && r.value !in cols
  {
    if |names| == 0 then None
    else if names[0] !in cols then Some(names[0])
    else
      var r := FirstAbsent(names[1..], cols);
      assert forall n :: n in names ==> n == names[0] || n in names[1..];
      r
  }

  // ---------------------------------------------------------------------------
  // cell semantics

  /** The numeric value pandas compares: integers, reals and booleans (as 0 and 1). */
  function AsNumber(c: Cell): Option<real> {
    match c
    case Int(i) => Some(i as real)
    case Real(r) => Some(r)
    case Bool(b) => Some(if b then 1.0 else 0.0)
    case _ => None
  }

  /** pandas `==`: never true when a side is missing; numbers compare by value,
      strings by text, and a string never equals a number. */
  predicate Eq(a: Cell, b: Cell) {
    if a.Missing? || b.Missing? then false
    else if AsNumber(a).Some? && AsNumber(b).Some? then AsNumber(a).value == AsNumber(b).value
    else a.Str? && b.Str? && a.s == b.s
  }

  /** Comparing with a string literal is plain equality with that string. */
  lemma EqStr(c: Cell, s: string)
    ensures Eq(c, Str(s)) <==> c == Str(s)
  {
  }

  /** `.str.strip()`: strings lose surrounding whitespace; any other value becomes NaN. */
  function StripCell(c: Cell): Cell {
    if c.Str? then Str(Strip(c.s)) else Missing
  }

  /** Python's ordering of strings, code point by code point. */
  predicate StrLess(a: string, b: string) {
    if |a| == 0 then |b| > 0
    else if |b| == 0 then false
    else if a[0] != b[0] then a[0] < b[0]
    else StrLess(a[1..], b[1..])
  }

  /** Python's `<=` on strings. */
  predicate StrLe(a: string, b: string) {
    StrLess(a, b) || a == b
  }

  /** No string is below itself. */
  lemma {:induction false} StrLessIrreflexive(a: string)
    ensures !StrLess(a, a)
    decreases |a|
  {
    if |a| > 0 {
      StrLessIrreflexive(a[1..]);
    }
  }

  /** Two different strings are ordered one way or the other. */
  lemma {:induction false} StrLessTotal(a: string, b: string)
    ensures a == b || StrLess(a, b) || StrLess(b, a)
    decreases |a|
  {
    if |a| > 0 && |b| > 0 && a[0] == b[0] {
      StrLessTotal(a[1..], b[1..]);
      if a[1..] == b[1..] {
        assert a == [a[0]] + a[1..] && b == [b[0]] + b[1..];
      }
    }
  }

  /** The string order is transitive. */
  lemma {:induction false} StrLessTrans(a: string, b: string, c: string)
    requires StrLess(a, b) && StrLess(b, c)
    ensures StrLess(a, c)
    decreases |a|
  {
    if |a| > 0 && a[0] == b[0] && b[0] == c[0] {
      StrLessTrans(a[1..], b[1..], c[1..]);
    }
  }

  lemma StrLeTrans(a: string, b: string, c: string)
    requires StrLe(a, b) && StrLe(b, c)
    ensures StrLe(a, c)
  {
    if StrLess(a, b) && StrLess(b, c) {
      StrLessTrans(a, b, c);
    }
  }

  // ---------------------------------------------------------------------------
  // sorting by text

  predicate SortedByText<T>(s: seq<T>, key: T -> string) {
    forall i, j :: 0 <= i < j < |s| ==> StrLe(key(s[i]), key(s[j]))
  }

  /** Putting a smallest element in front of a sequence sorted by text keeps it sorted. */
  lemma SortedByTextCons<T>(h: T, rest: seq<T>, key: T -> string)
    requires SortedByText(rest, key)
    requires forall y :: y in rest ==> StrLe(key(h), key(y))
    ensures SortedByText([h] + rest, key)
  {
    var r := [h] + rest;
    forall i, j | 0 <= i < j < |r|
      ensures StrLe(key(r[i]), key(r[j]))
    {
      if i == 0 {
        assert r[j] == rest[j - 1];
        assert rest[j - 1] in rest;
      } else {
        assert r[i] == rest[i - 1] && r[j] == rest[j - 1];
      }
    }
  }

  function InsertByText<T>(x: T, s: seq<T>, key: T -> string): (r: seq<T>)
    requires SortedByText(s, key)
    ensures SortedByText(r, key)
    ensures multiset(r) == multiset(s) + multiset{x}
    decreases |s|
  {
    if |s| == 0 then [x]
    else if StrLe(key(x), key(s[0])) then
      InsertTextFront(x, s, key);
      [x] + s
    else
      var rest := InsertByText(x, s[1..], key);
      InsertTextBehind(x, s, rest, key);
      [s[0]] + rest
  }

  lemma InsertTextFront<T>(x: T, s: seq<T>, key: T -> string)
    requires SortedByText(s, key) && |s| > 0 && StrLe(key(x), key(s[0]))
    ensures SortedByText([x] + s, key)
  {
    forall y | y in s
      ensures StrLe(key(x), key(y))
    {
      var k :| 0 <= k < |s| && s[k] == y;
      if k > 0 {
        StrLeTrans(key(x), key(s[0]), key(s[k]));
      }
    }
    SortedByTextCons(x, s, key);
  }

  lemma InsertTextBehind<T>(x: T, s: seq<T>, rest: seq<T>, key: T -> string)
    requires SortedByText(s, key) && |s| > 0 && !StrLe(key(x), key(s[0]))
    requires SortedByText(rest, key) && multiset(rest) == multiset(s[1..]) + multiset{x}
    ensures SortedByText([s[0]] + rest, key)
    ensures multiset([s[0]] + rest) == multiset(s) + multiset{x}
  {
    assert s == [s[0]] + s[1..];
    forall y | y in rest
      ensures StrLe(key(s[0]), key(y))
    {
      assert y in multiset(rest);
      if y == x {
        StrLessTotal(key(x), key(s[0]));
      } else {
        assert y in multiset(s[1..]);
        assert y in s[1..];
        var k :| 1 <= k < |s| && s[k] == y;
      }
    }
    SortedByTextCons(s[0], rest, key);
  }

  /** An insertion sort by text, Python's `sorted` on string keys. */
  function SortByText<T>(s: seq<T>, key: T -> string): (r: seq<T>)
    ensures SortedByText(r, key)
    ensures multiset(r) == multiset(s)
    decreases |s|
  {
    if |s| == 0 then []
    else
      assert s == [s[0]] + s[1..];
      InsertByText(s[0], SortByText(s[1..], key), key)
  }

  datatype Order = Less | LessEq | Greater | GreaterEq

  predicate RealHolds(x: real, op: Order, y: real) {
    match op
    case Less => x < y
    case LessEq => x <= y
    case Greater => x > y
    case GreaterEq => x >= y
  }

  predicate StrHolds(x: string, op: Order, y: string) {
    match op
    case Less => StrLess(x, y)
    case LessEq => StrLess(x, y) || x == y
    case Greater => StrLess(y, x)
    case GreaterEq => StrLess(y, x) || x == y
  }

  /** pandas `<`, `<=`, `>`, `>=` on one pair of cells: false when either side is missing,
      numeric or textual when both sides agree, and a `TypeError` when a string meets a
      number. */
  function Compare(a: Cell, op: Order, b: Cell): (r: Result<bool>)
    ensures r.Err? <==> !a.Missing? && !b.Missing? && (a.Str? != b.Str?)
    ensures r.Err? ==> r.error.TypeError?
    ensures r == Ok(true) ==> !a.Missing? && !b.Missing?
    ensures AsNumber(a).Some? && AsNumber(b).Some? ==> r == Ok(RealHolds(AsNumber(a).value, op, AsNumber(b).value))
  {
    if a.Missing? || b.Missing? then Ok(false)
    else if AsNumber(a).Some? && AsNumber(b).Some? then Ok(RealHolds(AsNumber(a).value, op, AsNumber(b).value))
    else if a.Str? && b.Str? then Ok(StrHolds(a.s, op, b.s))
    else Err(TypeError("comparison between str and a number"))
  }

  /** `astype(str)` of a cell. `floatText` is Python's shortest float repr. */
  function Text(c: Cell, floatText: real -> string): string {
    match c
    case Missing => "nan"
    case Str(s) => s
    case Int(i) => IntToString(i)
    case Real(r) => floatText(r)
    case Bool(b) => if b then "True" else "False"
  }

  /** A per-row test that may raise: the first error found in `rows`, if any. */
  function FirstError(rows: seq<Row>, f: Row -> Result<bool>): (e: Option<Error>)
    ensures e.None? <==> forall k :: 0 <= k < |rows| ==> f(rows[k]).Ok?
    ensures e.Some? ==> exists k :: 0 <= k < |rows| && f(rows[k]) == Err(e.value)
  {
    if |rows| == 0 then None
    else if f(rows[0]).Err? then Some(f(rows[0]).error)
    else
      var e := FirstError(rows[1..], f);
      assert forall k :: 1 <= k < |rows| ==> rows[k] == rows[1..][k - 1];
      e
  }

  // ---------------------------------------------------------------------------
  // row filters, selection, assignment

  /** `df[mask]`: the rows satisfying `keep`, in their original order. */
  function FilterRows(t: Table, keep: Row -> bool): (r: Table)
    ensures r.columns == t.columns && |r.rows| <= |t.rows|
    ensures Rectangular(t) ==> Rectangular(r)
    ensures forall row :: row in r.rows <==> row in t.rows && keep(row)
  {
    var rows := Filter(t.rows, keep);
    assert forall k :: 0 <= k < |rows| ==> rows[k] in t.rows;
    Table(t.columns, rows)
  }

  /** `df.dropna(subset=subset)`: `KeyError` for an absent column, otherwise the rows
      with a value in every listed column. */
  function DropMissing(t: Table, subset: seq<string>): (r: Result<Table>)
    ensures r.Ok? <==> forall c :: c in subset ==> c in t.columns
    ensures r.Err? ==> r.error.KeyError? && r.error.key in subset && r.error.key !in t.columns
    ensures r.Ok? ==> r.value.columns == t.columns && |r.value.rows| <= |t.rows|
    ensures r.Ok? && Rectangular(t) ==> Rectangular(r.value)
    ensures r.Ok? ==> forall row :: row in r.value.rows <==>
      row in t.rows && forall c :: c in subset ==> !Value(t.columns, row, c).Missing?
  {
    var absent := FirstAbsent(subset, t.columns);
    if absent.Some? then Err(KeyError(absent.value))
    else Ok(FilterRows(t, row => forall c :: c in subset ==> !Value(t.columns, row, c).Missing?))
  }

  /** `df[mask]` for a mask computed by an operation that may raise on any row: pandas
      evaluates the whole column, so one failing row fails the step. */
  function FilterRowsChecked(t: Table, test: Row -> Result<bool>): (r: Result<Table>)
    ensures r.Ok? <==> forall k :: 0 <= k < |t.rows| ==> test(t.rows[k]).Ok?
    ensures r.Err? ==> exists k :: 0 <= k < |t.rows| && test(t.rows[k]) == Err(r.error)
    ensures r.Ok? ==> r.value.columns == t.columns && |r.value.rows| <= |t.rows|
    ensures r.Ok? && Rectangular(t) ==> Rectangular(r.value)
    ensures r.Ok? ==> forall row :: row in r.value.rows <==> row in t.rows && test(row) == Ok(true)
  {
    var e := FirstError(t.rows, test);
    if e.Some? then Err(e.value)
    else Ok(FilterRows(t, row => test(row) == Ok(true)))
  }

  /** `df[names]`: the named columns in the order given; `KeyError` if one is absent. */
  function Select(t: Table, names: seq<string>): (r: Result<Table>)
    requires Rectangular(t)
    ensures r.Ok? <==> forall n :: n in names ==> n in t.columns
    ensures r.Err? ==> r.error.KeyError? && r.error.key in names && r.error.key !in t.columns
    ensures r.Ok? ==> r.value.columns == names && Rectangular(r.value) && |r.value.rows| == |t.rows|
    ensures r.Ok? ==> forall k, j :: 0 <= k < |t.rows| && 0 <= j < |names| ==>
      r.value.rows[k][j] == Value(t.columns, t.rows[k], names[j])
    ensures r.Ok? && DistinctNames(names) ==>
      forall k, c :: 0 <= k < |t.rows| && c in names ==> At(r.value, k, c) == At(t, k, c)
  {
    var absent := FirstAbsent(names, t.columns);
    if absent.Some? then Err(KeyError(absent.value))
    else
      var rows := seq(|t.rows|, k requires 0 <= k < |t.rows| =>
                    seq(|names|, j requires 0 <= j < |names| => Value(t.columns, t.rows[k], names[j])));
      var r := Table(names, rows);
      assert DistinctNames(names) ==> forall k, c :: 0 <= k < |t.rows| && c in names ==> At(r, k, c) == At(t, k, c) by {
        if DistinctNames(names) {
          forall k, c | 0 <= k < |t.rows| && c in names
            ensures At(r, k, c) == At(t, k, c)
          {
            var j := IndexOf(names, c);
            assert rows[k][j] == Value(t.columns, t.rows[k], names[j]);
          }
        }
      }
      Ok(r)
  }

  /** `df[name] = f(row)` for every row: an existing column is overwritten in place and a
      new one is appended on the right; every other column keeps its cells. */
  function SetColumn(t: Table, name: string, f: Row -> Cell): (r: Table)
    requires Rectangular(t)
    ensures Rectangular(r) && |r.rows| == |t.rows|
    ensures r.columns == if name in t.columns then t.columns else t.columns + [name]
    ensures forall k :: 0 <= k < |t.rows| ==> At(r, k, name) == f(t.rows[k])
    ensures forall k, c :: 0 <= k < |t.rows| && c != name ==> At(r, k, c) == At(t, k, c)
  {
    SetColumnValues(t, name, seq(|t.rows|, k requires 0 <= k < |t.rows| => f(t.rows[k])))
  }

  /** `df[name] = values`: the column given cell by cell, in row order. */
  function SetColumnValues(t: Table, name: string, vs: seq<Cell>): (r: Table)
    requires Rectangular(t) && |vs| == |t.rows|
    ensures Rectangular(r) && |r.rows| == |t.rows|
    ensures r.columns == if name in t.columns then t.columns else t.columns + [name]
    ensures forall k :: 0 <= k < |t.rows| ==> At(r, k, name) == vs[k]
    ensures forall k, c :: 0 <= k < |t.rows| && c != name ==> At(r, k, c) == At(t, k, c)
  {
    if name in t.columns then
      var i := IndexOf(t.columns, name);
      var r := Table(t.columns, seq(|t.rows|, k requires 0 <= k < |t.rows| => t.rows[k][i := vs[k]]));
      assert forall k, c :: 0 <= k < |t.rows| && c != name ==> At(r, k, c) == At(t, k, c) by {
        forall k, c | 0 <= k < |t.rows| && c != name
          ensures At(r, k, c) == At(t, k, c)
        {
          if c in t.columns {
            assert IndexOf(t.columns, c) != i;
          }
        }
      }
      r
    else
      var cols := t.columns + [name];
      var r := Table(cols, seq(|t.rows|, k requires 0 <= k < |t.rows| => t.rows[k] + [vs[k]]));
      assert forall k :: 0 <= k < |t.rows| ==> At(r, k, name) == vs[k] by {
        IndexOfAfter(t.columns, [name], name);
      }
      assert forall k, c :: 0 <= k < |t.rows| && c != name ==> At(r, k, c) == At(t, k, c) by {
        forall k, c | 0 <= k < |t.rows| && c != name
          ensures At(r, k, c) == At(t, k, c)
        {
          if c in t.columns {
            ValueAppend(t.columns, [name], t.rows[k], [vs[k]], c);
          }
        }
      }
      r
  }

  /** Several columns assigned in turn, each given cell by cell. */
  function SetColumns(t: Table, names: seq<string>, vals: seq<seq<Cell>>): (r: Table)
    requires Rectangular(t) && DistinctNames(names) && |vals| == |names|
    requires forall i :: 0 <= i < |vals| ==> |vals[i]| == |t.rows|
    ensures Rectangular(r) && |r.rows| == |t.rows|
    ensures forall c :: c in t.columns || c in names ==> c in r.columns
    ensures forall k, i :: 0 <= k < |t.rows| && 0 <= i < |names| ==> At(r, k, names[i]) == vals[i][k]
    ensures forall k, c :: 0 <= k < |t.rows| && c !in names ==> At(r, k, c) == At(t, k, c)
    decreases |names|
  {
    if |names| == 0 then t
    else
      var first := SetColumnValues(t, names[0], vals[0]);
      var r := SetColumns(first, names[1..], vals[1..]);
      assert forall c :: c in names ==> c == names[0] || c in names[1..];
      assert names[0] !in names[1..];
      forall k, i | 0 <= k < |t.rows| && 0 <= i < |names|
        ensures At(r, k, names[i]) == vals[i][k]
      {
        if i > 0 {
          assert names[i] == names[1..][i - 1];
        }
      }
      r
  }

  /** `df[c] = df[c].str.strip()` when the table has column `c`; a table without it is
      left as it is. */
  function StripColumn(t: Table, c: string): (r: Table)
    requires Rectangular(t)
    ensures Rectangular(r) && r.columns == t.columns && |r.rows| == |t.rows|
    ensures forall k, d :: 0 <= k < |t.rows| && d != c ==> At(r, k, d) == At(t, k, d)
    ensures c !in t.columns ==> r == t
  {
    if c in t.columns then SetColumn(t, c, row => StripCell(Value(t.columns, row, c))) else t
  }

  /** After stripping, a string cell of the column has no surrounding whitespace, any
      other cell is missing, and stripping again changes nothing. */
  lemma StripColumnClean(t: Table, c: string, k: nat)
    requires Rectangular(t) && k < |t.rows| && c in t.columns
    ensures var v := At(StripColumn(t, c), k, c);
            (v.Str? || v.Missing?) &&
            (v.Str? && |v.s| > 0 ==> v.s[0] !in Whitespace && v.s[|v.s| - 1] !in Whitespace)
    ensures At(StripColumn(StripColumn(t, c), c), k, c) == At(StripColumn(t, c), k, c)
  {
    var v := At(t, k, c);
    if v.Str? {
      StripCharsIdempotent(v.s, Whitespace);
    }
  }

  /** `df.rename(columns={source: target})`: the cells stay where they are. */
  function RenameColumn(t: Table, source: string, target: string): (r: Table)
    ensures r.rows == t.rows && |r.columns| == |t.columns|
    ensures forall i :: 0 <= i < |t.columns| ==>
      r.columns[i] == if t.columns[i] == source then target else t.columns[i]
  {
    Table(seq(|t.columns|, i requires 0 <= i < |t.columns| =>
                if t.columns[i] == source then target else t.columns[i]), t.rows)
  }

  /** Removes position `i` from a row or a column list. */
  function Without<T>(s: seq<T>, i: nat): (r: seq<T>)
    requires i < |s|
    ensures |r| == |s| - 1
    ensures forall j :: 0 <= j < |r| ==> r[j] == s[if j < i then j else j + 1]
  {
    s[..i] + s[i + 1..]
  }

  /** Removing one name keeps the rest distinct. */
  lemma WithoutDistinct(s: seq<string>, i: nat)
    requires i < |s| && DistinctNames(s)
    ensures DistinctNames(Without(s, i))
  {
    var r := Without(s, i);
    forall x, y | 0 <= x < y < |r|
      ensures r[x] != r[y]
    {
      assert r[x] == s[if x < i then x else x + 1];
      assert r[y] == s[if y < i then y else y + 1];
    }
  }

  /** `df.drop(name, axis=1)`: `KeyError` if the column is absent. */
  function DropColumn(t: Table, name: string): (r: Result<Table>)
    requires Rectangular(t)
    ensures r.Err? <==> name !in t.columns
    ensures r.Ok? ==> Rectangular(r.value) && |r.value.rows| == |t.rows|
    ensures r.Ok? ==> forall c :: c in r.value.columns ==> c in t.columns
    ensures r.Ok? ==> forall c :: c in t.columns && c != name ==> c in r.value.columns
    ensures r.Ok? && DistinctNames(t.columns) ==> name !in r.value.columns
  {
    if name !in t.columns then Err(KeyError(name))
    else
      var i := IndexOf(t.columns, name);
      var cols := Without(t.columns, i);
      assert forall c :: c in cols ==> c in t.columns;
      assert forall c :: c in t.columns && c != name ==> c in cols by {
        forall c | c in t.columns && c != name
          ensures c in cols
        {
          var ci := IndexOf(t.columns, c);
          assert cols[if ci < i then ci else ci - 1] == c;
        }
      }
      assert DistinctNames(t.columns) ==> name !in cols;
      Ok(Table(cols, seq(|t.rows|, k requires 0 <= k < |t.rows| => Without(t.rows[k], i))))
  }

  /** Dropping a column keeps every other column's cells. */
  lemma DropColumnKeeps(t: Table, name: string, k: nat, c: string)
    requires Rectangular(t) && DistinctNames(t.columns) && name in t.columns
    requires k < |t.rows| && c != name
    ensures At(DropColumn(t, name).value, k, c) == At(t, k, c)
  {
    var r := DropColumn(t, name).value;
    var i := IndexOf(t.columns, name);
    assert r.columns == Without(t.columns, i) && r.rows[k] == Without(t.rows[k], i);
    ValueWithout(t.columns, t.rows[k], i, c);
  }

  /** Removing the cell at `i` from both the names and the row keeps the cell of every
      other (distinct) name. */
  lemma ValueWithout(cols: seq<string>, row: Row, i: nat, c: string)
    requires DistinctNames(cols) && |row| == |cols| && i < |cols| && c != cols[i]
    ensures Value(Without(cols, i), Without(row, i), c) == Value(cols, row, c)
  {
    var rc := Without(cols, i);
    if c in cols {
      var ci := IndexOf(cols, c);
      var j := if ci < i then ci else ci - 1;
      assert rc[j] == c;
      WithoutDistinct(cols, i);
      IndexOfDistinct(rc, j);
    } else {
      assert c !in rc;
    }
  }

  // ---------------------------------------------------------------------------
  // fillna

  function FillCell(c: Cell, v: Cell): Cell {
    if c.Missing? then v else c
  }

  /** `df[name].fillna(v, inplace=True)` on an existing column. */
  function FillColumn(t: Table, name: string, v: Cell): (r: Table)
    requires Rectangular(t) && name in t.columns
    ensures r.columns == t.columns && Rectangular(r) && |r.rows| == |t.rows|
    ensures forall k :: 0 <= k < |t.rows| ==> At(r, k, name) == FillCell(At(t, k, name), v)
    ensures forall k, c :: 0 <= k < |t.rows| && c != name ==> At(r, k, c) == At(t, k, c)
  {
    SetColumn(t, name, row => FillCell(Value(t.columns, row, name), v))
  }

  /** `fillna(v)` applied to every column. */
  function FillAll(t: Table, v: Cell): (r: Table)
    requires Rectangular(t)
    ensures r.columns == t.columns && Rectangular(r) && |r.rows| == |t.rows|
    ensures forall k, j :: 0 <= k < |t.rows| && 0 <= j < |t.columns| ==> r.rows[k][j] == FillCell(t.rows[k][j], v)
  {
    Table(t.columns, seq(|t.rows|, k requires 0 <= k < |t.rows| =>
                           seq(|t.columns|, j requires 0 <= j < |t.columns| => FillCell(t.rows[k][j], v))))
  }

  /** After filling with a present value nothing is missing, present cells are kept, and
      filling again changes nothing. */
  lemma FillAllProperties(t: Table, v: Cell)
    requires Rectangular(t) && !v.Missing?
    ensures forall k, j :: 0 <= k < |t.rows| && 0 <= j < |t.columns| ==> !FillAll(t, v).rows[k][j].Missing?
    ensures forall k, j :: 0 <= k < |t.rows| && 0 <= j < |t.columns| && !t.rows[k][j].Missing? ==>
      FillAll(t, v).rows[k][j] == t.rows[k][j]
    ensures FillAll(FillAll(t, v), v) == FillAll(t, v)
  {
    var once := FillAll(t, v);
    var twice := FillAll(once, v);
    assert |twice.rows| == |once.rows|;
    forall k | 0 <= k < |once.rows|
      ensures twice.rows[k] == once.rows[k]
    {
      assert |twice.rows[k]| == |once.rows[k]|;
    }
  }

  // ---------------------------------------------------------------------------
  // merge

  /** The right-hand columns a merge keeps: every non-key column, in order. */
  function RightColumns(cols: seq<string>, keys: seq<string>): (r: seq<string>)
    ensures forall c :: c in r <==> c in cols && c !in keys
    decreases |cols|
  {
    if |cols| == 0 then []
    else
      assert forall c :: c in cols <==> c == cols[0] || c in cols[1..];
      (if cols[0] in keys then [] else [cols[0]]) + RightColumns(cols[1..], keys)
  }

  /** The cells of a right-hand row under `RightColumns`. */
  function RightPart(cols: seq<string>, row: Row, keys: seq<string>): (p: Row)
    requires |row| == |cols|
    ensures |p| == |RightColumns(cols, keys)|
    decreases |cols|
  {
    if |cols| == 0 then []
    else (if cols[0] in keys then [] else [row[0]]) + RightPart(cols[1..], row[1..], keys)
  }

  /** Merge suffixes: a non-key column that both sides hold gets `sfx` appended. */
  function Suffixed(cols: seq<string>, other: seq<string>, keys: seq<string>, sfx: string): (r: seq<string>)
    ensures |r| == |cols|
    ensures forall i :: 0 <= i < |cols| ==> r[i] == if cols[i] !in keys && cols[i] in other then cols[i] + sfx else cols[i]
  {
    seq(|cols|, i requires 0 <= i < |cols| => if cols[i] !in keys && cols[i] in other then cols[i] + sfx else cols[i])
  }

  /** The columns of `left.merge(right, on=keys)`: the left columns, then the right
      non-key columns, shared names suffixed `_x` and `_y`. */
  function JoinColumns(lcols: seq<string>, rcols: seq<string>, keys: seq<string>): (r: seq<string>)
    ensures |r| == |lcols| + |RightColumns(rcols, keys)|
    ensures forall k :: k in keys && k in lcols ==> k in r
  {
    var r := Suffixed(lcols, rcols, keys, "_x") + Suffixed(RightColumns(rcols, keys), lcols, keys, "_y");
    assert forall k :: k in keys && k in lcols ==> r[IndexOf(lcols, k)] == k;
    r
  }

  /** Two rows agree on every key column (NaN keys match each other, as in pandas). */
  predicate KeysMatch(lcols: seq<string>, a: Row, rcols: seq<string>, b: Row, keys: seq<string>) {
    forall k :: k in keys ==> Value(lcols, a, k) == Value(rcols, b, k)
  }

  /** Why a merge fails, if it does: a key missing on either side (`KeyError`), or
      suffixes that leave two columns with the same name (`MergeError`, a `ValueError`). */
  function JoinFailure(l: Table, r: Table, keys: seq<string>): (e: Option<Error>)
    ensures e.None? <==> (forall k :: k in keys ==> k in l.columns && k in r.columns)
                         && DistinctNames(JoinColumns(l.columns, r.columns, keys))
  {
    var missingLeft := FirstAbsent(keys, l.columns);
    var missingRight := FirstAbsent(keys, r.columns);
    if missingLeft.Some? then Some(KeyError(missingLeft.value))
    else if missingRight.Some? then Some(KeyError(missingRight.value))
    else if !DistinctNames(JoinColumns(l.columns, r.columns, keys)) then Some(ValueError("suffixes cause duplicate columns"))
    else None
  }

  /** `left.merge(right, on=keys, how="inner")`: one row per matching pair, in left order
      and then right order. */
  function InnerJoin(l: Table, r: Table, keys: seq<string>): (res: Result<Table>)
    requires Rectangular(l) && Rectangular(r)
    ensures res.Err? <==> JoinFailure(l, r, keys).Some?
    ensures res.Ok? ==> res.value.columns == JoinColumns(l.columns, r.columns, keys) && Rectangular(res.value)
    ensures res.Ok? ==> forall o :: o in res.value.rows ==>
      exists p :: p in Pairs(l.rows, r.rows, (a, b) => KeysMatch(l.columns, a, r.columns, b, keys))
                  && o == p.0 + RightPart(r.columns, p.1, keys)
  {
    var e := JoinFailure(l, r, keys);
    if e.Some? then Err(e.value)
    else
      var ps := Pairs(l.rows, r.rows, (a, b) => KeysMatch(l.columns, a, r.columns, b, keys));
      var rows := seq(|ps|, i requires 0 <= i < |ps| => ps[i].0 + RightPart(r.columns, ps[i].1, keys));
      assert forall o :: o in rows ==> exists p :: p in ps && o == p.0 + RightPart(r.columns, p.1, keys) by {
        forall o | o in rows
          ensures exists p :: p in ps && o == p.0 + RightPart(r.columns, p.1, keys)
        {
          var i :| 0 <= i < |rows| && rows[i] == o;
          assert ps[i] in ps;
        }
      }
      Ok(Table(JoinColumns(l.columns, r.columns, keys), rows))
  }

  /** The row a left merge emits for a left row and its match, if any. */
  function LeftJoinRow(rcols: seq<string>, a: Row, b: Option<Row>, keys: seq<string>): Row
    requires b.Some? ==> |b.value| == |rcols|
  {
    if b.Some? then a + RightPart(rcols, b.value, keys)
    else a + seq(|RightColumns(rcols, keys)|, _ => Missing)
  }

  /** `left.merge(right, on=keys, how="left")`: every left row with each of its matches,
      or with missing right-hand cells when it has none. */
  function LeftJoin(l: Table, r: Table, keys: seq<string>): (res: Result<Table>)
    requires Rectangular(l) && Rectangular(r)
    ensures res.Err? <==> JoinFailure(l, r, keys).Some?
    ensures res.Ok? ==> res.value.columns == JoinColumns(l.columns, r.columns, keys) && Rectangular(res.value)
    ensures res.Ok? ==> |res.value.rows| >= |l.rows|
  {
    var e := JoinFailure(l, r, keys);
    if e.Some? then Err(e.value)
    else
      var ps := LeftPairs(l.rows, r.rows, (a, b) => KeysMatch(l.columns, a, r.columns, b, keys));
      LeftPairsFacts(l.rows, r.rows, (a, b) => KeysMatch(l.columns, a, r.columns, b, keys));
      Ok(Table(JoinColumns(l.columns, r.columns, keys),
               seq(|ps|, i requires 0 <= i < |ps| => LeftJoinRow(r.columns, ps[i].0, ps[i].1, keys))))
  }

  /** The left merge's rows are exactly the left pairing, row for row. */
  lemma LeftJoinRows(l: Table, r: Table, keys: seq<string>)
    requires Rectangular(l) && Rectangular(r) && LeftJoin(l, r, keys).Ok?
    ensures var ps := LeftPairs(l.rows, r.rows, (a, b) => KeysMatch(l.columns, a, r.columns, b, keys));
            forall i :: 0 <= i < |ps| && ps[i].1.Some? ==> |ps[i].1.value| == |r.columns|
    ensures var ps := LeftPairs(l.rows, r.rows, (a, b) => KeysMatch(l.columns, a, r.columns, b, keys));
            var out := LeftJoin(l, r, keys).value;
            |out.rows| == |ps| &&
            forall i :: 0 <= i < |ps| ==> out.rows[i] == LeftJoinRow(r.columns, ps[i].0, ps[i].1, keys)
  {
    var ps := LeftPairs(l.rows, r.rows, (a, b) => KeysMatch(l.columns, a, r.columns, b, keys));
    LeftPairsFacts(l.rows, r.rows, (a, b) => KeysMatch(l.columns, a, r.columns, b, keys));
    assert forall i :: 0 <= i < |ps| ==> ps[i] in ps;
  }

  /** In a merge's output, a left column that keeps its name (a key, or a name the right
      side lacks) reads the left row's value. */
  lemma JoinLeftValue(lcols: seq<string>, rcols: seq<string>, keys: seq<string>, a: Row, rest: Row, key: string)
    requires key in lcols && (key in keys || key !in rcols) && |a| == |lcols|
    requires DistinctNames(JoinColumns(lcols, rcols, keys))
    ensures Value(JoinColumns(lcols, rcols, keys), a + rest, key) == Value(lcols, a, key)
  {
    var out := JoinColumns(lcols, rcols, keys);
    var i := IndexOf(lcols, key);
    assert out[i] == key;
    IndexOfDistinct(out, i);
  }

  /** The inner merge's rows are exactly the matching pairs, row for row. */
  lemma InnerJoinRows(l: Table, r: Table, keys: seq<string>)
    requires Rectangular(l) && Rectangular(r) && InnerJoin(l, r, keys).Ok?
    ensures var ps := Pairs(l.rows, r.rows, (a, b) => KeysMatch(l.columns, a, r.columns, b, keys));
            var out := InnerJoin(l, r, keys).value;
            |out.rows| == |ps| &&
            forall i :: 0 <= i < |ps| ==> out.rows[i] == ps[i].0 + RightPart(r.columns, ps[i].1, keys)
  {
  }

  /** Inner merge on one key: every output key value occurs on both sides. */
  lemma InnerJoinKeysShared(l: Table, r: Table, key: string, v: Cell)
    requires Rectangular(l) && Rectangular(r) && InnerJoin(l, r, [key]).Ok?
    requires v in KeyValues(InnerJoin(l, r, [key]).value, key)
    ensures v in KeyValues(l, key) && v in KeyValues(r, key)
  {
    var out := InnerJoin(l, r, [key]).value;
    var m := (a, b) => KeysMatch(l.columns, a, r.columns, b, [key]);
    var ps := Pairs(l.rows, r.rows, m);
    assert key in l.columns;
    var k :| 0 <= k < |out.rows| && Value(out.columns, out.rows[k], key) == v;
    InnerJoinRows(l, r, [key]);
    var p := ps[k];
    assert p in ps;
    assert p.0 in l.rows && p.1 in r.rows && m(p.0, p.1);
    JoinLeftValue(l.columns, r.columns, [key], p.0, RightPart(r.columns, p.1, [key]), key);
    assert Value(l.columns, p.0, key) == v == Value(r.columns, p.1, key);
    RowKeyValue(l, p.0, key);
    RowKeyValue(r, p.1, key);
  }

  /** A row's value in a column is one of the column's values. */
  lemma RowKeyValue(t: Table, row: Row, c: string)
    requires row in t.rows
    ensures Value(t.columns, row, c) in KeyValues(t, c)
  {
    var k :| 0 <= k < |t.rows| && t.rows[k] == row;
  }

  /** Inner merge on one key: every key value both sides hold occurs in the output. */
  lemma InnerJoinKeysKept(l: Table, r: Table, key: string, v: Cell)
    requires Rectangular(l) && Rectangular(r) && InnerJoin(l, r, [key]).Ok?
    requires v in KeyValues(l, key) && v in KeyValues(r, key)
    ensures v in KeyValues(InnerJoin(l, r, [key]).value, key)
  {
    var out := InnerJoin(l, r, [key]).value;
    var m := (a, b) => KeysMatch(l.columns, a, r.columns, b, [key]);
    var ps := Pairs(l.rows, r.rows, m);
    assert key in l.columns;
    var i :| 0 <= i < |l.rows| && Value(l.columns, l.rows[i], key) == v;
    var j :| 0 <= j < |r.rows| && Value(r.columns, r.rows[j], key) == v;
    assert m(l.rows[i], r.rows[j]);
    var p := (l.rows[i], r.rows[j]);
    assert p in ps;
    var k :| 0 <= k < |ps| && ps[k] == p;
    InnerJoinRowAt(l, r, key, k);
  }

  /** The key value of an inner-merge output row is that of the left row it came from. */
  lemma InnerJoinRowAt(l: Table, r: Table, key: string, k: nat)
    requires Rectangular(l) && Rectangular(r) && InnerJoin(l, r, [key]).Ok?
    requires k < |Pairs(l.rows, r.rows, (a, b) => KeysMatch(l.columns, a, r.columns, b, [key]))|
    ensures var out := InnerJoin(l, r, [key]).value;
            var p := Pairs(l.rows, r.rows, (a, b) => KeysMatch(l.columns, a, r.columns, b, [key]))[k];
            k < |out.rows| && Value(out.columns, out.rows[k], key) == Value(l.columns, p.0, key)
  {
    var out := InnerJoin(l, r, [key]).value;
    var p := Pairs(l.rows, r.rows, (a, b) => KeysMatch(l.columns, a, r.columns, b, [key]))[k];
    InnerJoinRows(l, r, [key]);
    assert out.rows[k] == p.0 + RightPart(r.columns, p.1, [key]);
    JoinLeftValue(l.columns, r.columns, [key], p.0, RightPart(r.columns, p.1, [key]), key);
  }

  /** Inner merge on one key: the output's key values are exactly the values both sides
      share. */
  lemma InnerJoinKeySet(l: Table, r: Table, key: string)
    requires Rectangular(l) && Rectangular(r) && InnerJoin(l, r, [key]).Ok?
    ensures KeyValues(InnerJoin(l, r, [key]).value, key) == KeyValues(l, key) * KeyValues(r, key)
  {
    forall v | v in KeyValues(InnerJoin(l, r, [key]).value, key)
      ensures v in KeyValues(l, key) * KeyValues(r, key)
    {
      InnerJoinKeysShared(l, r, key, v);
    }
    forall v | v in KeyValues(l, key) * KeyValues(r, key)
      ensures v in KeyValues(InnerJoin(l, r, [key]).value, key)
    {
      InnerJoinKeysKept(l, r, key, v);
    }
  }

  // ---------------------------------------------------------------------------
  // concat

  /** `cols` followed by the names of `more` it lacks, each once, in order. */
  function AddNew(cols: seq<string>, more: seq<string>): (r: seq<string>)
    requires DistinctNames(cols)
    ensures DistinctNames(r) && cols <= r
    ensures forall c :: c in r <==> c in cols || c in more
    decreases |more|
  {
    if |more| == 0 then cols
    else if more[0] in cols then
      var r := AddNew(cols, more[1..]);
      assert forall c :: c in more <==> c == more[0] || c in more[1..];
      r
    else
      var next := cols + [more[0]];
      assert DistinctNames(next) by {
        forall i, j | 0 <= i < j < |next|
          ensures next[i] != next[j]
        {
          if j == |cols| {
            assert next[i] in cols;
          }
        }
      }
      var r := AddNew(next, more[1..]);
      assert forall c :: c in more <==> c == more[0] || c in more[1..];
      r
  }

  /** The columns of `pd.concat(tables)`: every column name in order of first appearance. */
  function UnionColumns(ts: seq<Table>): (cols: seq<string>)
    ensures forall c :: c in cols <==> exists t :: t in ts && c in t.columns
    ensures DistinctNames(cols)
    decreases |ts|
  {
    if |ts| == 0 then []
    else
      var init := UnionColumns(ts[..|ts| - 1]);
      assert forall t :: t in ts <==> t in ts[..|ts| - 1] || t == ts[|ts| - 1];
      AddNew(init, ts[|ts| - 1].columns)
  }

  /** A row realigned to `cols`, with missing cells under columns its table lacks. */
  function Realign(cols: seq<string>, tcols: seq<string>, row: Row): (r: Row)
    ensures |r| == |cols|
  {
    seq(|cols|, j requires 0 <= j < |cols| => Value(tcols, row, cols[j]))
  }

  /** Realigning keeps the row's value under every column of the result. */
  lemma RealignValue(cols: seq<string>, tcols: seq<string>, row: Row, c: string)
    requires DistinctNames(cols) && c in cols
    ensures Value(cols, Realign(cols, tcols, row), c) == Value(tcols, row, c)
  {
  }

  /** The rows of one table realigned to `cols`. */
  function RealignAll(cols: seq<string>, t: Table): (rows: seq<Row>)
    ensures |rows| == |t.rows|
    ensures forall k :: 0 <= k < |rows| ==> rows[k] == Realign(cols, t.columns, t.rows[k])
  {
    seq(|t.rows|, k requires 0 <= k < |t.rows| => Realign(cols, t.columns, t.rows[k]))
  }

  function TotalRows(ts: seq<Table>): nat
    decreases |ts|
  {
    if |ts| == 0 then 0 else |ts[0].rows| + TotalRows(ts[1..])
  }

  /** The rows of every table in turn, realigned to `cols`. */
  function ConcatRows(cols: seq<string>, ts: seq<Table>): (rows: seq<Row>)
    ensures |rows| == TotalRows(ts)
    ensures forall k :: 0 <= k < |rows| ==> |rows[k]| == |cols|
    ensures forall n, k :: 0 <= n < |ts| && 0 <= k < |ts[n].rows| ==> Realign(cols, ts[n].columns, ts[n].rows[k]) in rows
    decreases |ts|
  {
    if |ts| == 0 then []
    else
      var head := RealignAll(cols, ts[0]);
      var tail := ConcatRows(cols, ts[1..]);
      assert forall n, k :: 1 <= n < |ts| && 0 <= k < |ts[n].rows| ==> Realign(cols, ts[n].columns, ts[n].rows[k]) in tail by {
        forall n, k | 1 <= n < |ts| && 0 <= k < |ts[n].rows|
          ensures Realign(cols, ts[n].columns, ts[n].rows[k]) in tail
        {
          assert ts[n] == ts[1..][n - 1];
        }
      }
      assert forall k :: 0 <= k < |ts[0].rows| ==> head[k] in head;
      head + tail
  }

  /** `pd.concat(tables, ignore_index=True)`: the rows of each table in turn, realigned to
      the union of the columns (see `RealignValue`); `ValueError` for an empty list. */
  function Concat(ts: seq<Table>): (r: Result<Table>)
    ensures r.Err? <==> |ts| == 0
    ensures r.Ok? ==> r.value.columns == UnionColumns(ts) && Rectangular(r.value)
    ensures r.Ok? ==> |r.value.rows| == TotalRows(ts)
    ensures r.Ok? ==> forall n, k :: 0 <= n < |ts| && 0 <= k < |ts[n].rows| ==>
      Realign(r.value.columns, ts[n].columns, ts[n].rows[k]) in r.value.rows
  {
    if |ts| == 0 then Err(ValueError("No objects to concatenate"))
    else Ok(Table(UnionColumns(ts), ConcatRows(UnionColumns(ts), ts)))
  }
}

=== FILE: unifier.dfy ===
/** phenotypes/unifier_functions.py, first half: the lab-measurement harmoniser selects
    the columns it needs, keeps the measurements of the concepts its metadata knows,
    maps raw unit names to reduced ones and applies the conversion factors.
 */
module Unifier {
  import opened Wrappers
  import opened Seqs
  import opened Tables
  import Strings

  const ConceptId := "measurement_concept_id"
  const ConceptName := "standard_concept_name"
  const UnitName := "unit_concept_name"
  const AssignedUnit := "assigned_unit"
  const ReducedUnit := "reduced_unit"
  const ClassifiedUnit := "classified_unit"
  const StandardUnit := "standard_unit"
  const LabName := "lab_name"
  const ValueCol := "value_as_number"
  const UneditedValue := "unedited_value_as_number"
  const Factor := "conversion_factor"
  const FinalUnit := "final_unit"
  const ConversionKeys: seq<string> := [LabName, ClassifiedUnit, StandardUnit]

  /** The columns `preprocess` asks for by default. */
  const DefaultColumns: seq<string> := [
    "person_id", ConceptId, "src_id", "measurement_datetime", ConceptName,
    "standard_concept_code", "standard_vocabulary", UnitName, ValueCol, "operator_concept_name"]

  // ---------------------------------------------------------------------------
  // preprocess

  /** `preprocess`: the requested columns in the requested order, or `ValueError` when one
      of them is not a column. */
  function Preprocess(t: Table, names: seq<string>): (r: Result<Table>)
    requires Rectangular(t)
    ensures r.Ok? <==> forall n :: n in names ==> n in t.columns
    ensures r.Err? ==> r.error.ValueError?
    ensures r.Ok? ==> r.value.columns == names && Rectangular(r.value) && |r.value.rows| == |t.rows|
    ensures r.Ok? && DistinctNames(names) ==>
      forall k, c :: 0 <= k < |t.rows| && c in names ==> At(r.value, k, c) == At(t, k, c)
  {
    if FirstAbsent(names, t.columns).Some? then
      Err(ValueError("Invalid combination of DataFrame columns and requested columns."))
    else Select(t, names)
  }

  /** A table that already has exactly the requested (distinct) columns is selected as it is. */
  lemma SelectOwnColumns(t: Table)
    requires Rectangular(t) && DistinctNames(t.columns)
    ensures Preprocess(t, t.columns) == Ok(t)
  {
    var r := Preprocess(t, t.columns).value;
    forall k | 0 <= k < |t.rows|
      ensures r.rows[k] == t.rows[k]
    {
      forall j | 0 <= j < |t.columns|
        ensures r.rows[k][j] == t.rows[k][j]
      {
        IndexOfDistinct(t.columns, j);
        assert At(r, k, t.columns[j]) == At(t, k, t.columns[j]);
      }
      assert |r.rows[k]| == |t.rows[k]|;
    }
    assert r.rows == t.rows;
  }

  /** Preprocessing twice with distinct names is preprocessing once. */
  lemma PreprocessIdempotent(t: Table, names: seq<string>)
    requires Rectangular(t) && DistinctNames(names) && Preprocess(t, names).Ok?
    ensures Preprocess(Preprocess(t, names).value, names) == Preprocess(t, names)
  {
    SelectOwnColumns(Preprocess(t, names).value);
  }

  // ---------------------------------------------------------------------------
  // filter_and_merge

  /** The concept ids of the metadata, as `isin` sees them (structural membership). */
  predicate KnownConcept(meta: Table, cols: seq<string>, row: Row) {
    Value(cols, row, ConceptId) in KeyValues(meta, ConceptId)
  }

  /** `filter_and_merge`: the measurements of concepts the metadata lists, each joined with
      its metadata row minus `standard_concept_name`. `KeyError` when a side lacks the
      concept id or the metadata lacks the name column. */
  function FilterAndMerge(df: Table, meta: Table): (r: Result<Table>)
    requires Rectangular(df) && Rectangular(meta)
    ensures ConceptId !in meta.columns ==> r == Err(KeyError(ConceptId))
    ensures ConceptId !in df.columns ==> r.Err? && r.error == KeyError(ConceptId)
    ensures ConceptName !in meta.columns ==> r.Err? && r.error.KeyError?
    ensures r.Ok? ==> Rectangular(r.value) && ConceptId in r.value.columns
  {
    if ConceptId !in meta.columns then Err(KeyError(ConceptId))
    else if ConceptId !in df.columns then Err(KeyError(ConceptId))
    else
      var filtered := FilterRows(df, row => KnownConcept(meta, df.columns, row));
      var dropped :- DropColumn(meta, ConceptName);
      InnerJoin(filtered, dropped, [ConceptId])
  }

  /** The concept filter keeps exactly the ids both tables hold. */
  lemma KnownConceptKeys(df: Table, meta: Table)
    requires Rectangular(df) && Rectangular(meta)
    ensures KeyValues(FilterRows(df, row => KnownConcept(meta, df.columns, row)), ConceptId)
            == KeyValues(df, ConceptId) * KeyValues(meta, ConceptId)
  {
    var f := FilterRows(df, row => KnownConcept(meta, df.columns, row));
    forall v | v in KeyValues(f, ConceptId)
      ensures v in KeyValues(df, ConceptId) * KeyValues(meta, ConceptId)
    {
      var k :| 0 <= k < |f.rows| && Value(f.columns, f.rows[k], ConceptId) == v;
      assert f.rows[k] in f.rows;
      var i :| 0 <= i < |df.rows| && df.rows[i] == f.rows[k];
    }
    forall v | v in KeyValues(df, ConceptId) * KeyValues(meta, ConceptId)
      ensures v in KeyValues(f, ConceptId)
    {
      var i :| 0 <= i < |df.rows| && Value(df.columns, df.rows[i], ConceptId) == v;
      assert df.rows[i] in f.rows;
      var k :| 0 <= k < |f.rows| && f.rows[k] == df.rows[i];
    }
  }

  /** Dropping another column keeps the metadata's concept ids. */
  lemma DroppedKeys(meta: Table)
    requires Rectangular(meta) && DistinctNames(meta.columns) && ConceptName in meta.columns
    ensures KeyValues(DropColumn(meta, ConceptName).value, ConceptId) == KeyValues(meta, ConceptId)
  {
    var d := DropColumn(meta, ConceptName).value;
    forall k | 0 <= k < |meta.rows|
      ensures At(d, k, ConceptId) == At(meta, k, ConceptId)
    {
      DropColumnKeeps(meta, ConceptName, k, ConceptId);
    }
    forall v | v in KeyValues(meta, ConceptId)
      ensures v in KeyValues(d, ConceptId)
    {
      var k :| 0 <= k < |meta.rows| && Value(meta.columns, meta.rows[k], ConceptId) == v;
      assert At(d, k, ConceptId) == v;
    }
    forall v | v in KeyValues(d, ConceptId)
      ensures v in KeyValues(meta, ConceptId)
    {
      var k :| 0 <= k < |d.rows| && Value(d.columns, d.rows[k], ConceptId) == v;
      assert At(meta, k, ConceptId) == v;
    }
  }

  /** The merged measurements carry exactly the concept ids that occur both among the
      measurements and in the metadata (with distinct metadata column names). */
  lemma FilterAndMergeKeys(df: Table, meta: Table)
    requires Rectangular(df) && Rectangular(meta) && DistinctNames(meta.columns)
    requires FilterAndMerge(df, meta).Ok?
    ensures KeyValues(FilterAndMerge(df, meta).value, ConceptId) == KeyValues(df, ConceptId) * KeyValues(meta, ConceptId)
  {
    var f := FilterRows(df, row => KnownConcept(meta, df.columns, row));
    var d := DropColumn(meta, ConceptName).value;
    KnownConceptKeys(df, meta);
    DroppedKeys(meta);
    InnerJoinKeySet(f, d, ConceptId);
  }

  // ---------------------------------------------------------------------------
  // unit_mapper, unit_classifier

  /** The last position holding `u`: the entry `dict(zip(...))` keeps for a repeated key. */
  function LastMatch(keys: seq<Cell>, u: Cell): (r: Option<nat>)
    ensures r.None? <==> u !in keys
    ensures r.Some? ==> r.value < |keys| && keys[r.value] == u
    ensures r.Some? ==> forall j :: r.value < j < |keys| ==> keys[j] != u
    decreases |keys|
  {
    if |keys| == 0 then None
    else if keys[|keys| - 1] == u then Some(|keys| - 1)
    else
      var r := LastMatch(keys[..|keys| - 1], u);
      assert forall x :: x in keys ==> x in keys[..|keys| - 1] || x == keys[|keys| - 1];
      r
  }

  /** The `(assigned_unit, reduced_unit)` pairs of the unit map, in row order. */
  function UnitPairs(unitMap: Table): (ps: seq<(Cell, Cell)>)
    ensures |ps| == |unitMap.rows|
    ensures forall j :: 0 <= j < |ps| ==> ps[j] == (At(unitMap, j, AssignedUnit), At(unitMap, j, ReducedUnit))
  {
    seq(|unitMap.rows|, j requires 0 <= j < |unitMap.rows| => (At(unitMap, j, AssignedUnit), At(unitMap, j, ReducedUnit)))
  }

  /** The raw unit names the unit map renames. */
  function MappedUnits(unitMap: Table): (keys: seq<Cell>)
    ensures |keys| == |unitMap.rows|
    ensures forall j :: 0 <= j < |keys| ==> keys[j] == At(unitMap, j, AssignedUnit)
  {
    seq(|unitMap.rows|, j requires 0 <= j < |unitMap.rows| => At(unitMap, j, AssignedUnit))
  }

  /** A missing unit becomes the string "none". */
  function NoneIfMissing(c: Cell): (r: Cell)
    ensures !r.Missing?
    ensures !c.Missing? ==> r == c
  {
    if c.Missing? then Str("none") else c
  }

  /** The assigned unit of one measurement: the reduced unit of its name's last map entry,
      or the name itself, with "none" for a missing result. */
  function Assign(m: map<Cell, Cell>, unit: Cell): Cell {
    NoneIfMissing(if unit in m then m[unit] else unit)
  }

  /** The map `dict(zip(...))` agrees with the last matching row of the unit map. */
  lemma UnitMapLookup(unitMap: Table, u: Cell)
    ensures var m := ToMap(UnitPairs(unitMap));
            var j := LastMatch(MappedUnits(unitMap), u);
            (u in m <==> j.Some?) && (j.Some? ==> m[u] == At(unitMap, j.value, ReducedUnit))
  {
    var ps := UnitPairs(unitMap);
    var j := LastMatch(MappedUnits(unitMap), u);
    if j.Some? {
      ToMapLastWins(ps, j.value);
    } else {
      forall i | 0 <= i < |ps|
        ensures ps[i].0 != u
      {
        assert MappedUnits(unitMap)[i] == ps[i].0;
      }
    }
  }

  /** `unit_mapper`: `assigned_unit` is set for every row; `KeyError` when a column it
      reads is absent. */
  function UnitMapper(t: Table, unitMap: Table): (r: Result<Table>)
    requires Rectangular(t)
    ensures r.Ok? <==> UnitName in t.columns && AssignedUnit in unitMap.columns && ReducedUnit in unitMap.columns
    ensures r.Err? ==> r.error.KeyError?
    ensures r.Ok? ==> Rectangular(r.value) && |r.value.rows| == |t.rows| && AssignedUnit in r.value.columns
    ensures r.Ok? ==> forall k :: 0 <= k < |t.rows| ==>
      At(r.value, k, AssignedUnit) == Assign(ToMap(UnitPairs(unitMap)), At(t, k, UnitName))
    ensures r.Ok? ==> forall k, c :: 0 <= k < |t.rows| && c != AssignedUnit ==> At(r.value, k, c) == At(t, k, c)
  {
    if UnitName !in t.columns then Err(KeyError(UnitName))
    else if AssignedUnit !in unitMap.columns then Err(KeyError(AssignedUnit))
    else if ReducedUnit !in unitMap.columns then Err(KeyError(ReducedUnit))
    else
      var m := ToMap(UnitPairs(unitMap));
      Ok(SetColumn(t, AssignedUnit, row => Assign(m, Value(t.columns, row, UnitName))))
  }

  /** The assigned unit is never missing: it is the reduced unit of the last map row
      naming the unit, or the unit itself when no row names it, with "none" in place of a
      missing value. */
  lemma AssignedUnitMeaning(t: Table, unitMap: Table, k: nat)
    requires Rectangular(t) && UnitMapper(t, unitMap).Ok? && k < |t.rows|
    ensures var a := At(UnitMapper(t, unitMap).value, k, AssignedUnit);
            var u := At(t, k, UnitName);
            var j := LastMatch(MappedUnits(unitMap), u);
            !a.Missing? &&
            (j.Some? ==> a == NoneIfMissing(At(unitMap, j.value, ReducedUnit))) &&
            (j.None? ==> a == NoneIfMissing(u))
  {
    UnitMapLookup(unitMap, At(t, k, UnitName));
  }

  /** `unit_classifier`: `classified_unit` is a copy of `assigned_unit`. */
  function UnitClassifier(t: Table): (r: Result<Table>)
    requires Rectangular(t)
    ensures r.Ok? <==> AssignedUnit in t.columns
    ensures r.Err? ==> r.error == KeyError(AssignedUnit)
    ensures r.Ok? ==> Rectangular(r.value) && |r.value.rows| == |t.rows| && ClassifiedUnit in r.value.columns
    ensures r.Ok? ==> forall k :: 0 <= k < |t.rows| ==> At(r.value, k, ClassifiedUnit) == At(t, k, AssignedUnit)
    ensures r.Ok? ==> forall k, c :: 0 <= k < |t.rows| && c != ClassifiedUnit ==> At(r.value, k, c) == At(t, k, c)
  {
    if AssignedUnit !in t.columns then Err(KeyError(AssignedUnit))
    else Ok(SetColumn(t, ClassifiedUnit, row => Value(t.columns, row, AssignedUnit)))
  }

  // ---------------------------------------------------------------------------
  // unit_converter

  /** The conversion mask `conversion_factor != 0`: true for a missing factor too. */
  predicate Converts(factor: Cell) {
    !Eq(factor, Int(0))
  }

  /** A Python integer operand usable as a repeat count; `bool` is an `int` subclass. */
  function RepeatCount(c: Cell): Option<int> {
    match c
    case Int(i) => Some(i)
    case Bool(b) => Some(if b then 1 else 0)
    case _ => None
  }

  /** `value * factor` on object columns, cell by cell. A missing operand gives missing:
      when Python's `*` raises on some pair, pandas retries on the pairs where both
      operands are present and leaves the rest missing. A string times an integer repeats
      the string; a string times anything else raises; numbers multiply. */
  function Mul(a: Cell, b: Cell): (r: Result<Cell>)
    ensures a.Missing? || b.Missing? ==> r == Ok(Missing)
    ensures r.Err? <==> (a.Str? && !b.Missing? && RepeatCount(b).None?)
                        || (b.Str? && !a.Missing? && RepeatCount(a).None?)
    ensures a.Str? && RepeatCount(b).Some? ==> r == Ok(Str(Strings.Repeat(a.s, RepeatCount(b).value)))
    ensures b.Str? && RepeatCount(a).Some? ==> r == Ok(Str(Strings.Repeat(b.s, RepeatCount(a).value)))
    ensures AsNumber(a).Some? && AsNumber(b).Some? ==>
      r.Ok? && AsNumber(r.value) == Some(AsNumber(a).value * AsNumber(b).value)
  {
    if a.Missing? || b.Missing? then Ok(Missing)
    else if a.Str? && RepeatCount(b).Some? then Ok(Str(Strings.Repeat(a.s, RepeatCount(b).value)))
    else if b.Str? && RepeatCount(a).Some? then Ok(Str(Strings.Repeat(b.s, RepeatCount(a).value)))
    else if a.Str? || b.Str? then Err(TypeError("can't multiply sequence by non-int of type 'float'"))
    else Ok(Real(AsNumber(a).value * AsNumber(b).value))
  }

  /** A row whose multiplication would raise: the factor is used and a string meets a
      present operand that is not an integer. */
  predicate BadProduct(t: Table, k: nat)
    requires k < |t.rows|
  {
    Converts(At(t, k, Factor)) && Mul(At(t, k, ValueCol), At(t, k, Factor)).Err?
  }

  /** Lines 85-98 of `unit_converter`, on the merged table: keep the value, choose the final
      unit, multiply. `KeyError` when a column it reads is absent; `TypeError` when a row
      to convert holds a string. */
  function ApplyConversion(m: Table): (r: Result<Table>)
    requires Rectangular(m)
    ensures r.Ok? <==> (forall c :: c in [ValueCol, Factor, StandardUnit, ClassifiedUnit] ==> c in m.columns)
                       && forall k :: 0 <= k < |m.rows| ==> !BadProduct(m, k)
    ensures r.Err? && ValueCol !in m.columns ==> r.error == KeyError(ValueCol)
    ensures r.Ok? ==> Rectangular(r.value) && |r.value.rows| == |m.rows|
    ensures r.Ok? ==> forall k :: 0 <= k < |m.rows| ==>
      At(r.value, k, UneditedValue) == At(m, k, ValueCol) &&
      At(r.value, k, FinalUnit) == (if Converts(At(m, k, Factor)) then At(m, k, StandardUnit) else At(m, k, ClassifiedUnit)) &&
      At(r.value, k, ValueCol) == ConvertedValue(m.columns, m.rows[k])
    ensures r.Ok? ==> forall k, c :: 0 <= k < |m.rows| && c !in [UneditedValue, FinalUnit, ValueCol] ==>
      At(r.value, k, c) == At(m, k, c)
  {
    var absent := FirstAbsent([ValueCol, Factor, StandardUnit, ClassifiedUnit], m.columns);
    if absent.Some? then Err(KeyError(absent.value))
    else if exists k :: 0 <= k < |m.rows| && BadProduct(m, k) then
      Err(TypeError("can't multiply sequence by non-int of type 'float'"))
    else
      Ok(ConversionSteps(m))
  }

  /** The three assignments of lines 85-98, on a table with the columns they read. */
  function ConversionSteps(m: Table): (r: Table)
    requires Rectangular(m)
    ensures Rectangular(r) && |r.rows| == |m.rows|
    ensures forall k :: 0 <= k < |m.rows| ==>
      At(r, k, UneditedValue) == At(m, k, ValueCol) &&
      At(r, k, FinalUnit) == (if Converts(At(m, k, Factor)) then At(m, k, StandardUnit) else At(m, k, ClassifiedUnit)) &&
      At(r, k, ValueCol) == ConvertedValue(m.columns, m.rows[k])
    ensures forall k, c :: 0 <= k < |m.rows| && c !in [UneditedValue, FinalUnit, ValueCol] ==> At(r, k, c) == At(m, k, c)
  {
    var kept := SetColumn(m, UneditedValue, row => Value(m.columns, row, ValueCol));
    var unit := SetColumn(kept, FinalUnit, row =>
      if Converts(Value(kept.columns, row, Factor)) then Value(kept.columns, row, StandardUnit)
      else Value(kept.columns, row, ClassifiedUnit));
    var r := SetColumn(unit, ValueCol, row => ConvertedValue(unit.columns, row));
    forall k | 0 <= k < |m.rows|
      ensures At(r, k, UneditedValue) == At(m, k, ValueCol)
      ensures At(r, k, FinalUnit) == (if Converts(At(m, k, Factor)) then At(m, k, StandardUnit) else At(m, k, ClassifiedUnit))
      ensures At(r, k, ValueCol) == ConvertedValue(m.columns, m.rows[k])
    {
      assert At(kept, k, Factor) == At(m, k, Factor) && At(kept, k, ValueCol) == At(m, k, ValueCol);
      assert At(kept, k, StandardUnit) == At(m, k, StandardUnit) && At(kept, k, ClassifiedUnit) == At(m, k, ClassifiedUnit);
      assert At(unit, k, Factor) == At(m, k, Factor) && At(unit, k, ValueCol) == At(m, k, ValueCol);
      assert At(unit, k, UneditedValue) == At(kept, k, UneditedValue);
    }
    r
  }

  /** The new value of a row: the product where the factor is used (and the product does
      not raise), else the value as it was. */
  function ConvertedValue(cols: seq<string>, row: Row): Cell {
    var v := Value(cols, row, ValueCol);
    var f := Value(cols, row, Factor);
    if Converts(f) && Mul(v, f).Ok? then Mul(v, f).value else v
  }

  /** A measurement whose factor is missing (no conversion row matched it) is converted
      all the same: its unit becomes the standard unit and its value becomes missing. A
      factor of 0 keeps the classified unit and the value. */
  lemma FactorCases(m: Table, k: nat)
    requires Rectangular(m) && ApplyConversion(m).Ok? && k < |m.rows|
    ensures At(m, k, Factor).Missing? ==>
      At(ApplyConversion(m).value, k, FinalUnit) == At(m, k, StandardUnit) &&
      At(ApplyConversion(m).value, k, ValueCol).Missing?
    ensures Eq(At(m, k, Factor), Int(0)) ==>
      At(ApplyConversion(m).value, k, FinalUnit) == At(m, k, ClassifiedUnit) &&
      At(ApplyConversion(m).value, k, ValueCol) == At(m, k, ValueCol)
  {
    assert !BadProduct(m, k);
  }

  /** The merge of `unit_converter`: the conversion table with `assigned_unit` renamed,
      left-merged on lab, classified unit and standard unit. */
  function ConversionMerge(t: Table, convert: Table): (r: Result<Table>)
    requires Rectangular(t) && Rectangular(convert)
    ensures r.Ok? ==> Rectangular(r.value) && |r.value.rows| >= |t.rows|
    ensures LabName !in t.columns ==> r == Err(KeyError(LabName))
  {
    LeftJoin(t, RenameColumn(convert, AssignedUnit, ClassifiedUnit), ConversionKeys)
  }

  /** `unit_converter`: every measurement survives the merge (once per matching conversion
      row), and the conversion is applied to the merged rows. */
  function UnitConverter(t: Table, convert: Table): (r: Result<Table>)
    requires Rectangular(t) && Rectangular(convert)
    ensures r.Ok? ==> Rectangular(r.value) && |r.value.rows| >= |t.rows|
    ensures LabName !in t.columns ==> r == Err(KeyError(LabName))
  {
    var m :- ConversionMerge(t, convert);
    ApplyConversion(m)
  }
}

=== FILE: wrappers.dfy ===
/** Failure-carrying datatypes shared by the whole model.

    The scripts signal failure by raising Python exceptions; the model returns
    `Err(e)` where `e` names the exception the script would have raised.
 */
module Wrappers {

  datatype Option<+T> = None | Some(value: T) {
    function GetOr(default: T): T {
      match this
      case Some(v) => v
      case None => default
    }
  }

  /** The exceptions the modelled scripts can raise. */
  datatype Error =
    | KeyError(key: string)            // a column or dictionary key that is absent
    | ValueError(reason: string)       // an explicit `raise ValueError(...)`
    | TypeError(reason: string)        // an operator applied to values of the wrong type
    | IndexError(reason: string)       // indexing an empty sequence
    | AttributeError(reason: string)   // a string method applied to a non-string

  datatype Result<+T> = Ok(value: T) | Err(error: Error) {
    predicate IsFailure() {
      Err?
    }

    function PropagateFailure<U>(): Result<U>
      requires Err?
    {
      Err(error)
    }

    function Extract(): T
      requires Ok?
    {
      value
    }
  }
}
